=== FILE: README.md ===
# excel-export, modelled in Dafny

excel-export turns lists of Java records into Excel workbooks via Apache POI.
Fields of a record class carry an `@ExcelAttribute` annotation. It gives the
column title, an optional explicit column letter, an optional prompt and
choice list, a date format, a translate table, and the flags isExport,
isMark and isSum. The annotation also lists the view groups the field
belongs to.

`ExcelUtil` selects the annotated fields of a class. The current view, if
one is set, filters them. It then writes records in one of three ways:

- `exportDataList` writes one list over as many sheets as `MAX_ROW`
  (1048576 records per sheet) requires.
- `exportMultipleDataList` writes one sheet per non-empty list.
- The grouped `exportDataList` writes several lists as blocks stacked on a
  single sheet, with `delimiter` blank lines between blocks.

In the first two modes `ExcelSheet` fills each sheet in three steps:

1. `addHeaders` writes the title row and validations.
2. `addContent` writes one row per record. Each value is rendered to text,
   translated, and written as a string cell or a numeric cell.
3. `addSummary` writes a row in which every summed column holds
   "合计: " followed by its total with two decimals.

The model has these parts:

- **The sheet** is a `Workbook.Sheet` class. Its row map, last row number and
  validation list are updated in place.
- **Operations** are methods on `ExcelSheets.ExcelSheet` and
  `ExcelExport.ExcelUtil` and their helpers.
- **Specifications.** Each method is proved against a specification function:
  `HeaderRow`, `WithContent`, `SummaryRowUpTo`, `Block`, `SheetRows`,
  `PagedRows`, `MultiRows` and `GroupedLayout`. Lemmas then state what those
  functions guarantee:
  - where every record lands;
  - which cells a row has;
  - what a summary cell totals;
  - that a block written once survives the later blocks;
  - which exception ends an export.
- **BigDecimal** values are modelled as `Decimals.Dec` (unscaled value and
  scale). Rounding is HALF_EVEN, and text is rendered with two decimals.
- **Column letters** follow `getExcelCol`: a bijective base-26 number minus
  one. It is proved to be a bijection with `ExcelColumns.ColumnName`.
- **Reflection** is replaced by values:
  - a class is a `FieldSelection.ClassInfo`, holding its declared fields and
    its superclass's fields;
  - a record is a map from field name to `Coercion.Value`.
- **Library calls are parameters.** Date formatting and `Double.parseDouble`
  form `Coercion.Env`. `NumberUtils.isNumber` and the summary's conversion
  `BigDecimal.valueOf(Double.valueOf(text))` form `ExcelSheets.SumEnv`.
  The conversion is partial: it gives no value where the Java call throws.
  `isNumber` accepts texts that `Double.valueOf` rejects, such as "123L"
  and "0x1A". A text such as "1e400" becomes an infinite double, which
  `BigDecimal.valueOf` rejects. The lemmas hold for every choice of these
  functions.

Points where the code and its documentation differ; the model follows the
code:

- `exportDataList` and `exportMultipleDataList` call `createHeaders` and
  `fillInContent`, which `ExcelSheet` does not define. They are modelled as
  the `addHeaders` and `addContent` that `ExcelSheet` does define, with the
  same arguments.
- The content regex is the literal `^//d+(//.//d+)?$`. Java reads it as
  slashes and the letter `d`, not digits. So a rendered number such as
  `"123"` or `"100.12"` never matches and is written as a string cell. A
  text that does match (for example `"//d"`) makes `Double.parseDouble`
  throw. Only an entry in the translate table can turn it into a numeric
  cell.
- `addSummary` totals every row from 0 up to the summary row. This
  includes the header row, whose titles count whenever `isNumber` accepts
  them. Numeric cells are never added, only string cells.
- The grouped export:
  - uses only the declared fields of each list's class (no superclass
    fields);
  - writes a header cell for every selected field, even when isExport is
    false;
  - uses the annotation's date format;
  - gives its prompts an empty title, where `addHeaders` uses "提示";
  - places fields at their explicit column letters;
  - totals each summed column from the block's first record row up to the
    row before the sheet's last row number.
- Every prompt box and choice list covers rows 1 to 100 of its column,
  however many records there are.
- A `NumberFormatException` ends the export. It comes either from a content
  cell or from a summary total that meets a text the conversion rejects.
  The model returns it as the error (`Coercion.CoerceError`) that ends the
  export. The grouped export also wraps it in `ExcelException`; that
  wrapping is left out.

## Model

| member | source | states |
|---|---|---|
| ExcelAttribute.DefaultColumnIsBlank | src/main/java/com/allinmoney/platform/annotation/ExcelAttribute.java:26 | The default column "" is blank as StringUtils.isNotBlank judges it |
| ExcelColumns.GetExcelCol | src/main/java/com/allinmoney/platform/excel/ExcelUtil.java:411-420 | The loop returns ColIndex(col): the bijective base-26 value of the upper-cased text, minus one |
| ExcelColumns.PlaceSumIsBijective | src/main/java/com/allinmoney/platform/excel/ExcelUtil.java:415-417 | The positional sum the loop accumulates, with each digit weighted by 26^(n-1-i), equals the bijective base-26 value read left to right |
| ExcelColumns.ColIndexExamples | src/main/java/com/allinmoney/platform/excel/ExcelUtil.java:411-420 | "A" gives 0, "Z" 25, "AA" 26 and "a" 0; nothing is rejected: "" gives -1 and "1" gives -16 |
| ExcelColumns.ColIndexCaseInsensitive | src/main/java/com/allinmoney/platform/excel/ExcelUtil.java:412 | Upper-casing the text first changes no column index |
| ExcelColumns.ColumnName | src/main/java/com/allinmoney/platform/excel/ExcelUtil.java:411-420 | The inverse direction: every column number n >= 0 has a non-empty name made of upper-case letters |
| ExcelColumns.ColumnNameRoundTrip | src/main/java/com/allinmoney/platform/excel/ExcelUtil.java:411-420 | getExcelCol(ColumnName(n)) == n for every n >= 0 |
| ExcelColumns.ColIndexInjective | src/main/java/com/allinmoney/platform/excel/ExcelUtil.java:411-420 | Two upper-case letter strings with the same column index are equal |
| ExcelColumns.ColIndexBijection | src/main/java/com/allinmoney/platform/excel/ExcelUtil.java:411-420 | For an upper-case letter string s, ColIndex(s) == n iff s == ColumnName(n) |
| ExcelColumns.DefaultFieldKeepsPosition | src/main/java/com/allinmoney/platform/excel/ExcelUtil.java:258-262 | A field with the default column stays at its list position |
| FieldSelection.InGroups | src/main/java/com/allinmoney/platform/excel/ExcelUtil.java:491-496 | The search over groups finds a match iff the view is one of the groups |
| FieldSelection.GetAnnotatedFields | src/main/java/com/allinmoney/platform/excel/ExcelUtil.java:475-504 | The loop returns exactly Select(Candidates(cls, superFlag), view) |
| FieldSelection.SelectAppend | src/main/java/com/allinmoney/platform/excel/ExcelUtil.java:483-501 | The filter distributes over concatenation |
| FieldSelection.SuperFieldsFirst | src/main/java/com/allinmoney/platform/excel/ExcelUtil.java:478-481 | With superFlag set, the selected superclass fields come before the selected fields of the class itself |
| FieldSelection.SelectIsOrderedSubsequence | src/main/java/com/allinmoney/platform/excel/ExcelUtil.java:483-501 | The result is the ordered subsequence of kept fields: the k-th result is the field at the k-th kept index, the indices increase, and an index is kept iff its field passes the filter |
| FieldSelection.SelectionCriterion | src/main/java/com/allinmoney/platform/excel/ExcelUtil.java:484-500 | A field is selected iff it is annotated and either no view is set or the view is among its groups |
| FieldSelection.DefaultGroupsNeverMatch | src/main/java/com/allinmoney/platform/annotation/ExcelAttribute.java:20 | Under any view, a field that leaves groups at the empty default is never selected |
| Pagination.SheetCountIsCeiling | src/main/java/com/allinmoney/platform/excel/ExcelUtil.java:121-122 | At least one sheet; for a non-empty list the count is size / MAX_ROW rounded up |
| Pagination.PaginationExamples | src/main/java/com/allinmoney/platform/excel/ExcelUtil.java:121-122 | 0 records give 1 empty sheet, MAX_ROW records give 1 sheet, and MAX_ROW + 1 records give 2 sheets, the second holding the last record |
| Pagination.EveryRecordOnOneSheet | src/main/java/com/allinmoney/platform/excel/ExcelSheet.java:256-257 | Record k falls in the slice of sheet i iff i == k / MAX_ROW, and that sheet exists |
| Pagination.SliceBounds | src/main/java/com/allinmoney/platform/excel/ExcelSheet.java:256-259 | A slice lies inside the list and holds at most MAX_ROW records; in multiple mode it holds the whole list |
| Pagination.EndNoOverflowDropsRecords | src/main/java/com/allinmoney/platform/excel/ExcelSheet.java:257 | In int arithmetic the last sheet of a 2^31 - 1 record list gets an endNo below its startNo and writes none of its 1048575 records |
| Pagination.EndNo32Agrees | src/main/java/com/allinmoney/platform/excel/ExcelSheet.java:257 | Whenever startNo + MAX_ROW fits in an int, the int endNo equals the exact one |
| Ints.IntToString | src/main/java/com/allinmoney/platform/excel/ExcelUtil.java:126 | The sheet-number text starts with '-' iff the number is negative; otherwise it is all digits and denotes the number |
| Ints.NatToStringRoundTrip | src/main/java/com/allinmoney/platform/excel/ExcelUtil.java:126 | The decimal digits of n read back as n |
| Decimals.RoundHalfEvenNearest | src/main/java/com/allinmoney/platform/excel/ExcelSheet.java:289 | ROUND_HALF_EVEN picks a multiple within half a unit, and the even one on a tie |
| Decimals.RoundHalfEvenUnique | src/main/java/com/allinmoney/platform/excel/ExcelSheet.java:289 | Any quotient strictly within half a unit is the rounded one |
| Decimals.SetScale2 | src/main/java/com/allinmoney/platform/excel/ExcelSheet.java:289 | The result has scale 2; from a scale of at most 2 it is the same value, padded |
| Decimals.SetScale2Nearest | src/main/java/com/allinmoney/platform/excel/ExcelSheet.java:289 | From a larger scale, the result is the nearest hundredth, ties going to the even one |
| Decimals.RoundToScale2Examples | src/main/java/com/allinmoney/platform/excel/ExcelSheet.java:289 | 100.125 becomes 100.12, 100.1275 becomes 100.13, 123.455 becomes 123.46 and 123.445 becomes 123.44 |
| Decimals.Add | src/main/java/com/allinmoney/platform/excel/ExcelSheet.java:350 | The sum's scale is the larger of the two scales |
| Decimals.AddExact | src/main/java/com/allinmoney/platform/excel/ExcelSheet.java:350 | At any common scale, BigDecimal.add is exact |
| Decimals.ToString2 | src/main/java/com/allinmoney/platform/excel/ExcelSheet.java:289 | The text of a scale-2 value has a '.' before its last two characters and starts with '-' iff the value is negative |
| Decimals.UnsignedRoundTrip | src/main/java/com/allinmoney/platform/excel/ExcelSheet.java:289 | The unsigned text of m hundredths is digits, '.', two digits, and those denote m |
| Decimals.ToString2RoundTrip | src/main/java/com/allinmoney/platform/excel/ExcelSheet.java:289 | Parsing the text of a scale-2 value gives the value back |
| Decimals.RenderExamples | src/main/java/com/allinmoney/platform/excel/ExcelSheet.java:289 | The texts of 100.12, 100.13, 123.46 and 123.44 at scale 2 |
| Decimals.RoundingExamples | src/main/java/com/allinmoney/platform/excel/ExcelSheet.java:289 | setScale(2, HALF_EVEN).toString() of 100.125, 100.1275, 123.455 and 123.445 gives "100.12", "100.13", "123.46" and "123.44" |
| Decimals.SummaryExample | src/main/java/com/allinmoney/platform/excel/ExcelSheet.java:350-355 | 10 + 20.5 is 30.5, shown with two decimals as "30.50" |
| Coercion.BuildTranslateMap | src/main/java/com/allinmoney/platform/excel/ExcelSheet.java:296-302 | The loop builds TranslateMap(entries) |
| Coercion.TranslateLaterWins | src/main/java/com/allinmoney/platform/excel/ExcelSheet.java:296-302 | A key maps to the value of its last entry |
| Coercion.TranslateDomain | src/main/java/com/allinmoney/platform/excel/ExcelSheet.java:296-302 | A key is in the map iff some entry has it |
| Coercion.CoerceCell | src/main/java/com/allinmoney/platform/excel/ExcelSheet.java:281-315 | The try block's steps — render, build the map, test the pattern, parse or translate — give Coerce's result |
| Coercion.NoSlashIsText | src/main/java/com/allinmoney/platform/excel/ExcelSheet.java:304-315 | A rendered text without '/' never matches, so it becomes a string cell holding its translation |
| Coercion.DigitsAreNotNumeric | src/main/java/com/allinmoney/platform/excel/ExcelSheet.java:305 | As written, the pattern rejects "123" and "100.12" and accepts "//d" and "//dd//x//d" |
| Coercion.DecimalCellDenotesRoundedValue | src/main/java/com/allinmoney/platform/excel/ExcelSheet.java:288-290 | An untranslated BigDecimal never throws and becomes a string cell whose text parses back to the value set to scale 2 |
| Coercion.DateFormatPrecedence | src/main/java/com/allinmoney/platform/excel/ExcelSheet.java:284-286 | A date is formatted with the caller's dateFmt when given, else with the field's format |
| Coercion.NullIsEmptyText | src/main/java/com/allinmoney/platform/excel/ExcelSheet.java:291-293 | A null value becomes the empty string cell |
| Coercion.GenderTranslation | src/main/java/com/allinmoney/platform/excel/ExcelSheet.java:296-315 | With translate {0 → 女, 1 → 男}, the integers 1 and 0 become the string cells "男" and "女" |
| Coercion.DefaultTranslateIsIdentity | src/main/java/com/allinmoney/platform/annotation/ExcelAttribute.java:23 | With the default empty translate table, every text is kept as it is |
| Workbook.Sheet.constructor | src/main/java/com/allinmoney/platform/excel/ExcelUtil.java:180 | createSheet: a named sheet with no rows and no validations |
| Workbook.Sheet.LastRowNum | src/main/java/com/allinmoney/platform/excel/ExcelSheet.java:334 | getLastRowNum is non-negative and at least every row number present |
| Workbook.Sheet.CreateRow | src/main/java/com/allinmoney/platform/excel/ExcelSheet.java:263 | Row r becomes a new empty row; the last row number becomes max(old, r); validations are unchanged |
| Workbook.Sheet.SetCell | src/main/java/com/allinmoney/platform/excel/ExcelSheet.java:274-315 | Only cell (r, c) changes |
| Workbook.Sheet.AddValidation | src/main/java/com/allinmoney/platform/excel/ExcelUtil.java:434-461 | addValidationData appends the validation; rows are unchanged |
| ExcelSheets.HeaderRowUpTo | src/main/java/com/allinmoney/platform/excel/ExcelSheet.java:216-231 | Column i holds a cell iff field i is exported; the cell holds the title, with the mark style iff the field is marked |
| ExcelSheets.HeaderValidationsShape | src/main/java/com/allinmoney/platform/excel/ExcelSheet.java:233-239 | Every validation covers rows 1 to 100 of a single column, and that column's field is exported |
| ExcelSheets.PromptBoxIff | src/main/java/com/allinmoney/platform/excel/ExcelSheet.java:233-235 | Column i gets a prompt box titled "提示" iff field i is exported and its prompt is not blank |
| ExcelSheets.ChoiceListIff | src/main/java/com/allinmoney/platform/excel/ExcelSheet.java:237-239 | Column i gets a choice list iff field i is exported and its combo is non-empty |
| ExcelSheets.FailureSticks | src/main/java/com/allinmoney/platform/excel/ExcelSheet.java:266-321 | An exception in one field ends the row; later fields change nothing |
| ExcelSheets.ContentRowSucceeds | src/main/java/com/allinmoney/platform/excel/ExcelSheet.java:266-321 | A record's row is written iff every exported field converts without an exception |
| ExcelSheets.ContentRowCells | src/main/java/com/allinmoney/platform/excel/ExcelSheet.java:266-321 | A written row has a cell in column j iff field j is exported; that cell is the field's converted cell |
| ExcelSheets.ContentRowFirstFailure | src/main/java/com/allinmoney/platform/excel/ExcelSheet.java:266-321 | A failing row reports the exception of its first exported field that fails |
| ExcelSheets.RowsFailureSticks | src/main/java/com/allinmoney/platform/excel/ExcelSheet.java:262-323 | An exception in one record ends addContent; later records change nothing |
| ExcelSheets.WithContentSucceeds | src/main/java/com/allinmoney/platform/excel/ExcelSheet.java:262-323 | The slice is written iff every record's row succeeds |
| ExcelSheets.WithContentKeys | src/main/java/com/allinmoney/platform/excel/ExcelSheet.java:262-264 | The slice adds exactly rows 1 to end - start; other rows are kept |
| ExcelSheets.WithContentRecords | src/main/java/com/allinmoney/platform/excel/ExcelSheet.java:262-264 | Record i of the slice is in row i + 1 - startNo |
| ExcelSheets.WithContentLayout | src/main/java/com/allinmoney/platform/excel/ExcelSheet.java:255-324 | For a written slice: every record's row succeeded; the rows present are the old ones plus 1 to end - start; record i is row i + 1 - startNo; all other rows are unchanged |
| ExcelSheets.SummaryRowCells | src/main/java/com/allinmoney/platform/excel/ExcelSheet.java:335-357 | A written summary row has a cell in column i iff field i is summed, and that cell is the string "合计: " followed by the two-decimal total of column i over rows [0, s) |
| ExcelSheets.SummaryRowSucceeds | src/main/java/com/allinmoney/platform/excel/ExcelSheet.java:335-357 | The summary row is written iff the total of every summed field's column succeeds |
| ExcelSheets.SummaryRowFailureSticks | src/main/java/com/allinmoney/platform/excel/ExcelSheet.java:335-357 | The first summed field whose total throws ends the summary with that exception |
| ExcelSheets.ColumnTotalSucceeds | src/main/java/com/allinmoney/platform/excel/ExcelSheet.java:341-353 | A total succeeds iff every row of its range converts: no numeric-looking string cell whose conversion throws |
| ExcelSheets.ColumnTotalFirstFailure | src/main/java/com/allinmoney/platform/excel/ExcelSheet.java:343-350 | A total that throws reports the text of the first row in its range that does not convert, every row before it converting |
| ExcelSheets.ColumnTotalFailureSticks | src/main/java/com/allinmoney/platform/excel/ExcelSheet.java:343-350 | A total that has thrown over [lo, mid) throws the same over any longer range |
| ExcelSheets.ColumnTotalIgnoresLaterRow | src/main/java/com/allinmoney/platform/excel/ExcelSheet.java:341 | A row at or past the end of the range does not affect the total |
| ExcelSheets.NonTextNotSummed | src/main/java/com/allinmoney/platform/excel/ExcelSheet.java:346-349 | A column with no numeric-looking string cell in range totals to 0 and cannot throw |
| ExcelSheets.ColumnTotalExact | src/main/java/com/allinmoney/platform/excel/ExcelSheet.java:341-353 | When every added text converts, at a scale covering every added value, the total succeeds and is exactly the sum of those values |
| ExcelSheets.TextColumnTotal | src/main/java/com/allinmoney/platform/excel/ExcelSheet.java:341-353 | Under a header "Amount", the text cells "10", "20.5" and "n/a" total 30.5 |
| ExcelSheets.TextColumnSummary | src/main/java/com/allinmoney/platform/excel/ExcelSheet.java:341-355 | The same column's summary cell reads "合计: 30.50" |
| ExcelSheets.HexTextThrows | src/main/java/com/allinmoney/platform/excel/ExcelSheet.java:347-350 | Under a header "Amount", the cells "10", "0x1A" and "oops", where isNumber accepts "0x1A" but Double.valueOf rejects it, make the total throw with "0x1A" |
| ExcelSheets.SummaryTextExample | src/main/java/com/allinmoney/platform/excel/ExcelSheet.java:355 | 30.5 is shown as "合计: 30.50" |
| ExcelSheets.NumericColumnSummary | src/main/java/com/allinmoney/platform/excel/ExcelSheet.java:346-349 | The same amounts held as numeric cells are not added: the summary reads "合计: 0.00" |
| ExcelSheets.Swapped | src/main/java/com/allinmoney/platform/excel/ExcelSheet.java:199-201 | Positions i and j are exchanged, every other element is kept, and the result is a permutation |
| ExcelSheets.SumColumn | src/main/java/com/allinmoney/platform/excel/ExcelSheet.java:341-353 | The loop computes ColumnTotal over rows [lo, hi), stopping at the first text that does not convert |
| ExcelSheets.ExcelSheet.constructor | src/main/java/com/allinmoney/platform/excel/ExcelSheet.java:50-52 | Wraps the given sheet |
| ExcelSheets.ExcelSheet.ExchangeColumns | src/main/java/com/allinmoney/platform/excel/ExcelSheet.java:192-206 | When the field at idx names another column inside the list, it is swapped with the field there and idx - 1 is returned. A negative column throws (None) and leaves the array unchanged. Otherwise nothing changes and idx is returned |
| ExcelSheets.ExcelSheet.AddHeaderCell | src/main/java/com/allinmoney/platform/excel/ExcelSheet.java:223-239 | One title cell in row 0; its prompt box and choice list are appended |
| ExcelSheets.ExcelSheet.AddHeaders | src/main/java/com/allinmoney/platform/excel/ExcelSheet.java:214-243 | Row 0 becomes HeaderRow(fields) and the validations HeaderValidationsUpTo are appended |
| ExcelSheets.ExcelSheet.AddContentCell | src/main/java/com/allinmoney/platform/excel/ExcelSheet.java:274-315 | Returns the converted cell or its exception; on success the cell is written at (r, j) |
| ExcelSheets.ExcelSheet.AddContentRow | src/main/java/com/allinmoney/platform/excel/ExcelSheet.java:263-321 | Reports no error iff ContentRow succeeds; the error is ContentRow's exception; on success row r is ContentRow |
| ExcelSheets.ExcelSheet.AddRecords | src/main/java/com/allinmoney/platform/excel/ExcelSheet.java:262-323 | The loop's rows are WithContent over [startNo, endNo); the first exception is returned; on success the last row number is max(old, endNo - startNo) |
| ExcelSheets.ExcelSheet.AddContent | src/main/java/com/allinmoney/platform/excel/ExcelSheet.java:255-324 | A list shorter than startNo leaves the sheet unchanged; otherwise the sheet's rows are WithContent over [StartNo, EndNo) |
| ExcelSheets.ExcelSheet.AddSumCell | src/main/java/com/allinmoney/platform/excel/ExcelSheet.java:341-356 | No error iff the column's total over rows [0, last row) succeeds; then column col of the last row holds its summary text, otherwise the error is that total's exception and no row changes |
| ExcelSheets.ExcelSheet.AddSummaryField | src/main/java/com/allinmoney/platform/excel/ExcelSheet.java:336-357 | One more field of the summary row, or the exception of its total |
| ExcelSheets.ExcelSheet.AddSummary | src/main/java/com/allinmoney/platform/excel/ExcelSheet.java:332-359 | The last row number grows by one; no error iff SummaryRowUpTo over the old rows succeeds, and then row lastRow + 1 is that row; otherwise the error is its exception |
| GroupedSheet.BlockHeaderColumns | src/main/java/com/allinmoney/platform/excel/ExcelUtil.java:255-265 | A block header has a cell in column c iff some selected field is placed in c |
| GroupedSheet.BlockHeaderCell | src/main/java/com/allinmoney/platform/excel/ExcelUtil.java:255-278 | The cell of a column holds the title of the last field placed there |
| GroupedSheet.DefaultHeaderAtPositions | src/main/java/com/allinmoney/platform/excel/ExcelUtil.java:255-278 | With no explicit columns, the header has cells 0 to n - 1, each holding its field's title |
| GroupedSheet.BlockRowFailureSticks | src/main/java/com/allinmoney/platform/excel/ExcelUtil.java:296-358 | An exception in one field ends the record's row |
| GroupedSheet.BlockRowSucceeds | src/main/java/com/allinmoney/platform/excel/ExcelUtil.java:296-358 | A record's row in a block is written iff every exported field converts, with the annotation's date format |
| GroupedSheet.BlockRowColumns | src/main/java/com/allinmoney/platform/excel/ExcelUtil.java:302-312 | A written record row has a cell in column c iff some exported field is placed in c; fields that are not exported get a header cell but no content cell |
| GroupedSheet.BlockRowCell | src/main/java/com/allinmoney/platform/excel/ExcelUtil.java:302-356 | The cell of a column is the converted value of the last exported field placed there |
| GroupedSheet.BlockRowFirstFailure | src/main/java/com/allinmoney/platform/excel/ExcelUtil.java:296-358 | A failing row reports the exception of its first exported field that fails |
| GroupedSheet.BlockRecordsFailureSticks | src/main/java/com/allinmoney/platform/excel/ExcelUtil.java:292-359 | An exception in one record ends the block |
| GroupedSheet.BlockRecordsSucceed | src/main/java/com/allinmoney/platform/excel/ExcelUtil.java:292-359 | A block's records are written iff each record's row succeeds |
| GroupedSheet.BlockRecordsKeys | src/main/java/com/allinmoney/platform/excel/ExcelUtil.java:292-294 | A block's records add exactly rows [first, first + n); other rows are kept |
| GroupedSheet.BlockRecordsPlaced | src/main/java/com/allinmoney/platform/excel/ExcelUtil.java:292-295 | Record k is in row first + k |
| GroupedSheet.BlockRecordsLayout | src/main/java/com/allinmoney/platform/excel/ExcelUtil.java:290-359 | Success iff every row succeeds, and then record k is row first + k |
| GroupedSheet.SummaryIgnoresItself | src/main/java/com/allinmoney/platform/excel/ExcelUtil.java:362-385 | Writing the summary row, which lies outside the totalled range, does not change the totals |
| GroupedSheet.SummaryOverCells | src/main/java/com/allinmoney/platform/excel/ExcelUtil.java:364-386 | A written summary has a cell in column c iff a summed field is placed there; it holds the total of column c over [first, hi) |
| GroupedSheet.SummaryOverSucceeds | src/main/java/com/allinmoney/platform/excel/ExcelUtil.java:364-386 | The summary is written iff the total of every summed field's column succeeds |
| GroupedSheet.BlockSummaryFailureSticks | src/main/java/com/allinmoney/platform/excel/ExcelUtil.java:364-386 | The first summed field whose total throws ends the block summary with that exception |
| GroupedSheet.BlockLayout | src/main/java/com/allinmoney/platform/excel/ExcelUtil.java:252-390 | A block fails when a record's row fails; a block that succeeds adds exactly rows line to s, appends its validations and moves the line to s + 1 + delimiter |
| GroupedSheet.BlockSucceeds | src/main/java/com/allinmoney/platform/excel/ExcelUtil.java:252-390 | From a layout with no row at or after line, a block succeeds iff every record's row does and, in every summed column, every record's cell converts |
| GroupedSheet.BlockKeepsAbove | src/main/java/com/allinmoney/platform/excel/ExcelUtil.java:252-390 | With delimiter >= 0 a block moves the line forward and keeps every row above its start |
| GroupedSheet.BlockRows | src/main/java/com/allinmoney/platform/excel/ExcelUtil.java:252-363 | The header is at line and record k at line + 1 + k; rows outside the block are unchanged |
| GroupedSheet.BlockKeepsRecordRows | src/main/java/com/allinmoney/platform/excel/ExcelUtil.java:290-363 | Apart from the summary row, the block's rows are those its records wrote |
| GroupedSheet.BlockSummary | src/main/java/com/allinmoney/platform/excel/ExcelUtil.java:361-389 | Starting from a layout with no row at or after line, a written summary row is the summary over exactly the block's record rows; the result is again such a layout when delimiter >= 0 |
| GroupedSheet.SummaryOverFrame | src/main/java/com/allinmoney/platform/excel/ExcelUtil.java:374-384 | Changing a row at or past hi leaves the totals over [first, hi) unchanged |
| GroupedSheet.ColumnTotalReadsRange | src/main/java/com/allinmoney/platform/excel/ExcelUtil.java:374-384 | Totals over [lo, hi) read only rows in [lo, hi) |
| GroupedSheet.SummaryOverReadsRange | src/main/java/com/allinmoney/platform/excel/ExcelUtil.java:374-384 | The same holds for a whole summary row |
| GroupedSheet.BlockStaysWhole | src/main/java/com/allinmoney/platform/excel/ExcelUtil.java:390 | With delimiter >= 0, a block stays whole in any later sheet that keeps the rows above the next line: header, records and summary |
| GroupedSheet.BlockBodyStays | src/main/java/com/allinmoney/platform/excel/ExcelUtil.java:390 | The header and record rows of such a block |
| GroupedSheet.BlockSummaryStays | src/main/java/com/allinmoney/platform/excel/ExcelUtil.java:390 | The summary row of such a block |
| GroupedSheet.AddBlockHeaderCell | src/main/java/com/allinmoney/platform/excel/ExcelUtil.java:255-287 | The title goes to the field's column; a prompt box with an empty title and a choice list over that column are appended |
| GroupedSheet.AddBlockHeaderField | src/main/java/com/allinmoney/platform/excel/ExcelUtil.java:255-287 | One more field of the header row and its validations |
| GroupedSheet.AddBlockHeader | src/main/java/com/allinmoney/platform/excel/ExcelUtil.java:252-288 | Row line becomes BlockHeader(fields) and BlockValidations(fields) are appended |
| GroupedSheet.AddBlockCell | src/main/java/com/allinmoney/platform/excel/ExcelUtil.java:306-356 | The field's converted cell, using the annotation's format, goes to its column, or its exception is returned |
| GroupedSheet.AddBlockRow | src/main/java/com/allinmoney/platform/excel/ExcelUtil.java:293-358 | Row r becomes BlockRow on success, which holds the exported fields' cells only; otherwise BlockRow's exception, that of the first exported field that fails, is returned |
| GroupedSheet.AddBlockRecords | src/main/java/com/allinmoney/platform/excel/ExcelUtil.java:290-359 | The loop's rows are BlockRecords; the first exception is returned |
| GroupedSheet.AddBlockSumCell | src/main/java/com/allinmoney/platform/excel/ExcelUtil.java:367-387 | No error iff the column's total over [first, last row) succeeds; then the field's column in the summary row holds it, otherwise the error is its exception and no row changes |
| GroupedSheet.AddBlockSummary | src/main/java/com/allinmoney/platform/excel/ExcelUtil.java:361-389 | An empty summary row at sumLine; no error iff BlockSummaryUpTo succeeds, and then the row is what it gives; otherwise the error is its exception |
| GroupedSheet.AddBlockSummaryField | src/main/java/com/allinmoney/platform/excel/ExcelUtil.java:365-387 | One more field of the block summary, or the exception of its total |
| GroupedSheet.FinishBlock | src/main/java/com/allinmoney/platform/excel/ExcelUtil.java:361-390 | After the header and records, the summary and the delimiter complete BlockEnd, or end with the summary's exception |
| GroupedSheet.AddBlock | src/main/java/com/allinmoney/platform/excel/ExcelUtil.java:252-390 | The sheet afterwards and the returned line are Block's layout; the error is Block's exception |
| ExcelExport.ConformingRecordsCover | src/main/java/com/allinmoney/platform/excel/ExcelUtil.java:154-155 | Records of a class have a value for every field selected for it |
| ExcelExport.NonEmpty | src/main/java/com/allinmoney/platform/excel/ExcelUtil.java:150-152 | No more lists than given, each one of them and non-empty |
| ExcelExport.ExportSheet | src/main/java/com/allinmoney/platform/excel/ExcelUtil.java:126-131 | A new sheet of the given name; no error iff SheetRows succeeds, and then its rows are SheetRows and its validations those of the header |
| ExcelExport.AddSliceSummary | src/main/java/com/allinmoney/platform/excel/ExcelUtil.java:131 | No error iff SliceRows succeeds, and then the summary completes the sheet's rows to it; otherwise the error is SliceRows' exception |
| ExcelExport.ExportListSheet | src/main/java/com/allinmoney/platform/excel/ExcelUtil.java:155-162 | One list's sheet is ListSheetRows, or its exception |
| ExcelExport.ExcelUtil.constructor | src/main/java/com/allinmoney/platform/excel/ExcelUtil.java:50-54 | No view, and the delimiter DEFAULT_DELIMITER (5) |
| ExcelExport.ExcelUtil.SetDataView | src/main/java/com/allinmoney/platform/excel/ExcelUtil.java:61-63 | The view changes; the delimiter does not |
| ExcelExport.ExcelUtil.SetDelimiter | src/main/java/com/allinmoney/platform/excel/ExcelUtil.java:70-72 | The delimiter changes; the view does not |
| ExcelExport.ExcelUtil.ExportDataList | src/main/java/com/allinmoney/platform/excel/ExcelUtil.java:119-135 | No error iff PagedRows over SheetCount(size) sheets succeeds; then sheet k is named sheetName + k and holds PagedRows' k-th sheet |
| ExcelExport.WritePages | src/main/java/com/allinmoney/platform/excel/ExcelUtil.java:125-132 | The sheet loop produces PagedRows(count) or its first exception |
| ExcelExport.AppendPagedSheet | src/main/java/com/allinmoney/platform/excel/ExcelUtil.java:126-131 | One more sheet, named and holding the next slice, or the export's exception |
| ExcelExport.PageSheetsSnoc | src/main/java/com/allinmoney/platform/excel/ExcelUtil.java:125-132 | Sheet n follows the first n sheets |
| ExcelExport.PagedFailureSticks | src/main/java/com/allinmoney/platform/excel/ExcelUtil.java:125-132 | An exception in one sheet ends the export |
| ExcelExport.PagedRowsAt | src/main/java/com/allinmoney/platform/excel/ExcelUtil.java:125-132 | The export succeeds iff every sheet does, and sheet k is the k-th slice's sheet |
| ExcelExport.SliceRowsSucceeds | src/main/java/com/allinmoney/platform/excel/ExcelUtil.java:129-131 | A sheet succeeds iff every record of its slice converts and, in every summed column, the header and every record's cell convert for the summary |
| ExcelExport.SummaryConverts | src/main/java/com/allinmoney/platform/excel/ExcelSheet.java:341-353 | The summary below rows [0, s) is written iff, in every summed column, every one of those rows converts |
| ExcelExport.SliceConverts | src/main/java/com/allinmoney/platform/excel/ExcelUtil.java:129-131 | The rows above a written slice's summary convert iff its header and its records' rows do |
| ExcelExport.SliceRowsLayout | src/main/java/com/allinmoney/platform/excel/ExcelUtil.java:129-131 | A written sheet has rows 0 to s exactly: the header at 0 and record i at i + 1 - start |
| ExcelExport.SliceRowsSummary | src/main/java/com/allinmoney/platform/excel/ExcelUtil.java:129-131 | Summary row s has a cell exactly at the summed fields' columns, each totalling its column over rows [0, s) |
| ExcelExport.SummaryPlaced | src/main/java/com/allinmoney/platform/excel/ExcelSheet.java:332-359 | Once a written summary row is placed, it has a cell exactly at the summed columns, each the total of its column over the rows above |
| ExcelExport.RecordPlacement | src/main/java/com/allinmoney/platform/excel/ExcelSheet.java:256-263 | In a successful exportDataList, record k is on sheet k / MAX_ROW in row k % MAX_ROW + 1 |
| ExcelExport.ExcelUtil.ExportMultipleDataList | src/main/java/com/allinmoney/platform/excel/ExcelUtil.java:147-167 | No error iff MultiRows over the non-empty lists succeeds; then sheet k is named sheetName + k and holds the k-th non-empty list's sheet |
| ExcelExport.NextList | src/main/java/com/allinmoney/platform/excel/ExcelUtil.java:150-164 | One turn of the loop: an empty list is skipped; otherwise its sheet is appended, or the export's exception is returned |
| ExcelExport.AppendListSheet | src/main/java/com/allinmoney/platform/excel/ExcelUtil.java:154-163 | The sheet of a non-empty list is appended after the earlier sheets, or its exception is the export's |
| ExcelExport.MultiFailureOfPrefix | src/main/java/com/allinmoney/platform/excel/ExcelUtil.java:150-164 | An exception from a list's sheet is the whole export's result |
| ExcelExport.MultiRowsSnoc | src/main/java/com/allinmoney/platform/excel/ExcelUtil.java:150-164 | One more non-empty list adds its sheet, numbered after the earlier ones |
| ExcelExport.MultiFailureSticks | src/main/java/com/allinmoney/platform/excel/ExcelUtil.java:150-164 | An exception in one sheet ends the export |
| ExcelExport.NonEmptyConforms | src/main/java/com/allinmoney/platform/excel/ExcelUtil.java:150-155 | The non-empty lists still conform to their classes |
| ExcelExport.NonEmptySnoc | src/main/java/com/allinmoney/platform/excel/ExcelUtil.java:150-152 | The next list is appended iff it is non-empty |
| ExcelExport.NonEmptyPrefix | src/main/java/com/allinmoney/platform/excel/ExcelUtil.java:150-152 | The non-empty lists of a prefix are a prefix of the non-empty lists |
| ExcelExport.MultiRowsAt | src/main/java/com/allinmoney/platform/excel/ExcelUtil.java:150-164 | Succeeds iff every non-empty list's sheet does; then sheet k is the whole k-th list |
| ExcelExport.MultiFirstFailure | src/main/java/com/allinmoney/platform/excel/ExcelUtil.java:150-164 | A failure is the exception of the first list whose sheet fails, all earlier sheets succeeding |
| ExcelExport.ListSheetPlacement | src/main/java/com/allinmoney/platform/excel/ExcelUtil.java:161 | On a list's own sheet, record i is row i + 1 |
| ExcelExport.MultiRecordPlacement | src/main/java/com/allinmoney/platform/excel/ExcelUtil.java:157-163 | Record i of the k-th non-empty list is in row i + 1 of sheet k |
| ExcelExport.ExcelUtil.ExportGrouped | src/main/java/com/allinmoney/platform/excel/ExcelUtil.java:177-403 | No error iff GroupedLayout from an empty sheet succeeds; then the sheet's rows, last row number and validations are that layout's |
| ExcelExport.GroupedSnoc | src/main/java/com/allinmoney/platform/excel/ExcelUtil.java:222-225 | One more list: an empty one changes nothing; a non-empty one adds its block |
| ExcelExport.GroupedFailureSticks | src/main/java/com/allinmoney/platform/excel/ExcelUtil.java:221-400 | A block that throws ends the export with its exception |
| ExcelExport.GroupedStaysAhead | src/main/java/com/allinmoney/platform/excel/ExcelUtil.java:390 | With delimiter >= 0, no row and no last row number ever lies at or past the next line |
| ExcelExport.GroupedKeepsPrefix | src/main/java/com/allinmoney/platform/excel/ExcelUtil.java:390 | With delimiter >= 0, later lists never change a row above the line where they start |
| ExcelExport.BlockSurvives | src/main/java/com/allinmoney/platform/excel/ExcelUtil.java:222-391 | With delimiter >= 0, each non-empty list's block — header, record rows and summary totals — is intact in the final sheet |

## Left out

- Styles, fonts, colours and `autoSizeColumn` are left out. Styles are
  reduced to a hint per cell (header, marked header, content, marked
  content, none), and fonts have no visible effect in the model.
- POI's own limits are not modelled, such as rows and columns per sheet and
  cell text length. Rows and columns are unbounded integers, so a negative
  column from `getExcelCol` is kept as it is. HSSF caps row numbers at
  65535, so through `exportDataList` a list of more than 65535 records
  throws `IllegalArgumentException` on sheet 0; the overflow under
  "## Findings" is reached only by calling `addContent` directly.
- Reflection is not modelled: `getDeclaredFields`, `isAnnotationPresent`,
  `setAccessible` and `field.get`. A class is its ordered list of declared
  fields plus its superclass's list, and a record is a map from field name
  to value. `IllegalAccessException` cannot arise in the model; the source
  only prints it.
- `SimpleDateFormat`, `Double.parseDouble`, `NumberUtils.isNumber` and
  `BigDecimal.valueOf(Double.valueOf(..))` are not modelled; the model takes
  them as parameters. A `double` cell value is a `real`, so
  floating-point rounding is left out.
- ExcelExport.ExcelUtil.ExportDataList, ExcelExport.ExcelUtil.ExportMultipleDataList
  and ExcelExport.ExcelUtil.ExportGrouped require every list to hold only
  non-null instances of its class. `exportMultipleDataList` and the grouped
  export take that class from the list's first element
  (ExcelUtil.java:154 and 227), so a later element of another class makes
  `field.get` throw `IllegalArgumentException`, and a null element throws
  `NullPointerException`. Neither exception is modelled: `addContent`
  catches only `IllegalAccessException`, so in the source both escape, and
  the grouped export wraps them in `ExcelException`.
- Writing the workbook to the stream is not modelled (`flushWorkbook`, and
  `os.flush`/`write`/`close` in the grouped export), nor are `IOException`
  and the boolean result, which is always true.
- ExcelExport.ExcelUtil.ExportGrouped: the catch that wraps any exception
  in `ExcelException` is not modelled; the model returns the
  `NumberFormatException` itself.
- ExcelSheets.ExcelSheet.AddContent: after an exception, the rows written
  before it are left unspecified, because every export abandons the
  workbook at that point. The same holds for ExcelSheets.ExcelSheet.AddRecords,
  GroupedSheet.AddBlock, GroupedSheet.AddBlockRecords and
  ExcelExport.ExcelUtil.ExportGrouped. It also holds for a summary that
  throws: ExcelSheets.ExcelSheet.AddSummary, GroupedSheet.AddBlockSummary
  and GroupedSheet.FinishBlock report the exception of the first summed
  column whose total fails, but say nothing about the cells of the summary
  row written before it.
- GroupedSheet.BlockLayout: it states only that a failing record row makes
  the block fail. A block can also fail in its summary. For a layout with
  no row at or after the block's line, GroupedSheet.BlockSucceeds gives
  the exact condition for success.
- ExcelColumns.GetExcelCol: `Math.pow` returns a double, and `count +=`
  casts the double sum back to int, saturating at the int bounds. The model
  uses exact integer arithmetic. The two agree whenever every partial sum
  fits in an int, for example for any text of at most six ASCII letters.
  Otherwise the source returns the double-to-int saturated value, where the
  model returns the exact sum. In both, a character below '@' gives a
  negative digit, '@' gives 0, and any other character that is not a letter
  gives a digit above 26. A character outside the Basic Multilingual Plane
  is two UTF-16 chars in the source, and so two digits with two weights;
  in the model it is one char and one digit.
- ExcelColumns.ToUpper: `toUpperCase` is modelled on ASCII letters only.
  Other characters are kept; the JDK would change some non-ASCII letters.
- `setHSSFPrompt` and `setHSSFValidation` are each reduced to one
  `Workbook.Validation` record: the prompt box or choice list over its cell
  range. The dummy formula constraint "DD1" is left out.
- `initStylesAndFonts`, `setWorkbook` and the other getters and setters of
  `ExcelSheet` only set styles or fields, so they are left out.
- The two-argument `exportDataList` overload (ExcelUtil.java:102-104) only
  passes `withSuperFields = true`; the model takes that flag as a parameter.
- The `getFieldsOfSuperClass` helper (ExcelUtil.java:463-469) is never
  called, so it is left out.
- The unused constants `HEADER_FONT_HEIGHT` and `CONTENT_FONT_HEIGHT` are
  left out, as are `ScaUtil`, `ExcelException` (beyond its role above) and
  the test classes.

## Findings

| source | as written | input that shows it | evidently intended | confidence | as-written member | corrected member |
|---|---|---|---|---|---|---|
| src/main/java/com/allinmoney/platform/excel/ExcelSheet.java:257 | endNo, the smaller of startNo + MAX_ROW and the list size, is computed in 32-bit int, and startNo + MAX_ROW overflows on the last sheet of a very large list | a list of 2^31 - 1 records: its last sheet, 2047, has startNo 2047 × 2^20. startNo + MAX_ROW is 2^31, which wraps to -2^31, so endNo < startNo and the sheet gets none of its 1048575 records. This needs a direct `addContent(…, false, 2047, …)` call: through `exportDataList`, HSSF's 65535-row cap makes sheet 0 throw first | each sheet gets records [startNo, min(startNo + MAX_ROW, size)) computed without overflow, so every record lands on exactly one sheet | not executed | Pagination.EndNo32, Pagination.EndNoOverflowDropsRecords | Pagination.EndNo, Pagination.EveryRecordOnOneSheet |

=== FILE: Attribute.dfy ===
/** The per-field export metadata carried by the ExcelAttribute annotation,
    with the annotation's default values, and the blank test
    (StringUtils.isNotBlank) that every caller applies to its text elements. */
module ExcelAttribute {

  /** A view group is identified by the name of its marker class. */
  type ViewTag = string

  /** One @Translate(key, value) entry of the translate table. */
  datatype Translate = Translate(key: string, value: string)

  datatype FieldDescriptor = FieldDescriptor(
    title: string,
    groups: seq<ViewTag>,
    translate: seq<Translate>,
    column: string,
    prompt: string,
    format: string,
    combo: seq<string>,
    isExport: bool,
    isMark: bool,
    isSum: bool)

  const DefaultFormat: string := "yyyy-MM-dd HH:mm:ss"

  /** The descriptor of `@ExcelAttribute(title = t)`: every other element
      takes its declared default. */
  function Annotated(title: string): (d: FieldDescriptor)
    ensures d.title == title
    ensures d.groups == [] && d.translate == [] && d.combo == []
    ensures d.column == "" && d.prompt == "" && d.format == DefaultFormat
    ensures d.isExport && !d.isMark && !d.isSum
  {
    FieldDescriptor(title, [], [], "", "", DefaultFormat, [], true, false, false)
  }

  /** Character.isWhitespace: the Unicode space separators other than the
      non-breaking ones, the line and paragraph separators, and the control
      characters U+0009-U+000D and U+001C-U+001F. */
  predicate IsWhitespace(c: char)
  {
    || c == '\U{0020}' || c == '\U{1680}'
    || ('\U{2000}' <= c <= '\U{2006}') || ('\U{2008}' <= c <= '\U{200A}')
    || c == '\U{205F}' || c == '\U{3000}' || c == '\U{2028}' || c == '\U{2029}'
    || ('\U{0009}' <= c <= '\U{000D}') || ('\U{001C}' <= c <= '\U{001F}')
  }

  /** StringUtils.isNotBlank on a non-null string: some character is not
      whitespace. */
  predicate IsNotBlank(s: string)
  {
    exists i :: 0 <= i < |s| && !IsWhitespace(s[i])
  }

  lemma DefaultColumnIsBlank(title: string)
    ensures !IsNotBlank(Annotated(title).column)
  {
  }
}

=== FILE: Coercion.dfy ===
/** Value coercion, as ExcelSheet.addContent does it per cell (and
    ExcelUtil's many-lists export repeats): render the field value as text,
    build the translate map, test the text against the "numeric" pattern,
    and produce the cell value. */
module Coercion {
  import opened Wrappers
  import opened Ints
  import opened ExcelAttribute
  import opened Decimals

  /** A java.util.Date, kept opaque (milliseconds since the epoch). */
  type Date = int

  /** The value a field holds in one record. */
  datatype Value =
    | Null
    | DateValue(date: Date)
    | BigDecimalValue(dec: Dec)
    | IntegerValue(n: int)
    | Other(text: string)    // any other object, by its toString()

  /** What a content cell holds: a created cell that was never given a
      value, a string, or a double. */
  datatype CellValue = Blank | Str(s: string) | Num(x: real)

  /** The exception that can escape a cell's coercion. */
  datatype CoerceError = NumberFormat(text: string)

  /** The library code coercion calls and the model does not look into:
      SimpleDateFormat(pattern).format(date) and Double.parseDouble (None
      when it throws). */
  datatype Env = Env(formatDate: (Date, string) -> string, parseDouble: string -> Option<real>)

  /** The text a value renders to; a caller's date format, when given,
      overrides the field's. */
  function Render(v: Value, fieldFormat: string, dateFmt: Option<string>, env: Env): string
  {
    match v
    case Null => ""
    case DateValue(d) => env.formatDate(d, if dateFmt.Some? then dateFmt.value else fieldFormat)
    case BigDecimalValue(x) => ToString2(SetScale2(x))
    case IntegerValue(n) => IntToString(n)
    case Other(t) => t
  }

  /** The translate map: entries are put in order, so a later entry with
      the same key replaces an earlier one. */
  function TranslateMap(entries: seq<Translate>): map<string, string>
  {
    if entries == [] then map[]
    else
      var last := entries[|entries| - 1];
      TranslateMap(entries[..|entries| - 1])[last.key := last.value]
  }

  method BuildTranslateMap(entries: seq<Translate>) returns (m: map<string, string>)
    ensures m == TranslateMap(entries)
  {
    m := map[];
    var i := 0;
    while i < |entries|
      invariant 0 <= i <= |entries|
      invariant m == TranslateMap(entries[..i])
    {
      assert entries[..i + 1][..i] == entries[..i];
      m := m[entries[i].key := entries[i].value];
      i := i + 1;
    }
    assert entries[..i] == entries;
  }

  /** A key is translated iff some entry has it, and to the value of the
      last entry that has it. */
  lemma {:induction false} TranslateLaterWins(entries: seq<Translate>, k: string, i: nat)
    requires i < |entries| && entries[i].key == k
    requires forall j :: i < j < |entries| ==> entries[j].key != k
    ensures k in TranslateMap(entries) && TranslateMap(entries)[k] == entries[i].value
  {
    if i < |entries| - 1 {
      TranslateLaterWins(entries[..|entries| - 1], k, i);
    }
  }

  lemma {:induction false} TranslateDomain(entries: seq<Translate>, k: string)
    ensures k in TranslateMap(entries) <==> exists i :: 0 <= i < |entries| && entries[i].key == k
  {
    if entries != [] {
      var p := entries[..|entries| - 1];
      TranslateDomain(p, k);
      if exists i :: 0 <= i < |p| && p[i].key == k {
        var i :| 0 <= i < |p| && p[i].key == k;
        assert entries[i].key == k;
      }
    }
  }

  /** The source's pattern "^//d+(//.//d+)?$" read as Java reads it: the
      slashes and the letter d are literal, and the unescaped dot is any
      character but a line terminator. */
  predicate IsLineTerminator(c: char)
  {
    c == '\n' || c == '\r' || c == '\U{0085}' || c == '\U{2028}' || c == '\U{2029}'
  }

  /** The length of the run of 'd' characters starting at i. */
  function DRun(t: string, i: nat): (n: nat)
    requires i <= |t|
    ensures i + n <= |t|
    ensures forall j :: i <= j < i + n ==> t[j] == 'd'
    ensures i + n < |t| ==> t[i + n] != 'd'
    decreases |t| - i
  {
    if i < |t| && t[i] == 'd' then 1 + DRun(t, i + 1) else 0
  }

  predicate AllD(u: string) { |u| >= 1 && forall j :: 0 <= j < |u| ==> u[j] == 'd' }

  /** The optional group "//" any-char "//" d+. */
  predicate GroupAsWritten(u: string)
  {
    |u| >= 6 && u[0] == '/' && u[1] == '/' && !IsLineTerminator(u[2])
      && u[3] == '/' && u[4] == '/' && AllD(u[5..])
  }

  predicate MatchesAsWritten(t: string)
  {
    && |t| >= 3 && t[0] == '/' && t[1] == '/'
    && var k := 2 + DRun(t, 2);
       k > 2 && (k == |t| || GroupAsWritten(t[k..]))
  }

  /** The text written to the cell when the rendered text is not
      "numeric": its translation when it is a key, itself otherwise. */
  function Translated(txt: string, m: map<string, string>): (out: string)
    ensures txt in m ==> out == m[txt]
    ensures txt !in m ==> out == txt
  {
    if txt in m then m[txt] else txt
  }

  /** One cell's value, or the NumberFormatException that escapes. In the
      numeric branch the translated text is parsed; the rendered text
      itself starts with '/', which Double.parseDouble always rejects. */
  function Coerce(v: Value, attr: FieldDescriptor, dateFmt: Option<string>, env: Env): Result<CellValue, CoerceError>
  {
    var txt := Render(v, attr.format, dateFmt, env);
    var m := TranslateMap(attr.translate);
    if MatchesAsWritten(txt) then
      if txt in m then
        match env.parseDouble(m[txt])
        case Some(x) => Success(Num(x))
        case None => Failure(NumberFormat(m[txt]))
      else Failure(NumberFormat(txt))
    else Success(Str(Translated(txt, m)))
  }

  /** The per-cell steps of addContent, in the source's order. */
  method CoerceCell(v: Value, attr: FieldDescriptor, dateFmt: Option<string>, env: Env)
    returns (r: Result<CellValue, CoerceError>)
    ensures r == Coerce(v, attr, dateFmt, env)
  {
    var txt := Render(v, attr.format, dateFmt, env);
    var m := BuildTranslateMap(attr.translate);
    if MatchesAsWritten(txt) {
      if txt in m {
        var parsed := env.parseDouble(m[txt]);
        if parsed.Some? {
          r := Success(Num(parsed.value));
        } else {
          r := Failure(NumberFormat(m[txt]));
        }
      } else {
        r := Failure(NumberFormat(txt));
      }
    } else {
      r := Success(Str(Translated(txt, m)));
    }
  }

  /** Text without a '/' never matches the pattern, so it is written as a
      string cell, translated when it is a key. */
  lemma NoSlashIsText(v: Value, attr: FieldDescriptor, dateFmt: Option<string>, env: Env)
    requires forall i :: 0 <= i < |Render(v, attr.format, dateFmt, env)| ==> Render(v, attr.format, dateFmt, env)[i] != '/'
    ensures Coerce(v, attr, dateFmt, env)
         == Success(Str(Translated(Render(v, attr.format, dateFmt, env), TranslateMap(attr.translate))))
  {
  }

  /** Digit strings such as "123" and "100.12" take the text branch. */
  lemma DigitsAreNotNumeric()
    ensures !MatchesAsWritten("123") && !MatchesAsWritten("100.12")
    ensures MatchesAsWritten("//d") && MatchesAsWritten("//dd//x//d")
  {
    assert DRun("//d", 3) == 0;
    assert DRun("//dd//x//d", 4) == 0;
    assert "//dd//x//d"[4..] == "//x//d";
  }

  /** An untranslated BigDecimal field becomes a string cell whose text
      denotes the value rounded to two places. */
  lemma DecimalCellDenotesRoundedValue(x: Dec, attr: FieldDescriptor, dateFmt: Option<string>, env: Env)
    requires attr.translate == []
    ensures Coerce(BigDecimalValue(x), attr, dateFmt, env).Success?
    ensures var c := Coerce(BigDecimalValue(x), attr, dateFmt, env).value;
      c.Str? && ParseScale2(c.s) == Some(SetScale2(x))
  {
    var t := ToString2(SetScale2(x));
    ToString2RoundTrip(SetScale2(x));
    assert !MatchesAsWritten(t) by {
      ToString2NoSlash(SetScale2(x));
    }
  }

  lemma ToString2NoSlash(x: Dec)
    requires x.scale == 2
    ensures forall i :: 0 <= i < |ToString2(x)| ==> ToString2(x)[i] != '/'
  {
    var m := Abs(x.unscaled);
    var ip := NatToString(m / 100);
    assert forall i :: 0 <= i < |ip| ==> IsDigit(ip[i]);
  }

  /** A caller's date format wins over the field's; without one the
      field's format is used. */
  lemma DateFormatPrecedence(d: Date, attr: FieldDescriptor, dateFmt: Option<string>, env: Env)
    ensures dateFmt.Some? ==> Render(DateValue(d), attr.format, dateFmt, env) == env.formatDate(d, dateFmt.value)
    ensures dateFmt.None? ==> Render(DateValue(d), attr.format, dateFmt, env) == env.formatDate(d, attr.format)
  {
  }

  /** A null value becomes an empty string cell unless "" is a translate
      key. */
  lemma NullIsEmptyText(attr: FieldDescriptor, dateFmt: Option<string>, env: Env)
    requires "" !in TranslateMap(attr.translate)
    ensures Coerce(Null, attr, dateFmt, env) == Success(Str(""))
  {
  }

  /** Translation precedes classification: gender 1 with the Person
      fixture's table {"0": "女", "1": "男"} is the string "男". */
  lemma GenderTranslation(attr: FieldDescriptor, env: Env)
    requires attr.translate == [Translate("0", "女"), Translate("1", "男")]
    ensures Coerce(IntegerValue(1), attr, None, env) == Success(Str("男"))
    ensures Coerce(IntegerValue(0), attr, None, env) == Success(Str("女"))
  {
    assert IntToString(1) == "1" && IntToString(0) == "0";
    assert TranslateMap(attr.translate) == map["0" := "女", "1" := "男"] by {
      var t := attr.translate;
      assert t[..1][..0] == [];
      assert TranslateMap(t[..1]) == map["0" := "女"];
      assert TranslateMap(t) == TranslateMap(t[..1])["1" := "男"];
    }
  }

  /** With the default empty table the rendered text is written unchanged. */
  lemma DefaultTranslateIsIdentity(txt: string, title: string)
    ensures Translated(txt, TranslateMap(Annotated(title).translate)) == txt
  {
  }
}

=== FILE: Columns.dfy ===
/** Column letters ("A", "Z", "AA", ...) and the column a field lands in.
    ExcelUtil.getExcelCol upper-cases its argument and then sums
    (c - 64) * 26^(n-1-i) over the characters, starting from -1: the
    bijective base-26 value of the letters, minus one. */
module ExcelColumns {
  import opened Ints
  import opened ExcelAttribute

  /** String.toUpperCase on the ASCII letters; every other character is
      left as it is. */
  function UpperChar(c: char): (u: char)
    ensures 'a' <= c <= 'z' ==> u as int == c as int - 32
    ensures !('a' <= c <= 'z') ==> u == c
  {
    if 'a' <= c <= 'z' then (c as int - 32) as char else c
  }

  function ToUpper(s: string): (u: string)
    ensures |u| == |s|
    ensures forall i :: 0 <= i < |s| ==> u[i] == UpperChar(s[i])
  {
    seq(|s|, i requires 0 <= i < |s| => UpperChar(s[i]))
  }

  /** The digit a character contributes: its code minus 64, so 'A' is 1
      and 'Z' is 26; nothing rejects other characters. */
  function Digit(c: char): int { c as int - 64 }

  predicate IsUpperLetter(c: char) { 'A' <= c <= 'Z' }

  predicate AllUpperLetters(s: string) { forall i :: 0 <= i < |s| ==> IsUpperLetter(s[i]) }

  /** The sum the source's loop accumulates: digit i weighted by 26^(n-1-i). */
  function PlaceSum(s: string): int
  {
    if s == [] then 0 else Digit(s[0]) * Pow(26, |s| - 1) + PlaceSum(s[1..])
  }

  /** The bijective base-26 value, read most significant letter first. */
  function Bijective(s: string): int
  {
    if s == [] then 0 else 26 * Bijective(s[..|s| - 1]) + Digit(s[|s| - 1])
  }

  /** The column index getExcelCol returns. */
  function ColIndex(col: string): int
  {
    Bijective(ToUpper(col)) - 1
  }

  lemma {:induction false} PlaceSumSnoc(p: string, c: char)
    ensures PlaceSum(p + [c]) == 26 * PlaceSum(p) + Digit(c)
  {
    if p == [] {
      assert [c][1..] == [];
    } else {
      PlaceSumSnoc(p[1..], c);
      assert (p + [c])[1..] == p[1..] + [c];
      var w := Pow(26, |p| - 1);
      assert Pow(26, |p|) == 26 * w;
      assert Digit(p[0]) * (26 * w) == 26 * (Digit(p[0]) * w);
    }
  }

  /** The source's positional sum and the Horner reading agree. */
  lemma {:induction false} PlaceSumIsBijective(s: string)
    ensures PlaceSum(s) == Bijective(s)
  {
    if s != [] {
      var p := s[..|s| - 1];
      PlaceSumIsBijective(p);
      PlaceSumSnoc(p, s[|s| - 1]);
      assert p + [s[|s| - 1]] == s;
    }
  }

  method GetExcelCol(col: string) returns (count: int)
    ensures count == ColIndex(col)
  {
    var cs := ToUpper(col);
    count := -1;
    var i := 0;
    while i < |cs|
      invariant 0 <= i <= |cs|
      invariant count + PlaceSum(cs[i..]) == PlaceSum(cs) - 1
    {
      assert cs[i..][1..] == cs[i + 1..];
      count := count + Digit(cs[i]) * Pow(26, |cs| - 1 - i);
      i := i + 1;
    }
    assert cs[i..] == [];
    PlaceSumIsBijective(cs);
  }

  lemma {:induction false} BijectivePositive(s: string)
    requires AllUpperLetters(s)
    ensures s == [] <==> Bijective(s) == 0
    ensures Bijective(s) >= 0
  {
    if s != [] {
      BijectivePositive(s[..|s| - 1]);
    }
  }

  /** Different upper-case letter strings name different columns. */
  lemma {:induction false} ColIndexInjective(s: string, t: string)
    requires AllUpperLetters(s) && AllUpperLetters(t)
    requires ColIndex(s) == ColIndex(t)
    ensures s == t
  {
    assert ToUpper(s) == s && ToUpper(t) == t;
    BijectiveInjective(s, t);
  }

  lemma {:induction false} BijectiveInjective(s: string, t: string)
    requires AllUpperLetters(s) && AllUpperLetters(t)
    requires Bijective(s) == Bijective(t)
    ensures s == t
  {
    BijectivePositive(s);
    BijectivePositive(t);
    if s != [] && t != [] {
      var ps, pt := s[..|s| - 1], t[..|t| - 1];
      var ds, dt := Digit(s[|s| - 1]), Digit(t[|t| - 1]);
      BijectivePositive(ps);
      BijectivePositive(pt);
      // both digits lie in 1..26, so the value minus one splits uniquely
      assert Bijective(s) - 1 == 26 * Bijective(ps) + (ds - 1);
      assert Bijective(t) - 1 == 26 * Bijective(pt) + (dt - 1);
      DivModUnique(Bijective(s) - 1, Bijective(ps), ds - 1, Bijective(pt), dt - 1);
      BijectiveInjective(ps, pt);
      assert s == ps + [s[|s| - 1]] && t == pt + [t[|t| - 1]];
    }
  }

  lemma DivModUnique(n: int, q1: int, r1: int, q2: int, r2: int)
    requires 0 <= r1 < 26 && 0 <= r2 < 26
    requires n == 26 * q1 + r1 && n == 26 * q2 + r2
    ensures q1 == q2 && r1 == r2
  {
  }

  /** Upper-casing first changes nothing: getExcelCol is case-insensitive. */
  lemma {:induction false} ColIndexCaseInsensitive(s: string)
    ensures ColIndex(ToUpper(s)) == ColIndex(s)
  {
    assert ToUpper(ToUpper(s)) == ToUpper(s);
  }

  /** The column name of a zero-based index: the inverse of getExcelCol. */
  function ColumnName(n: nat): (s: string)
    ensures |s| >= 1 && AllUpperLetters(s)
  {
    if n < 26 then [('A' as int + n) as char]
    else ColumnName(n / 26 - 1) + [('A' as int + n % 26) as char]
  }

  lemma {:induction false} ColumnNameRoundTrip(n: nat)
    ensures ColIndex(ColumnName(n)) == n
  {
    var s := ColumnName(n);
    assert ToUpper(s) == s;
    if n >= 26 {
      ColumnNameRoundTrip(n / 26 - 1);
      var p := ColumnName(n / 26 - 1);
      assert ToUpper(p) == p;
      assert s[..|s| - 1] == p;
      assert Digit(s[|s| - 1]) == n % 26 + 1;
      assert Bijective(s) == 26 * Bijective(p) + n % 26 + 1;
      assert Bijective(p) == n / 26;
    } else {
      assert s[..0] == [];
      assert Digit(s[0]) == n + 1;
      assert Bijective(s) == 26 * Bijective([]) + Digit(s[0]);
    }
  }

  /** Every non-negative column index has exactly one upper-case name. */
  lemma ColIndexBijection(n: nat, s: string)
    requires AllUpperLetters(s)
    ensures ColIndex(s) == n <==> s == ColumnName(n)
  {
    ColumnNameRoundTrip(n);
    if ColIndex(s) == n {
      ColIndexInjective(s, ColumnName(n));
    }
  }

  lemma ColIndexExamples()
    ensures ColIndex("A") == 0 && ColIndex("Z") == 25 && ColIndex("AA") == 26
    ensures ColIndex("a") == 0 && ColIndex("") == -1
    ensures ColIndex("1") == -16
  {
    assert ToUpper("A") == "A" && ToUpper("Z") == "Z" && ToUpper("AA") == "AA";
    assert ToUpper("a") == "A" && ToUpper("1") == "1";
    assert "AA"[..1] == "A";
  }

  /** Where the many-lists-in-one-sheet export puts the field at list
      position `position`: its explicit column when that text is not blank,
      its position otherwise. */
  function ColumnFor(attr: FieldDescriptor, position: int): (col: int)
    ensures !IsNotBlank(attr.column) ==> col == position
    ensures IsNotBlank(attr.column) ==> col == ColIndex(attr.column)
  {
    if IsNotBlank(attr.column) then ColIndex(attr.column) else position
  }

  /** A field annotated without `column` keeps its list position. */
  lemma DefaultFieldKeepsPosition(title: string, position: int)
    ensures ColumnFor(Annotated(title), position) == position
  {
    DefaultColumnIsBlank(title);
  }
}

=== FILE: Decimals.dfy ===
/** The part of java.math.BigDecimal the export uses: a value is an
    unscaled integer and a scale (value = unscaled * 10^-scale);
    setScale(2, ROUND_HALF_EVEN), add, and toString at scale 2. */
module Decimals {
  import opened Wrappers
  import opened Ints

  datatype Dec = Dec(unscaled: int, scale: int)

  const Zero: Dec := Dec(0, 0)

  function Pow10(k: nat): (r: nat)
    ensures r >= 1
  {
    Pow(10, k)
  }

  function Abs(n: int): nat { if n < 0 then -n else n }

  /** n / d rounded to the nearest integer, ties to the even neighbour. */
  function RoundHalfEven(n: int, d: int): int
    requires d > 0
  {
    var q, r := n / d, n % d;
    if 2 * r < d then q
    else if 2 * r > d then q + 1
    else if q % 2 == 0 then q
    else q + 1
  }

  /** The rounded quotient is within half a unit of the exact one, and on
      a tie it is even. */
  lemma RoundHalfEvenNearest(n: int, d: int)
    requires d > 0
    ensures var q := RoundHalfEven(n, d);
      && 2 * Abs(n - q * d) <= d
      && (2 * Abs(n - q * d) == d ==> q % 2 == 0)
  {
    var q0, r := n / d, n % d;
    assert n == q0 * d + r;
    assert n - (q0 + 1) * d == r - d;
  }

  lemma MulAtLeast(k: int, d: int)
    requires k >= 1 && d > 0
    ensures k * d >= d
  {
  }

  /** No other integer is strictly nearer: the rounding is determined. */
  lemma RoundHalfEvenUnique(n: int, d: int, q': int)
    requires d > 0
    requires 2 * Abs(n - q' * d) < d
    ensures q' == RoundHalfEven(n, d)
  {
    RoundHalfEvenNearest(n, d);
    var q := RoundHalfEven(n, d);
    SubMul(q', q, d);
    CloseMultiples(n - q * d, n - q' * d, q' - q, d);
  }

  lemma SubMul(a: int, b: int, d: int)
    ensures (a - b) * d == a * d - b * d
  {
  }

  /** Two distinct multiples of d are at least d apart, so they cannot
      both lie within half of d from the same point. */
  lemma CloseMultiples(e: int, e': int, k: int, d: int)
    requires d > 0 && 2 * Abs(e) <= d && 2 * Abs(e') < d
    requires e - e' == k * d
    ensures k == 0
  {
    if k >= 1 {
      MulAtLeast(k, d);
    } else if k <= -1 {
      MulAtLeast(-k, d);
    }
  }

  /** BigDecimal.setScale(2, ROUND_HALF_EVEN). */
  function SetScale2(x: Dec): (r: Dec)
    ensures r.scale == 2
    ensures x.scale <= 2 ==> r.unscaled == x.unscaled * Pow10(2 - x.scale)
  {
    if x.scale <= 2 then Dec(x.unscaled * Pow10(2 - x.scale), 2)
    else Dec(RoundHalfEven(x.unscaled, Pow10(x.scale - 2)), 2)
  }

  /** Rounding to scale 2 loses less than half a hundredth and breaks ties
      towards an even last digit. */
  lemma SetScale2Nearest(x: Dec)
    requires x.scale > 2
    ensures var d, r := Pow10(x.scale - 2), SetScale2(x).unscaled;
      && 2 * Abs(x.unscaled - r * d) <= d
      && (2 * Abs(x.unscaled - r * d) == d ==> r % 2 == 0)
  {
    RoundHalfEvenNearest(x.unscaled, Pow10(x.scale - 2));
  }

  /** The unscaled value of x when written at scale s >= x.scale. */
  function Scaled(x: Dec, s: int): int
    requires s >= x.scale
  {
    x.unscaled * Pow10(s - x.scale)
  }

  /** BigDecimal.add: the result takes the larger of the two scales. */
  function Add(a: Dec, b: Dec): (r: Dec)
    ensures r.scale == if a.scale >= b.scale then a.scale else b.scale
  {
    var s := if a.scale >= b.scale then a.scale else b.scale;
    Dec(Scaled(a, s) + Scaled(b, s), s)
  }

  lemma ScaledShift(x: Dec, s: int, t: int)
    requires x.scale <= s <= t
    ensures Scaled(x, t) == Scaled(x, s) * Pow10(t - s)
  {
    PowAdd(10, s - x.scale, t - s);
    assert x.unscaled * (Pow10(s - x.scale) * Pow10(t - s)) == (x.unscaled * Pow10(s - x.scale)) * Pow10(t - s);
  }

  /** Addition is exact: at any common scale the unscaled values add. */
  lemma AddExact(a: Dec, b: Dec, s: int)
    requires s >= a.scale && s >= b.scale
    ensures Scaled(Add(a, b), s) == Scaled(a, s) + Scaled(b, s)
  {
    var r := Add(a, b);
    var m := r.scale;
    ScaledShift(a, m, s);
    ScaledShift(b, m, s);
    ScaledShift(r, m, s);
    assert Scaled(r, m) == r.unscaled;
    assert (Scaled(a, m) + Scaled(b, m)) * Pow10(s - m)
        == Scaled(a, m) * Pow10(s - m) + Scaled(b, m) * Pow10(s - m);
  }

  /** BigDecimal.toString of a scale-2 value: the sign, the integer part,
      a point and exactly two fraction digits ("0.05", "-1.50", "100.12"). */
  function ToString2(x: Dec): (s: string)
    requires x.scale == 2
    ensures |s| >= 4 && s[|s| - 3] == '.'
    ensures x.unscaled < 0 <==> s[0] == '-'
  {
    (if x.unscaled < 0 then "-" else "") + Hundredths(Abs(x.unscaled))
  }

  /** m hundredths written as the integer part, a point and two digits. */
  function Hundredths(m: nat): (s: string)
    ensures |s| >= 4 && s[|s| - 3] == '.'
  {
    NatToString(m / 100) + "." + [DigitChar(m / 10 % 10), DigitChar(m % 10)]
  }

  predicate AllDigits(s: string) { forall i :: 0 <= i < |s| ==> IsDigit(s[i]) }

  /** Reads back a text of the shape ToString2 writes. */
  function ParseScale2(s: string): Option<Dec>
  {
    var neg := |s| > 0 && s[0] == '-';
    var b := if neg then s[1..] else s;
    if |b| >= 4 && b[|b| - 3] == '.' && AllDigits(b[..|b| - 3]) && AllDigits(b[|b| - 2..]) then
      var m := DigitsValue(b[..|b| - 3]) * 100 + DigitsValue(b[|b| - 2..]);
      Some(Dec(if neg then -m else m, 2))
    else None
  }

  lemma TwoDigits(a: nat, c: nat)
    requires a < 10 && c < 10
    ensures DigitsValue([DigitChar(a), DigitChar(c)]) == 10 * a + c
  {
    var t := [DigitChar(a), DigitChar(c)];
    assert t[..1] == [DigitChar(a)];
    assert [DigitChar(a)][..0] == [];
    assert DigitChar(a) as int - '0' as int == a;
    assert DigitChar(c) as int - '0' as int == c;
    assert DigitsValue([DigitChar(a)]) == a;
  }

  /** The rendered text denotes exactly the value it was rendered from. */
  lemma ToString2RoundTrip(x: Dec)
    requires x.scale == 2
    ensures ParseScale2(ToString2(x)) == Some(x)
  {
    var m := Abs(x.unscaled);
    var b := Hundredths(m);
    assert ToString2(x) == if x.unscaled < 0 then "-" + b else b;
    UnsignedRoundTrip(m);
    ParseSigned(b, x.unscaled < 0, m);
  }

  lemma ParseSigned(b: string, neg: bool, m: nat)
    requires |b| >= 4 && b[0] != '-' && b[|b| - 3] == '.'
    requires AllDigits(b[..|b| - 3]) && AllDigits(b[|b| - 2..])
    requires DigitsValue(b[..|b| - 3]) * 100 + DigitsValue(b[|b| - 2..]) == m
    ensures ParseScale2(if neg then "-" + b else b) == Some(Dec(if neg then -(m as int) else m as int, 2))
  {
    if neg {
      assert ("-" + b)[1..] == b;
    }
  }

  /** The unsigned part of the text: digits, a point, two digits, reading
      back as m hundredths. */
  lemma UnsignedRoundTrip(m: nat)
    ensures var b := Hundredths(m);
      && |b| >= 4 && b[0] != '-' && b[|b| - 3] == '.'
      && AllDigits(b[..|b| - 3]) && AllDigits(b[|b| - 2..])
      && DigitsValue(b[..|b| - 3]) * 100 + DigitsValue(b[|b| - 2..]) == m
  {
    var ip, fp := NatToString(m / 100), [DigitChar(m / 10 % 10), DigitChar(m % 10)];
    var b := ip + "." + fp;
    assert b[..|b| - 3] == ip && b[|b| - 2..] == fp;
    NatToStringRoundTrip(m / 100);
    TwoDigits(m / 10 % 10, m % 10);
    LastTwoDigits(m);
    assert IsDigit(ip[0]);
  }

  lemma LastTwoDigits(m: nat)
    ensures 10 * (m / 10 % 10) + m % 10 == m % 100
  {
    var q, r := m / 10, m % 10;
    var h := q / 10;
    assert m == 100 * h + (10 * (q % 10) + r);
    assert 0 <= 10 * (q % 10) + r < 100;
  }

  lemma NatToStringExamples()
    ensures NatToString(100) == "100" && NatToString(123) == "123" && NatToString(30) == "30"
  {
    assert NatToString(1) == "1" && NatToString(10) == "10";
    assert NatToString(12) == "12" && NatToString(3) == "3";
  }

  lemma RoundToScale2Examples()
    ensures SetScale2(Dec(100125, 3)) == Dec(10012, 2)
    ensures SetScale2(Dec(1001275, 4)) == Dec(10013, 2)
    ensures SetScale2(Dec(123455, 3)) == Dec(12346, 2)
    ensures SetScale2(Dec(123445, 3)) == Dec(12344, 2)
  {
    assert Pow10(1) == 10 && Pow10(2) == 100;
  }

  lemma RenderExample(u: nat, whole: nat, tenths: nat, hundredths: nat, text: string)
    requires whole == u / 100 && tenths == u / 10 % 10 && hundredths == u % 10
    requires text == NatToString(whole) + "." + [DigitChar(tenths), DigitChar(hundredths)]
    ensures ToString2(Dec(u, 2)) == text
  {
  }

  lemma RenderExamples()
    ensures ToString2(Dec(10012, 2)) == "100.12" && ToString2(Dec(10013, 2)) == "100.13"
    ensures ToString2(Dec(12346, 2)) == "123.46" && ToString2(Dec(12344, 2)) == "123.44"
  {
    NatToStringExamples();
    RenderExample(10012, 100, 1, 2, "100.12");
    RenderExample(10013, 100, 1, 3, "100.13");
    RenderExample(12346, 123, 4, 6, "123.46");
    RenderExample(12344, 123, 4, 4, "123.44");
  }

  /** The fixture ages 100.125 and 100.1275 and the two ties 123.455 and
      123.445, rendered at two places. */
  lemma RoundingExamples()
    ensures ToString2(SetScale2(Dec(100125, 3))) == "100.12"
    ensures ToString2(SetScale2(Dec(1001275, 4))) == "100.13"
    ensures ToString2(SetScale2(Dec(123455, 3))) == "123.46"
    ensures ToString2(SetScale2(Dec(123445, 3))) == "123.44"
  {
    RoundToScale2Examples();
    RenderExamples();
  }

  /** A column total of 10 + 20.5 renders as "30.50". */
  lemma SummaryExample()
    ensures Add(Dec(10, 0), Dec(205, 1)) == Dec(305, 1)
    ensures ToString2(SetScale2(Dec(305, 1))) == "30.50"
  {
    assert Pow10(0) == 1 && Pow10(1) == 10;
    assert Add(Dec(10, 0), Dec(205, 1)) == Dec(305, 1);
    assert SetScale2(Dec(305, 1)) == Dec(3050, 2);
    NatToStringExamples();
  }
}

=== FILE: ExcelSheet.dfy ===
/** ExcelSheet: one sheet of an export, filled in three steps: the header
    row (addHeaders), the content rows of one slice of the records
    (addContent) and the summary row (addSummary). A field's column is its
    position in the field list; the explicit `column` element is not
    consulted here. */
module ExcelSheets {
  import opened Wrappers
  import opened ExcelAttribute
  import opened ExcelColumns
  import opened FieldSelection
  import opened Decimals
  import opened Coercion
  import opened Workbook
  import opened Pagination
  import opened Ints

  function Max(a: int, b: int): int { if a >= b then a else b }

  /** A record: the value of each of its fields, by field name. */
  type Record = map<string, Value>

  predicate Covers(fields: seq<SelectedField>, rec: Record)
  {
    forall j :: 0 <= j < |fields| ==> fields[j].name in rec
  }

  predicate AllCover(fields: seq<SelectedField>, data: seq<Record>)
  {
    forall i :: 0 <= i < |data| ==> Covers(fields, data[i])
  }

  /** The library code the summary calls: NumberUtils.isNumber, and
      BigDecimal.valueOf(Double.valueOf(text)), which is None where it
      throws NumberFormatException. isNumber accepts texts Double.valueOf
      rejects ("123L", "0x1A"), and a text whose double is infinite
      ("1e400") is rejected by BigDecimal.valueOf. */
  datatype SumEnv = SumEnv(isNumber: string -> bool, toDecimal: string -> Option<Dec>)

  function HeaderStyleOf(attr: FieldDescriptor): Style
  {
    if attr.isMark then MarkHeaderStyle else HeaderStyle
  }

  function ContentStyleOf(attr: FieldDescriptor): Style
  {
    if attr.isMark then MarkContentStyle else ContentStyle
  }

  // ---------------------------------------------------------------- headers

  /** Row 0 after addHeaders has processed the first n fields: the title
      of each exported field i in column i. */
  function HeaderRowUpTo(fields: seq<SelectedField>, n: nat): (row: Row)
    requires n <= |fields|
    ensures forall i :: i in row <==> 0 <= i < n && fields[i].attr.isExport
    ensures forall i :: i in row ==> row[i] == Cell(Str(fields[i].attr.title), HeaderStyleOf(fields[i].attr))
  {
    if n == 0 then map[]
    else
      var f := fields[n - 1].attr;
      var row := HeaderRowUpTo(fields, n - 1);
      if f.isExport then row[n - 1 := Cell(Str(f.title), HeaderStyleOf(f))] else row
  }

  function HeaderRow(fields: seq<SelectedField>): Row
  {
    HeaderRowUpTo(fields, |fields|)
  }

  /** The prompt box and choice list an exported field asks for, over rows
      1..100 of its column. */
  function FieldValidations(attr: FieldDescriptor, col: int, promptTitle: string): seq<Validation>
  {
    (if IsNotBlank(attr.prompt) then [PromptBox(promptTitle, attr.prompt, 1, 100, col, col)] else [])
      + (if |attr.combo| > 0 then [ChoiceList(attr.combo, 1, 100, col, col)] else [])
  }

  const PromptTitle: string := "提示"

  function HeaderValidationsUpTo(fields: seq<SelectedField>, n: nat): seq<Validation>
    requires n <= |fields|
  {
    if n == 0 then []
    else
      var f := fields[n - 1].attr;
      HeaderValidationsUpTo(fields, n - 1)
        + (if f.isExport then FieldValidations(f, n - 1, PromptTitle) else [])
  }

  // ---------------------------------------------------------------- content

  /** The cell a field gets in a record's row, or the exception its
      coercion throws. */
  function ContentCell(f: SelectedField, rec: Record, dateFmt: Option<string>, env: Env): Result<Cell, CoerceError>
    requires f.name in rec
  {
    match Coerce(rec[f.name], f.attr, dateFmt, env)
    case Success(v) => Success(Cell(v, ContentStyleOf(f.attr)))
    case Failure(e) => Failure(e)
  }

  /** A record's row after the first n fields: each exported field j in
      column j, or the exception of the first field whose coercion
      throws. */
  function RowUpTo(fields: seq<SelectedField>, rec: Record, n: nat, dateFmt: Option<string>, env: Env): Result<Row, CoerceError>
    requires n <= |fields| && Covers(fields, rec)
  {
    if n == 0 then Success(map[])
    else
      match RowUpTo(fields, rec, n - 1, dateFmt, env)
      case Failure(e) => Failure(e)
      case Success(row) =>
        if !fields[n - 1].attr.isExport then Success(row)
        else
          match ContentCell(fields[n - 1], rec, dateFmt, env)
          case Failure(e) => Failure(e)
          case Success(c) => Success(row[n - 1 := c])
  }

  function ContentRow(fields: seq<SelectedField>, rec: Record, dateFmt: Option<string>, env: Env): Result<Row, CoerceError>
    requires Covers(fields, rec)
  {
    RowUpTo(fields, rec, |fields|, dateFmt, env)
  }

  /** The rows of a sheet that had rows base after addContent wrote
      records [start, end): record i in row i + 1 - start, replacing any
      row there; or the exception of the first record that throws. */
  function WithContent(base: map<int, Row>, fields: seq<SelectedField>, data: seq<Record>, start: nat, end: nat,
                       dateFmt: Option<string>, env: Env): Result<map<int, Row>, CoerceError>
    requires start <= end <= |data| && AllCover(fields, data)
    decreases end
  {
    if end == start then Success(base)
    else
      match WithContent(base, fields, data, start, end - 1, dateFmt, env)
      case Failure(e) => Failure(e)
      case Success(rows) =>
        match ContentRow(fields, data[end - 1], dateFmt, env)
        case Failure(e) => Failure(e)
        case Success(row) => Success(rows[end - start := row])
  }

  /** Once a field throws, the rest of the row cannot undo it. */
  lemma {:induction false} FailureSticks(fields: seq<SelectedField>, rec: Record, m: nat, n: nat, dateFmt: Option<string>, env: Env)
    requires m <= n <= |fields| && Covers(fields, rec)
    requires RowUpTo(fields, rec, m, dateFmt, env).Failure?
    ensures RowUpTo(fields, rec, n, dateFmt, env) == RowUpTo(fields, rec, m, dateFmt, env)
    decreases n
  {
    if n > m {
      FailureSticks(fields, rec, m, n - 1, dateFmt, env);
    }
  }

  lemma {:induction false} RowsFailureSticks(base: map<int, Row>, fields: seq<SelectedField>, data: seq<Record>,
                                             start: nat, m: nat, n: nat, dateFmt: Option<string>, env: Env)
    requires start <= m <= n <= |data| && AllCover(fields, data)
    requires WithContent(base, fields, data, start, m, dateFmt, env).Failure?
    ensures WithContent(base, fields, data, start, n, dateFmt, env) == WithContent(base, fields, data, start, m, dateFmt, env)
    decreases n
  {
    if n > m {
      RowsFailureSticks(base, fields, data, start, m, n - 1, dateFmt, env);
    }
  }

  lemma AppendAssoc<T>(a: seq<T>, b: seq<T>, c: seq<T>)
    ensures (a + b) + c == a + (b + c)
  {
  }

  lemma UpdateTwice<K, V>(a: map<K, V>, k: K, v: V, w: V)
    ensures a[k := v][k := w] == a[k := w]
  {
  }

  // ---------------------------------------------------------------- summary

  /** The cell (r, col) holds a string that looks like a number. */
  predicate NumericText(rows: map<int, Row>, r: int, col: int, sum: SumEnv)
  {
    r in rows && col in rows[r] && rows[r][col].value.Str? && sum.isNumber(rows[r][col].value.s)
  }

  /** The summary does not throw on the cell in column col of row: it is
      not a number-looking string, or its text converts. */
  predicate Converts(row: Row, col: int, sum: SumEnv)
  {
    col in row && row[col].value.Str? && sum.isNumber(row[col].value.s) ==> sum.toDecimal(row[col].value.s).Some?
  }

  /** The total of column col over rows [lo, hi): the numeric-looking
      string cells, added in row order starting from BigDecimal.ZERO; or
      the exception of the first of them that does not convert. */
  function ColumnTotal(rows: map<int, Row>, col: int, lo: int, hi: int, sum: SumEnv): Result<Dec, CoerceError>
    decreases hi - lo
  {
    if hi <= lo then Success(Zero)
    else
      var before := ColumnTotal(rows, col, lo, hi - 1, sum);
      if before.Failure? || !NumericText(rows, hi - 1, col, sum) then before
      else
        var text := rows[hi - 1][col].value.s;
        match sum.toDecimal(text)
        case None => Failure(NumberFormat(text))
        case Some(d) => Success(Add(before.value, d))
  }

  /** A row at or below hi does not take part in the total over
      [lo, hi). */
  lemma {:induction false} ColumnTotalIgnoresLaterRow(rows: map<int, Row>, k: int, row: Row, col: int, lo: int, hi: int, sum: SumEnv)
    requires hi <= k
    ensures ColumnTotal(rows[k := row], col, lo, hi, sum) == ColumnTotal(rows, col, lo, hi, sum)
    decreases hi - lo
  {
    if lo < hi {
      ColumnTotalIgnoresLaterRow(rows, k, row, col, lo, hi - 1, sum);
    }
  }

  const SumLabel: string := "合计: "

  function SummaryText(total: Dec): string
  {
    SumLabel + ToString2(SetScale2(total))
  }

  /** The cell the summary writes for a total. */
  function SumCell(total: Dec): Cell
  {
    Cell(Str(SummaryText(total)), NoStyle)
  }

  /** The summary row of a sheet whose summary row is s: each summed field
      i gets the total of column i over rows 0..s-1; or the exception of
      the first summed field whose total throws. */
  function SummaryRowUpTo(fields: seq<SelectedField>, rows: map<int, Row>, s: int, n: nat, sum: SumEnv): Result<Row, CoerceError>
    requires n <= |fields|
  {
    if n == 0 then Success(map[])
    else
      var row := SummaryRowUpTo(fields, rows, s, n - 1, sum);
      if row.Failure? || !fields[n - 1].attr.isSum then row
      else
        match ColumnTotal(rows, n - 1, 0, s, sum)
        case Failure(e) => Failure(e)
        case Success(total) => Success(row.value[n - 1 := SumCell(total)])
  }

  // ---------------------------------------------------------------- layout

  /** Every validation addHeaders requests covers rows 1..100 of one
      exported column. */
  lemma {:induction false} HeaderValidationsShape(fields: seq<SelectedField>, n: nat)
    requires n <= |fields|
    ensures forall v :: v in HeaderValidationsUpTo(fields, n) ==>
      && 0 <= v.firstCol == v.endCol < n && v.firstRow == 1 && v.endRow == 100
      && fields[v.firstCol].attr.isExport
  {
    if n > 0 {
      HeaderValidationsShape(fields, n - 1);
    }
  }

  /** A prompt box in column i exactly when field i is exported with a
      non-blank prompt. */
  lemma {:induction false} PromptBoxIff(fields: seq<SelectedField>, n: nat, i: nat)
    requires i < n <= |fields|
    ensures PromptBox(PromptTitle, fields[i].attr.prompt, 1, 100, i, i) in HeaderValidationsUpTo(fields, n)
        <==> (fields[i].attr.isExport && IsNotBlank(fields[i].attr.prompt))
  {
    if i < n - 1 {
      PromptBoxIff(fields, n - 1, i);
    } else {
      HeaderValidationsShape(fields, n - 1);
    }
  }

  /** A choice list in column i exactly when field i is exported with a
      non-empty combo. */
  lemma {:induction false} ChoiceListIff(fields: seq<SelectedField>, n: nat, i: nat)
    requires i < n <= |fields|
    ensures ChoiceList(fields[i].attr.combo, 1, 100, i, i) in HeaderValidationsUpTo(fields, n)
        <==> (fields[i].attr.isExport && |fields[i].attr.combo| > 0)
  {
    if i < n - 1 {
      ChoiceListIff(fields, n - 1, i);
    } else {
      HeaderValidationsShape(fields, n - 1);
    }
  }

  /** A record's row exists iff every exported field coerces. */
  lemma {:induction false} ContentRowSucceeds(fields: seq<SelectedField>, rec: Record, n: nat, dateFmt: Option<string>, env: Env)
    requires n <= |fields| && Covers(fields, rec)
    ensures RowUpTo(fields, rec, n, dateFmt, env).Success? <==>
      forall j :: 0 <= j < n && fields[j].attr.isExport ==> ContentCell(fields[j], rec, dateFmt, env).Success?
  {
    if n > 0 {
      ContentRowSucceeds(fields, rec, n - 1, dateFmt, env);
    }
  }

  /** The row holds, in column j, the coerced value of each exported
      field j and nothing else. */
  lemma {:induction false} ContentRowCells(fields: seq<SelectedField>, rec: Record, n: nat, dateFmt: Option<string>, env: Env)
    requires n <= |fields| && Covers(fields, rec)
    requires RowUpTo(fields, rec, n, dateFmt, env).Success?
    ensures var row := RowUpTo(fields, rec, n, dateFmt, env).value;
      && (forall j :: j in row <==> 0 <= j < n && fields[j].attr.isExport)
      && (forall j :: j in row ==>
            ContentCell(fields[j], rec, dateFmt, env).Success? && row[j] == ContentCell(fields[j], rec, dateFmt, env).value)
  {
    if n > 0 {
      ContentRowCells(fields, rec, n - 1, dateFmt, env);
    }
  }

  /** A failing row reports the exception of its first failing field. */
  lemma {:induction false} ContentRowFirstFailure(fields: seq<SelectedField>, rec: Record, n: nat, dateFmt: Option<string>, env: Env)
    requires n <= |fields| && Covers(fields, rec)
    requires RowUpTo(fields, rec, n, dateFmt, env).Failure?
    ensures exists j :: (0 <= j < n && fields[j].attr.isExport
        && ContentCell(fields[j], rec, dateFmt, env) == Failure(RowUpTo(fields, rec, n, dateFmt, env).error)
        && forall k :: 0 <= k < j && fields[k].attr.isExport ==> ContentCell(fields[k], rec, dateFmt, env).Success?)
  {
    if RowUpTo(fields, rec, n - 1, dateFmt, env).Failure? {
      ContentRowFirstFailure(fields, rec, n - 1, dateFmt, env);
    } else {
      ContentRowSucceeds(fields, rec, n - 1, dateFmt, env);
    }
  }

  /** The rows after addContent: record i of the slice in row
      i + 1 - start, every other row as it was; this succeeds iff every
      record of the slice converts. */
  lemma {:induction false} WithContentSucceeds(base: map<int, Row>, fields: seq<SelectedField>, data: seq<Record>,
                                               start: nat, end: nat, dateFmt: Option<string>, env: Env)
    requires start <= end <= |data| && AllCover(fields, data)
    ensures WithContent(base, fields, data, start, end, dateFmt, env).Success? <==>
      forall i :: start <= i < end ==> ContentRow(fields, data[i], dateFmt, env).Success?
    decreases end
  {
    if end > start {
      WithContentSucceeds(base, fields, data, start, end - 1, dateFmt, env);
    }
  }

  lemma {:induction false} WithContentKeys(base: map<int, Row>, fields: seq<SelectedField>, data: seq<Record>,
                                           start: nat, end: nat, dateFmt: Option<string>, env: Env)
    requires start <= end <= |data| && AllCover(fields, data)
    requires WithContent(base, fields, data, start, end, dateFmt, env).Success?
    ensures var rows := WithContent(base, fields, data, start, end, dateFmt, env).value;
      && (forall k :: k in rows <==> k in base || 1 <= k <= end - start)
      && (forall k :: k in base && !(1 <= k <= end - start) ==> rows[k] == base[k])
    decreases end
  {
    if end > start {
      var prev := WithContent(base, fields, data, start, end - 1, dateFmt, env);
      assert prev.Success?;
      WithContentKeys(base, fields, data, start, end - 1, dateFmt, env);
      var last := ContentRow(fields, data[end - 1], dateFmt, env);
      assert WithContent(base, fields, data, start, end, dateFmt, env).value == prev.value[end - start := last.value];
    }
  }

  lemma {:induction false} WithContentLayout(base: map<int, Row>, fields: seq<SelectedField>, data: seq<Record>,
                                             start: nat, end: nat, dateFmt: Option<string>, env: Env)
    requires start <= end <= |data| && AllCover(fields, data)
    requires WithContent(base, fields, data, start, end, dateFmt, env).Success?
    ensures var rows := WithContent(base, fields, data, start, end, dateFmt, env).value;
      && (forall i :: start <= i < end ==> ContentRow(fields, data[i], dateFmt, env).Success?)
      && (forall k :: k in rows <==> k in base || 1 <= k <= end - start)
      && (forall i :: start <= i < end ==> rows[i + 1 - start] == ContentRow(fields, data[i], dateFmt, env).value)
      && (forall k :: k in base && !(1 <= k <= end - start) ==> rows[k] == base[k])
  {
    WithContentSucceeds(base, fields, data, start, end, dateFmt, env);
    WithContentKeys(base, fields, data, start, end, dateFmt, env);
    WithContentRecords(base, fields, data, start, end, dateFmt, env);
    var rows := WithContent(base, fields, data, start, end, dateFmt, env).value;
    forall i | start <= i < end
      ensures i + 1 - start in rows && rows[i + 1 - start] == ContentRow(fields, data[i], dateFmt, env).value
    {
      assert RecordRowAt(rows, fields, data, start, i, dateFmt, env);
    }
  }

  lemma {:induction false} WithContentRecords(base: map<int, Row>, fields: seq<SelectedField>, data: seq<Record>,
                                              start: nat, end: nat, dateFmt: Option<string>, env: Env)
    requires start <= end <= |data| && AllCover(fields, data)
    requires WithContent(base, fields, data, start, end, dateFmt, env).Success?
    requires forall i :: start <= i < end ==> ContentRow(fields, data[i], dateFmt, env).Success?
    ensures forall i :: start <= i < end ==> RecordRowAt(WithContent(base, fields, data, start, end, dateFmt, env).value,
                                                         fields, data, start, i, dateFmt, env)
    decreases end
  {
    if end > start {
      var prev := WithContent(base, fields, data, start, end - 1, dateFmt, env);
      assert prev.Success?;
      WithContentRecords(base, fields, data, start, end - 1, dateFmt, env);
      var last := ContentRow(fields, data[end - 1], dateFmt, env);
      var rows := prev.value[end - start := last.value];
      assert WithContent(base, fields, data, start, end, dateFmt, env).value == rows;
      forall i | start <= i < end
        ensures RecordRowAt(rows, fields, data, start, i, dateFmt, env)
      {
        if i < end - 1 {
          assert RecordRowAt(prev.value, fields, data, start, i, dateFmt, env);
        }
      }
    }
  }

  /** Record i of a slice starting at start is row i + 1 - start of rows. */
  predicate RecordRowAt(rows: map<int, Row>, fields: seq<SelectedField>, data: seq<Record>, start: nat, i: int,
                        dateFmt: Option<string>, env: Env)
    requires 0 <= i < |data| && AllCover(fields, data)
  {
    var c := ContentRow(fields, data[i], dateFmt, env);
    c.Success? && i + 1 - start in rows && rows[i + 1 - start] == c.value
  }

  /** Column i of the summary row is filled iff field i is summed, and
      then holds the total of that column over the rows above the summary
      row. */
  lemma {:induction false} SummaryRowCells(fields: seq<SelectedField>, rows: map<int, Row>, s: int, n: nat, sum: SumEnv)
    requires n <= |fields|
    ensures var row := SummaryRowUpTo(fields, rows, s, n, sum);
      row.Success? ==>
        && (forall i :: i in row.value <==> 0 <= i < n && fields[i].attr.isSum)
        && (forall i :: i in row.value ==>
              ColumnTotal(rows, i, 0, s, sum).Success? && row.value[i] == SumCell(ColumnTotal(rows, i, 0, s, sum).value))
  {
    if n > 0 {
      SummaryRowCells(fields, rows, s, n - 1, sum);
    }
  }

  /** Once a summed field's total has thrown, the summary row fails with
      that exception whatever the later fields are. */
  lemma {:induction false} SummaryRowFailureSticks(fields: seq<SelectedField>, rows: map<int, Row>, s: int, m: nat, n: nat, sum: SumEnv)
    requires m <= n <= |fields| && SummaryRowUpTo(fields, rows, s, m, sum).Failure?
    ensures SummaryRowUpTo(fields, rows, s, n, sum) == SummaryRowUpTo(fields, rows, s, m, sum)
    decreases n - m
  {
    if m < n {
      SummaryRowFailureSticks(fields, rows, s, m, n - 1, sum);
    }
  }

  /** The summary row is written iff the total of every summed field's
      column is. */
  lemma {:induction false} SummaryRowSucceeds(fields: seq<SelectedField>, rows: map<int, Row>, s: int, n: nat, sum: SumEnv)
    requires n <= |fields|
    ensures SummaryRowUpTo(fields, rows, s, n, sum).Success?
        <==> forall i :: 0 <= i < n && fields[i].attr.isSum ==> ColumnTotal(rows, i, 0, s, sum).Success?
  {
    if n > 0 {
      SummaryRowSucceeds(fields, rows, s, n - 1, sum);
    }
  }

  /** A total that has thrown stays thrown as the range grows. */
  lemma {:induction false} ColumnTotalFailureSticks(rows: map<int, Row>, col: int, lo: int, mid: int, hi: int, sum: SumEnv)
    requires lo <= mid <= hi && ColumnTotal(rows, col, lo, mid, sum).Failure?
    ensures ColumnTotal(rows, col, lo, hi, sum) == ColumnTotal(rows, col, lo, mid, sum)
    decreases hi - mid
  {
    if mid < hi {
      ColumnTotalFailureSticks(rows, col, lo, mid, hi - 1, sum);
    }
  }

  /** A total succeeds iff every row of its range converts. */
  lemma {:induction false} ColumnTotalSucceeds(rows: map<int, Row>, col: int, lo: int, hi: int, sum: SumEnv)
    ensures ColumnTotal(rows, col, lo, hi, sum).Success?
        <==> forall r :: lo <= r < hi && r in rows ==> Converts(rows[r], col, sum)
    decreases hi - lo
  {
    if lo < hi {
      ColumnTotalSucceeds(rows, col, lo, hi - 1, sum);
    }
  }

  /** A total that throws reports the text of its first row that does not
      convert. */
  lemma {:induction false} ColumnTotalFirstFailure(rows: map<int, Row>, col: int, lo: int, hi: int, sum: SumEnv)
    requires ColumnTotal(rows, col, lo, hi, sum).Failure?
    ensures exists r ::
      && lo <= r < hi && r in rows && !Converts(rows[r], col, sum)
      && ColumnTotal(rows, col, lo, hi, sum) == Failure(NumberFormat(rows[r][col].value.s))
      && forall q :: lo <= q < r && q in rows ==> Converts(rows[q], col, sum)
    decreases hi - lo
  {
    var before := ColumnTotal(rows, col, lo, hi - 1, sum);
    if before.Failure? {
      ColumnTotalFirstFailure(rows, col, lo, hi - 1, sum);
    } else {
      ColumnTotalSucceeds(rows, col, lo, hi - 1, sum);
      assert !Converts(rows[hi - 1], col, sum);
    }
  }

  /** Only string cells that look like numbers are added: a column of
      numeric (double) or blank cells totals zero. */
  lemma {:induction false} NonTextNotSummed(rows: map<int, Row>, col: int, lo: int, hi: int, sum: SumEnv)
    requires forall r :: lo <= r < hi ==> !NumericText(rows, r, col, sum)
    ensures ColumnTotal(rows, col, lo, hi, sum) == Success(Zero)
    decreases hi - lo
  {
    if lo < hi {
      NonTextNotSummed(rows, col, lo, hi - 1, sum);
    }
  }

  /** Every added text of column col in [lo, hi) converts to a value of
      scale at most s. */
  predicate ConvertsAtScale(rows: map<int, Row>, col: int, lo: int, hi: int, sum: SumEnv, s: int)
  {
    forall r :: lo <= r < hi && NumericText(rows, r, col, sum) ==>
      sum.toDecimal(rows[r][col].value.s).Some? && sum.toDecimal(rows[r][col].value.s).value.scale <= s
  }

  /** The total is exact: at any scale at least that of every added value
      it is the sum of the added values. */
  function TermsAt(rows: map<int, Row>, col: int, lo: int, hi: int, sum: SumEnv, s: int): int
    requires ConvertsAtScale(rows, col, lo, hi, sum, s)
    decreases hi - lo
  {
    if hi <= lo then 0
    else
      TermsAt(rows, col, lo, hi - 1, sum, s)
        + (if NumericText(rows, hi - 1, col, sum) then Scaled(sum.toDecimal(rows[hi - 1][col].value.s).value, s) else 0)
  }

  lemma {:induction false} ColumnTotalExact(rows: map<int, Row>, col: int, lo: int, hi: int, sum: SumEnv, s: int)
    requires s >= 0 && ConvertsAtScale(rows, col, lo, hi, sum, s)
    ensures ColumnTotal(rows, col, lo, hi, sum).Success?
    ensures ColumnTotal(rows, col, lo, hi, sum).value.scale <= s
    ensures Scaled(ColumnTotal(rows, col, lo, hi, sum).value, s) == TermsAt(rows, col, lo, hi, sum, s)
    decreases hi - lo
  {
    if lo < hi {
      assert ConvertsAtScale(rows, col, lo, hi - 1, sum, s);
      ColumnTotalExact(rows, col, lo, hi - 1, sum, s);
      var before := ColumnTotal(rows, col, lo, hi - 1, sum).value;
      if NumericText(rows, hi - 1, col, sum) {
        AddExact(before, sum.toDecimal(rows[hi - 1][col].value.s).value, s);
      }
    }
  }

  /** A column whose cells were written as text: "10" and "20.5" are
      added (as BigDecimal.valueOf of their doubles, 10.0 and 20.5), the
      title and "n/a" are not. */
  lemma TextColumnTotal(sum: SumEnv, rows: map<int, Row>)
    requires sum.isNumber("10") && sum.isNumber("20.5") && !sum.isNumber("n/a") && !sum.isNumber("Amount")
    requires sum.toDecimal("10") == Some(Dec(100, 1)) && sum.toDecimal("20.5") == Some(Dec(205, 1))
    requires rows == map[0 := map[0 := Cell(Str("Amount"), HeaderStyle)],
                         1 := map[0 := Cell(Str("10"), ContentStyle)],
                         2 := map[0 := Cell(Str("20.5"), ContentStyle)],
                         3 := map[0 := Cell(Str("n/a"), ContentStyle)]]
    ensures ColumnTotal(rows, 0, 0, 4, sum) == Success(Dec(305, 1))
  {
    assert ColumnTotal(rows, 0, 0, 1, sum) == Success(Zero);
    assert Pow10(0) == 1 && Pow10(1) == 10;
    assert ColumnTotal(rows, 0, 0, 2, sum) == Success(Dec(100, 1));
    assert ColumnTotal(rows, 0, 0, 3, sum) == Success(Dec(305, 1));
  }

  lemma TextColumnSummary(sum: SumEnv, rows: map<int, Row>)
    requires sum.isNumber("10") && sum.isNumber("20.5") && !sum.isNumber("n/a") && !sum.isNumber("Amount")
    requires sum.toDecimal("10") == Some(Dec(100, 1)) && sum.toDecimal("20.5") == Some(Dec(205, 1))
    requires rows == map[0 := map[0 := Cell(Str("Amount"), HeaderStyle)],
                         1 := map[0 := Cell(Str("10"), ContentStyle)],
                         2 := map[0 := Cell(Str("20.5"), ContentStyle)],
                         3 := map[0 := Cell(Str("n/a"), ContentStyle)]]
    ensures ColumnTotal(rows, 0, 0, 4, sum).Success?
    ensures SummaryText(ColumnTotal(rows, 0, 0, 4, sum).value) == "合计: 30.50"
  {
    TextColumnTotal(sum, rows);
    SummaryTextExample();
  }

  /** A text isNumber accepts but Double.valueOf rejects, such as the hex
      "0x1A", makes the summary throw once it is reached: the amounts above
      it are added, the text after it is never read. */
  lemma HexTextThrows(sum: SumEnv, rows: map<int, Row>)
    requires sum.isNumber("10") && sum.isNumber("0x1A") && !sum.isNumber("Amount")
    requires sum.toDecimal("10") == Some(Dec(100, 1)) && sum.toDecimal("0x1A") == None
    requires rows == map[0 := map[0 := Cell(Str("Amount"), HeaderStyle)],
                         1 := map[0 := Cell(Str("10"), ContentStyle)],
                         2 := map[0 := Cell(Str("0x1A"), ContentStyle)],
                         3 := map[0 := Cell(Str("oops"), ContentStyle)]]
    ensures ColumnTotal(rows, 0, 0, 4, sum) == Failure(NumberFormat("0x1A"))
  {
    assert ColumnTotal(rows, 0, 0, 2, sum).Success?;
    assert ColumnTotal(rows, 0, 0, 3, sum) == Failure(NumberFormat("0x1A"));
  }

  /** The label and two decimals: 30.5 is shown as "合计: 30.50". */
  lemma SummaryTextExample()
    ensures SummaryText(Dec(305, 1)) == "合计: 30.50"
  {
    SummaryExample();
  }

  /** The same amounts written as numeric cells are not added at all. */
  lemma NumericColumnSummary(sum: SumEnv)
    requires !sum.isNumber("Amount")
    ensures var rows := map[0 := map[0 := Cell(Str("Amount"), HeaderStyle)],
                            1 := map[0 := Cell(Num(10.0), ContentStyle)],
                            2 := map[0 := Cell(Num(20.5), ContentStyle)]];
      && ColumnTotal(rows, 0, 0, 3, sum).Success?
      && SummaryText(ColumnTotal(rows, 0, 0, 3, sum).value) == "合计: 0.00"
  {
    var rows := map[0 := map[0 := Cell(Str("Amount"), HeaderStyle)],
                    1 := map[0 := Cell(Num(10.0), ContentStyle)],
                    2 := map[0 := Cell(Num(20.5), ContentStyle)]];
    NonTextNotSummed(rows, 0, 0, 3, sum);
    assert SetScale2(Zero) == Dec(0, 2);
    assert NatToString(0) == "0";
  }

  // ---------------------------------------------------------------- swaps

  /** s with the elements at i and j exchanged. */
  function Swapped<T>(s: seq<T>, i: nat, j: nat): (r: seq<T>)
    requires i < |s| && j < |s|
    ensures |r| == |s| && r[i] == s[j] && r[j] == s[i]
    ensures forall k :: 0 <= k < |s| && k != i && k != j ==> r[k] == s[k]
    ensures multiset(r) == multiset(s)
  {
    var r := s[i := s[j]][j := s[i]];
    assert multiset(s[i := s[j]]) == multiset(s) - multiset{s[i]} + multiset{s[j]};
    r
  }

  /** The inner loop of both summaries: the total of column col over rows
      [lo, hi) of the sheet as it is now; the first text that does not
      convert ends it. */
  method SumColumn(rows: map<int, Row>, col: int, lo: int, hi: int, sum: SumEnv) returns (total: Result<Dec, CoerceError>)
    ensures total == ColumnTotal(rows, col, lo, hi, sum)
  {
    var acc := Zero;
    var j := lo;
    while j < hi
      invariant lo <= j && (j <= hi || hi < lo)
      invariant ColumnTotal(rows, col, lo, if j <= hi then j else hi, sum) == Success(acc)
    {
      if j in rows {
        var idxRow := rows[j];
        if col in idxRow && idxRow[col].value.Str? && sum.isNumber(idxRow[col].value.s) {
          var d := sum.toDecimal(idxRow[col].value.s);
          if d.None? {
            ColumnTotalFailureSticks(rows, col, lo, j + 1, hi, sum);
            return Failure(NumberFormat(idxRow[col].value.s));
          }
          acc := Add(acc, d.value);
        }
      }
      j := j + 1;
    }
    total := Success(acc);
  }

  class ExcelSheet {
    const sheet: Sheet

    constructor (sheet: Sheet)
      ensures this.sheet == sheet
    {
      this.sheet := sheet;
    }

    /** The deprecated exchangeColumns: a field at idx asking for another
        column col inside the list is swapped with the field there, and
        idx - 1 is returned so the caller looks at idx again; a negative
        col makes fields.get(col) throw (None). */
    method ExchangeColumns(fields: array<SelectedField>, idx: int) returns (r: Option<int>)
      requires 0 <= idx < fields.Length
      modifies fields
      ensures var attr := old(fields[idx]).attr;
        var col := ColIndex(attr.column);
        if IsNotBlank(attr.column) && (col < idx || (col > idx && col < fields.Length)) then
          if col < 0 then r == None && fields[..] == old(fields[..])
          else r == Some(idx - 1) && fields[..] == Swapped(old(fields[..]), idx, col)
        else r == Some(idx) && fields[..] == old(fields[..])
    {
      var field := fields[idx];
      if IsNotBlank(field.attr.column) {
        var col := GetExcelCol(field.attr.column);
        if col < idx || (col > idx && col < fields.Length) {
          if col < 0 {
            return None;
          }
          var origin := fields[col];
          fields[col] := field;
          fields[idx] := origin;
          return Some(idx - 1);
        }
      }
      r := Some(idx);
    }

    /** The header cell of an exported field in column i, with the prompt
        box and choice list it asks for. */
    method AddHeaderCell(attr: FieldDescriptor, i: int)
      requires sheet.Valid() && 0 in sheet.rows
      modifies sheet
      ensures sheet.Valid() && 0 in sheet.rows
      ensures sheet.rows == old(sheet.rows)[0 := old(sheet.rows)[0][i := Cell(Str(attr.title), HeaderStyleOf(attr))]]
      ensures sheet.validations == old(sheet.validations) + FieldValidations(attr, i, PromptTitle)
      ensures sheet.lastRow == old(sheet.lastRow)
    {
      sheet.SetCell(0, i, Cell(Str(attr.title), HeaderStyleOf(attr)));
      if IsNotBlank(attr.prompt) {
        sheet.AddValidation(PromptBox(PromptTitle, attr.prompt, 1, 100, i, i));
      }
      if |attr.combo| > 0 {
        sheet.AddValidation(ChoiceList(attr.combo, 1, 100, i, i));
      }
    }

    method AddHeaders(fields: seq<SelectedField>)
      requires sheet.Valid()
      modifies sheet
      ensures sheet.Valid()
      ensures sheet.rows == old(sheet.rows)[0 := HeaderRow(fields)]
      ensures sheet.validations == old(sheet.validations) + HeaderValidationsUpTo(fields, |fields|)
      ensures sheet.lastRow == old(sheet.lastRow)
    {
      sheet.CreateRow(0);
      var i := 0;
      while i < |fields|
        invariant 0 <= i <= |fields|
        invariant sheet.Valid() && 0 in sheet.rows
        invariant sheet.rows == old(sheet.rows)[0 := HeaderRowUpTo(fields, i)]
        invariant sheet.validations == old(sheet.validations) + HeaderValidationsUpTo(fields, i)
        invariant sheet.lastRow == old(sheet.lastRow)
      {
        var attr := fields[i].attr;
        if attr.isExport {
          AddHeaderCell(attr, i);
          UpdateTwice(old(sheet.rows), 0, HeaderRowUpTo(fields, i), HeaderRowUpTo(fields, i + 1));
          AppendAssoc(old(sheet.validations), HeaderValidationsUpTo(fields, i), FieldValidations(attr, i, PromptTitle));
        }
        i := i + 1;
      }
    }

    /** One content cell: created blank with the field's style, then given
        the coerced value, unless the coercion throws. */
    method AddContentCell(f: SelectedField, rec: Record, r: int, j: int, dateFmt: Option<string>, env: Env)
      returns (c: Result<Cell, CoerceError>)
      requires sheet.Valid() && r in sheet.rows && f.name in rec
      modifies sheet
      ensures sheet.Valid() && sheet.validations == old(sheet.validations)
      ensures c == ContentCell(f, rec, dateFmt, env) && sheet.lastRow == old(sheet.lastRow)
      ensures c.Success? ==> sheet.rows == old(sheet.rows)[r := old(sheet.rows)[r][j := c.value]]
    {
      var style := ContentStyleOf(f.attr);
      ghost var row0 := sheet.rows[r];
      sheet.SetCell(r, j, Cell(Blank, style));
      var v := CoerceCell(rec[f.name], f.attr, dateFmt, env);
      if v.Failure? {
        return Failure(v.error);
      }
      sheet.SetCell(r, j, Cell(v.value, style));
      UpdateTwice(row0, j, Cell(Blank, style), Cell(v.value, style));
      UpdateTwice(old(sheet.rows), r, row0[j := Cell(Blank, style)], row0[j := Cell(v.value, style)]);
      c := Success(Cell(v.value, style));
    }

    /** The content row of one record, written in row r field by field. */
    method AddContentRow(fields: seq<SelectedField>, rec: Record, r: int, dateFmt: Option<string>, env: Env)
      returns (err: Option<CoerceError>)
      requires sheet.Valid() && Covers(fields, rec)
      modifies sheet
      ensures sheet.Valid() && sheet.validations == old(sheet.validations)
      ensures err.None? <==> ContentRow(fields, rec, dateFmt, env).Success?
      ensures err.Some? ==> ContentRow(fields, rec, dateFmt, env) == Failure(err.value)
      ensures err.None? ==> sheet.rows == old(sheet.rows)[r := ContentRow(fields, rec, dateFmt, env).value]
      ensures sheet.lastRow == if r > old(sheet.lastRow) then r else old(sheet.lastRow)
    {
      sheet.CreateRow(r);
      var j := 0;
      while j < |fields|
        invariant 0 <= j <= |fields|
        invariant sheet.Valid() && sheet.validations == old(sheet.validations)
        invariant RowUpTo(fields, rec, j, dateFmt, env).Success?
        invariant sheet.rows == old(sheet.rows)[r := RowUpTo(fields, rec, j, dateFmt, env).value]
        invariant sheet.lastRow == if r > old(sheet.lastRow) then r else old(sheet.lastRow)
      {
        if fields[j].attr.isExport {
          ghost var before := RowUpTo(fields, rec, j, dateFmt, env).value;
          var c := AddContentCell(fields[j], rec, r, j, dateFmt, env);
          if c.Failure? {
            FailureSticks(fields, rec, j + 1, |fields|, dateFmt, env);
            return Some(c.error);
          }
          UpdateTwice(old(sheet.rows), r, before, before[j := c.value]);
        }
        j := j + 1;
      }
      err := None;
    }

    /** The records [startNo, endNo), record i in row i + 1 - startNo. */
    method AddRecords(fields: seq<SelectedField>, data: seq<Record>, startNo: nat, endNo: nat,
                      dateFmt: Option<string>, env: Env)
      returns (err: Option<CoerceError>)
      requires sheet.Valid() && AllCover(fields, data) && startNo <= endNo <= |data|
      modifies sheet
      ensures sheet.Valid() && sheet.validations == old(sheet.validations)
      ensures var written := WithContent(old(sheet.rows), fields, data, startNo, endNo, dateFmt, env);
        && (err.None? <==> written.Success?)
        && (err.Some? ==> written == Failure(err.value))
        && (err.None? ==> sheet.rows == written.value)
      ensures err.None? ==> sheet.lastRow == Max(old(sheet.lastRow), endNo - startNo)
    {
      var i := startNo;
      while i < endNo
        invariant startNo <= i <= endNo
        invariant sheet.Valid() && sheet.validations == old(sheet.validations)
        invariant WithContent(old(sheet.rows), fields, data, startNo, i, dateFmt, env).Success?
        invariant sheet.rows == WithContent(old(sheet.rows), fields, data, startNo, i, dateFmt, env).value
        invariant sheet.lastRow == Max(old(sheet.lastRow), i - startNo)
      {
        var e := AddContentRow(fields, data[i], i + 1 - startNo, dateFmt, env);
        if e.Some? {
          RowsFailureSticks(old(sheet.rows), fields, data, startNo, i + 1, endNo, dateFmt, env);
          return e;
        }
        i := i + 1;
      }
      err := None;
    }

    /** addContent: in per-sheet mode the records of slice sheetNo, in
        multiple mode all records; nothing when the list is shorter than
        the slice's start. The first exception ends it (err); the rows
        written before it are not described. */
    method AddContent(fields: seq<SelectedField>, data: seq<Record>, multiple: bool, sheetNo: nat,
                      dateFmt: Option<string>, env: Env)
      returns (err: Option<CoerceError>)
      requires sheet.Valid() && AllCover(fields, data)
      modifies sheet
      ensures sheet.Valid() && sheet.validations == old(sheet.validations)
      ensures |data| < StartNo(multiple, sheetNo) ==>
        err.None? && sheet.rows == old(sheet.rows) && sheet.lastRow == old(sheet.lastRow)
      ensures |data| >= StartNo(multiple, sheetNo) ==>
        var written := WithContent(old(sheet.rows), fields, data, StartNo(multiple, sheetNo), EndNo(multiple, sheetNo, |data|), dateFmt, env);
        && (err.None? <==> written.Success?)
        && (err.Some? ==> written == Failure(err.value))
        && (err.None? ==> sheet.rows == written.value)
        && (err.None? ==> sheet.lastRow == Max(old(sheet.lastRow), EndNo(multiple, sheetNo, |data|) - StartNo(multiple, sheetNo)))
    {
      var startNo := StartNo(multiple, sheetNo);
      var endNo := EndNo(multiple, sheetNo, |data|);
      if |data| < startNo {
        return None;
      }
      err := AddRecords(fields, data, startNo, endNo, dateFmt, env);
    }

    /** The summary cell of column col: the column's total over the rows
        above the summary row, which is the last row. When the total
        throws, the cell is not written. */
    method AddSumCell(col: int, sum: SumEnv) returns (err: Option<CoerceError>)
      requires sheet.Valid() && sheet.lastRow in sheet.rows
      modifies sheet
      ensures sheet.Valid() && sheet.validations == old(sheet.validations) && sheet.lastRow == old(sheet.lastRow)
      ensures var total := ColumnTotal(old(sheet.rows), col, 0, sheet.lastRow, sum);
        && (err.None? <==> total.Success?)
        && (err.Some? ==> total == Failure(err.value) && sheet.rows == old(sheet.rows))
        && (err.None? ==> sheet.rows == old(sheet.rows)[sheet.lastRow := old(sheet.rows)[sheet.lastRow][col := SumCell(total.value)]])
    {
      var lastRowNum := sheet.LastRowNum();
      var total := SumColumn(sheet.rows, col, 0, lastRowNum, sum);
      if total.Failure? {
        return Some(total.error);
      }
      sheet.SetCell(lastRowNum, col, SumCell(total.value));
      err := None;
    }

    /** addSummary: a new row after the last one; each summed field i gets
        the total of column i over every row above it. The first total that
        throws ends it (err); the cells written before it are not
        described. */
    method AddSummary(fields: seq<SelectedField>, sum: SumEnv) returns (err: Option<CoerceError>)
      requires sheet.Valid()
      modifies sheet
      ensures sheet.Valid() && sheet.validations == old(sheet.validations)
      ensures sheet.lastRow == old(sheet.lastRow) + 1
      ensures var row := SummaryRowUpTo(fields, old(sheet.rows), old(sheet.lastRow) + 1, |fields|, sum);
        && (err.None? <==> row.Success?)
        && (err.Some? ==> row == Failure(err.value))
        && (err.None? ==> sheet.rows == old(sheet.rows)[old(sheet.lastRow) + 1 := row.value])
    {
      var sumRow := sheet.LastRowNum() + 1;
      sheet.CreateRow(sumRow);
      ghost var rows0 := old(sheet.rows);
      assert SummaryRowUpTo(fields, rows0, sumRow, 0, sum) == Success(map[]);
      var i := 0;
      while i < |fields|
        invariant 0 <= i <= |fields|
        invariant sheet.Valid() && sheet.validations == old(sheet.validations)
        invariant sheet.lastRow == sumRow
        invariant SummaryRowUpTo(fields, rows0, sumRow, i, sum).Success?
        invariant sheet.rows == rows0[sumRow := SummaryRowUpTo(fields, rows0, sumRow, i, sum).value]
      {
        var e := AddSummaryField(fields, i, rows0, sumRow, sum);
        if e.Some? {
          SummaryRowFailureSticks(fields, rows0, sumRow, i + 1, |fields|, sum);
          return e;
        }
        i := i + 1;
      }
      err := None;
    }

    /** One turn of the loop of addSummary: field i, when summed, gets its
        total in the summary row, or its exception. */
    method AddSummaryField(fields: seq<SelectedField>, i: nat, ghost rows0: map<int, Row>, sumRow: int, sum: SumEnv)
      returns (err: Option<CoerceError>)
      requires i < |fields| && sheet.Valid() && sheet.lastRow == sumRow
      requires SummaryRowUpTo(fields, rows0, sumRow, i, sum).Success?
      requires sheet.rows == rows0[sumRow := SummaryRowUpTo(fields, rows0, sumRow, i, sum).value]
      modifies sheet
      ensures sheet.Valid() && sheet.validations == old(sheet.validations) && sheet.lastRow == sumRow
      ensures var row := SummaryRowUpTo(fields, rows0, sumRow, i + 1, sum);
        && (err.None? <==> row.Success?)
        && (err.Some? ==> row == Failure(err.value))
        && (err.None? ==> sheet.rows == rows0[sumRow := row.value])
    {
      if fields[i].attr.isSum {
        ghost var before := SummaryRowUpTo(fields, rows0, sumRow, i, sum).value;
        ColumnTotalIgnoresLaterRow(rows0, sumRow, before, i, 0, sumRow, sum);
        err := AddSumCell(i, sum);
        if err.None? {
          UpdateTwice(rows0, sumRow, before, SummaryRowUpTo(fields, rows0, sumRow, i + 1, sum).value);
        }
      } else {
        err := None;
      }
    }
  }
}

=== FILE: ExcelUtil.dfy ===
/** ExcelUtil: the exporter. It selects the annotated fields of the record
    type and builds one workbook: one sheet per slice of a record list
    (exportDataList), one sheet per non-empty list (exportMultipleDataList),
    or all lists stacked on one sheet (the grouped exportDataList). The
    workbook is returned as its sheets; writing it to the stream is not
    modelled. */
module ExcelExport {
  import opened Wrappers
  import opened Ints
  import opened ExcelAttribute
  import opened FieldSelection
  import opened Coercion
  import opened Workbook
  import opened Pagination
  import opened ExcelSheets
  import opened GroupedSheet

  /** The blank lines left between two blocks of the grouped export. */
  const DEFAULT_DELIMITER: int := 5

  /** The fields exported for a record type. */
  function FieldsOf(cls: ClassInfo, superFlag: bool, view: Option<ViewTag>): seq<SelectedField>
  {
    Select(Candidates(cls, superFlag), view)
  }

  /** Every record has a value for every field its type and its superclass
      declare: a list holds only non-null instances of its class, which for
      exportMultipleDataList and the grouped export is the class of the
      list's first element. */
  predicate Conforms(cls: ClassInfo, data: seq<Record>)
  {
    forall i, f :: 0 <= i < |data| && f in Candidates(cls, true) ==> f.name in data[i]
  }

  lemma ConformingRecordsCover(cls: ClassInfo, superFlag: bool, view: Option<ViewTag>, data: seq<Record>)
    requires Conforms(cls, data)
    ensures AllCover(FieldsOf(cls, superFlag, view), data)
  {
    var fs := Candidates(cls, superFlag);
    SelectIsOrderedSubsequence(fs, view);
    forall i, j | 0 <= i < |data| && 0 <= j < |FieldsOf(cls, superFlag, view)|
      ensures FieldsOf(cls, superFlag, view)[j].name in data[i]
    {
      var k := KeptIndices(fs, view)[j];
      assert fs[k] in Candidates(cls, true);
    }
  }

  /** The rows of one sheet of the per-sheet and many-lists exports: the
      header row 0, the slice's records from row 1, and the summary row
      after the last of them; or the exception the content throws. */
  function SheetRows(fields: seq<SelectedField>, data: seq<Record>, multiple: bool, sheetNo: nat,
                     dateFmt: Option<string>, env: Env, sum: SumEnv): Result<map<int, Row>, CoerceError>
    requires AllCover(fields, data)
  {
    SliceRows(fields, data, StartNo(multiple, sheetNo), EndNo(multiple, sheetNo, |data|), dateFmt, env, sum)
  }

  /** rows with the summary row s added below them, or the exception of
      the summary. */
  function WithSummary(rows: map<int, Row>, fields: seq<SelectedField>, s: int, sum: SumEnv): Result<map<int, Row>, CoerceError>
  {
    match SummaryRowUpTo(fields, rows, s, |fields|, sum)
    case Failure(e) => Failure(e)
    case Success(row) => Success(rows[s := row])
  }

  /** A sheet holding records [start, end) of data; none when the list is
      shorter than start. */
  function SliceRows(fields: seq<SelectedField>, data: seq<Record>, start: nat, end: nat,
                     dateFmt: Option<string>, env: Env, sum: SumEnv): Result<map<int, Row>, CoerceError>
    requires AllCover(fields, data) && end <= |data| && (start <= |data| ==> start <= end)
  {
    var header: map<int, Row> := map[0 := HeaderRow(fields)];
    if |data| < start then WithSummary(header, fields, 1, sum)
    else
      match WithContent(header, fields, data, start, end, dateFmt, env)
      case Failure(e) => Failure(e)
      case Success(rows) => WithSummary(rows, fields, end - start + 1, sum)
  }

  /** One sheet of the chain createHeaders, fillInContent, addSummary on a
      new sheet. */
  method ExportSheet(name: string, fields: seq<SelectedField>, data: seq<Record>, multiple: bool, sheetNo: nat,
                     dateFmt: Option<string>, env: Env, sum: SumEnv)
    returns (s: Sheet, err: Option<CoerceError>)
    requires AllCover(fields, data)
    ensures fresh(s) && s.Valid() && s.name == name
    ensures err.None? <==> SheetRows(fields, data, multiple, sheetNo, dateFmt, env, sum).Success?
    ensures err.Some? ==> SheetRows(fields, data, multiple, sheetNo, dateFmt, env, sum) == Failure(err.value)
    ensures err.None? ==> s.rows == SheetRows(fields, data, multiple, sheetNo, dateFmt, env, sum).value
    ensures err.None? ==> s.validations == HeaderValidationsUpTo(fields, |fields|)
  {
    s := new Sheet(name);
    var es := new ExcelSheet(s);
    es.AddHeaders(fields);
    ghost var start, end := StartNo(multiple, sheetNo), EndNo(multiple, sheetNo, |data|);
    ghost var header: map<int, Row> := map[0 := HeaderRow(fields)];
    assert s.rows == header && s.lastRow == 0;
    err := es.AddContent(fields, data, multiple, sheetNo, dateFmt, env);
    if err.Some? {
      assert SliceRows(fields, data, start, end, dateFmt, env, sum) == Failure(err.value);
      return;
    }
    err := AddSliceSummary(es, fields, data, start, end, dateFmt, env, sum);
  }

  /** addSummary on a sheet holding the header and records [start, end) of
      data completes the sheet SliceRows describes, or throws what it
      does. */
  method AddSliceSummary(es: ExcelSheet, fields: seq<SelectedField>, data: seq<Record>, ghost start: nat, ghost end: nat,
                         ghost dateFmt: Option<string>, ghost env: Env, sum: SumEnv)
    returns (err: Option<CoerceError>)
    requires es.sheet.Valid() && AllCover(fields, data) && end <= |data| && (start <= |data| ==> start <= end)
    requires |data| < start ==> es.sheet.rows == map[0 := HeaderRow(fields)] && es.sheet.lastRow == 0
    requires |data| >= start ==>
      && WithContent(map[0 := HeaderRow(fields)], fields, data, start, end, dateFmt, env).Success?
      && es.sheet.rows == WithContent(map[0 := HeaderRow(fields)], fields, data, start, end, dateFmt, env).value
      && es.sheet.lastRow == end - start
    modifies es.sheet
    ensures es.sheet.Valid() && es.sheet.validations == old(es.sheet.validations)
    ensures var sheet := SliceRows(fields, data, start, end, dateFmt, env, sum);
      && (err.None? <==> sheet.Success?)
      && (err.Some? ==> sheet == Failure(err.value))
      && (err.None? ==> es.sheet.rows == sheet.value)
  {
    err := es.AddSummary(fields, sum);
  }

  /** A record list with the runtime class of its elements. */
  datatype DataList = DataList(cls: ClassInfo, records: seq<Record>)

  /** The rows of sheet sheetNo exported from list l. */
  function ListSheetRows(l: DataList, superFlag: bool, view: Option<ViewTag>, multiple: bool, sheetNo: nat,
                         dateFmt: Option<string>, env: Env, sum: SumEnv): Result<map<int, Row>, CoerceError>
    requires Conforms(l.cls, l.records)
  {
    ConformingRecordsCover(l.cls, superFlag, view, l.records);
    SheetRows(FieldsOf(l.cls, superFlag, view), l.records, multiple, sheetNo, dateFmt, env, sum)
  }

  /** The lists that get a sheet in exportMultipleDataList: the non-empty
      ones, in order. */
  function NonEmpty(lists: seq<DataList>): (r: seq<DataList>)
    ensures |r| <= |lists|
    ensures forall k :: 0 <= k < |r| ==> r[k] in lists && |r[k].records| > 0
  {
    if lists == [] then []
    else
      var rest := NonEmpty(lists[..|lists| - 1]);
      var l := lists[|lists| - 1];
      if |l.records| > 0 then rest + [l] else rest
  }

  predicate AllConform(ls: seq<DataList>)
  {
    forall k :: 0 <= k < |ls| ==> Conforms(ls[k].cls, ls[k].records)
  }

  /** The sheet exportMultipleDataList writes for each of the non-empty
      lists ls: sheet k for ls[k]. */
  function ListSheets(ls: seq<DataList>, superFlag: bool, view: Option<ViewTag>, env: Env, sum: SumEnv)
    : (r: seq<Result<map<int, Row>, CoerceError>>)
    requires AllConform(ls)
    ensures |r| == |ls|
  {
    seq(|ls|, k requires 0 <= k < |ls| => ListSheetRows(ls[k], superFlag, view, true, k, None, env, sum))
  }

  /** The rows of the sheets exportMultipleDataList writes for the
      non-empty lists ls; or the exception of the first sheet that
      throws. */
  function MultiRows(ls: seq<DataList>, superFlag: bool, view: Option<ViewTag>, env: Env, sum: SumEnv)
    : Result<seq<map<int, Row>>, CoerceError>
    requires AllConform(ls)
  {
    Collect(ListSheets(ls, superFlag, view, env, sum))
  }

  /** The first n sheets exportDataList writes for list l: sheet k holds
      slice k. */
  function PageSheets(l: DataList, superFlag: bool, view: Option<ViewTag>, dateFmt: Option<string>, env: Env, sum: SumEnv, n: nat)
    : (r: seq<Result<map<int, Row>, CoerceError>>)
    requires Conforms(l.cls, l.records)
    ensures |r| == n
  {
    seq(n, k requires 0 <= k => ListSheetRows(l, superFlag, view, false, k, dateFmt, env, sum))
  }

  /** The rows of the first n sheets exportDataList writes for list l; or
      the exception of the first sheet that throws. */
  function PagedRows(l: DataList, superFlag: bool, view: Option<ViewTag>, dateFmt: Option<string>, env: Env, sum: SumEnv, n: nat)
    : Result<seq<map<int, Row>>, CoerceError>
    requires Conforms(l.cls, l.records)
  {
    Collect(PageSheets(l, superFlag, view, dateFmt, env, sum, n))
  }

  /** One sheet of the chain createHeaders, fillInContent, addSummary on a
      new sheet, for list l. */
  method ExportListSheet(name: string, fields: seq<SelectedField>, l: DataList, superFlag: bool, view: Option<ViewTag>,
                         multiple: bool, sheetNo: nat, dateFmt: Option<string>, env: Env, sum: SumEnv)
    returns (s: Sheet, err: Option<CoerceError>)
    requires Conforms(l.cls, l.records) && fields == FieldsOf(l.cls, superFlag, view)
    ensures fresh(s) && s.name == name
    ensures err.None? <==> ListSheetRows(l, superFlag, view, multiple, sheetNo, dateFmt, env, sum).Success?
    ensures err.Some? ==> ListSheetRows(l, superFlag, view, multiple, sheetNo, dateFmt, env, sum) == Failure(err.value)
    ensures err.None? ==> s.rows == ListSheetRows(l, superFlag, view, multiple, sheetNo, dateFmt, env, sum).value
  {
    ConformingRecordsCover(l.cls, superFlag, view, l.records);
    s, err := ExportSheet(name, fields, l.records, multiple, sheetNo, dateFmt, env, sum);
  }

  /** The sheet of the grouped export after the lists ls, from layout st:
      an empty list is skipped, a non-empty one adds its block with the
      fields its own element type declares; or the exception of the first
      block that throws. */
  function GroupedLayout(st: Layout, ls: seq<DataList>, view: Option<ViewTag>, delimiter: int, env: Env, sum: SumEnv)
    : Result<Layout, CoerceError>
    requires AllConform(ls)
  {
    if ls == [] then Success(st)
    else
      var n := |ls| - 1;
      var l := ls[n];
      match GroupedLayout(st, ls[..n], view, delimiter, env, sum)
      case Failure(e) => Failure(e)
      case Success(mid) =>
        if |l.records| == 0 then Success(mid)
        else
          ConformingRecordsCover(l.cls, false, view, l.records);
          Block(mid, FieldsOf(l.cls, false, view), l.records, delimiter, env, sum)
  }

  /** A new sheet: no rows, last row number 0, first block at line 0. */
  const Start: Layout := Layout(map[], 0, [], 0)

  class ExcelUtil {
    const cls: ClassInfo
    var view: Option<ViewTag>
    var delimiter: int

    constructor (cls: ClassInfo)
      ensures this.cls == cls && view == None && delimiter == DEFAULT_DELIMITER
    {
      this.cls := cls;
      view := None;
      delimiter := DEFAULT_DELIMITER;
    }

    method SetDataView(excelView: Option<ViewTag>)
      modifies this
      ensures view == excelView && delimiter == old(delimiter)
    {
      view := excelView;
    }

    method SetDelimiter(delimiter: int)
      modifies this
      ensures this.delimiter == delimiter && view == old(view)
    {
      this.delimiter := delimiter;
    }

    /** exportDataList: SheetCount(|data|) sheets named sheetName + index,
        sheet k holding records [k * MAX_ROW, (k + 1) * MAX_ROW); the first
        exception ends the export. */
    method ExportDataList(data: seq<Record>, sheetName: string, dateFmt: Option<string>, withSuperFields: bool,
                          env: Env, sum: SumEnv)
      returns (sheets: seq<Sheet>, err: Option<CoerceError>)
      requires Conforms(cls, data)
      ensures var r := PagedRows(DataList(cls, data), withSuperFields, view, dateFmt, env, sum, SheetCount(|data|));
        && (err.None? <==> r.Success?)
        && (err.Some? ==> r == Failure(err.value))
        && (err.None? ==> |sheets| == SheetCount(|data|) && forall k :: 0 <= k < |sheets| ==>
              sheets[k].name == sheetName + IntToString(k) && sheets[k].rows == r.value[k])
    {
      var v := view;
      var count := SheetCount(|data|);
      var annotatedFields := GetAnnotatedFields(cls, withSuperFields, v);
      sheets, err := WritePages(sheetName, DataList(cls, data), count, annotatedFields, withSuperFields, v, dateFmt, env, sum);
    }

    /** exportMultipleDataList: one sheet per non-empty list, numbered
        among the non-empty lists only, each holding its whole list with the
        fields of its own element type and the annotation's date formats. */
    method ExportMultipleDataList(sheetName: string, withSuperFields: bool, lists: seq<DataList>, env: Env, sum: SumEnv)
      returns (sheets: seq<Sheet>, err: Option<CoerceError>)
      requires AllConform(lists)
      ensures AllConform(NonEmpty(lists))
      ensures var r := MultiRows(NonEmpty(lists), withSuperFields, view, env, sum);
        && (err.None? <==> r.Success?)
        && (err.Some? ==> r == Failure(err.value))
        && (err.None? ==> |sheets| == |NonEmpty(lists)| && forall k :: 0 <= k < |sheets| ==>
              (sheets[k].name == sheetName + IntToString(k) && sheets[k].rows == r.value[k]))
    {
      var v := view;
      NonEmptyConforms(lists);
      sheets := [];
      ghost var done: seq<DataList> := [];
      ghost var written: seq<map<int, Row>> := [];
      var i := 0;
      while i < |lists|
        invariant 0 <= i <= |lists|
        invariant done == NonEmpty(lists[..i]) && AllConform(done)
        invariant |sheets| == |done| && MultiRows(done, withSuperFields, v, env, sum) == Success(written)
        invariant Holds(sheets, sheetName, written)
      {
        var e;
        sheets, done, written, e := NextList(sheetName, sheets, done, written, lists, i, withSuperFields, v, env, sum);
        if e.Some? {
          return sheets, e;
        }
        i := i + 1;
      }
      assert lists[..i] == lists;
      err := None;
    }

    /** The grouped exportDataList: all lists on one sheet, block after
        block, with the current view and delimiter. */
    method ExportGrouped(sheetName: string, lists: seq<DataList>, env: Env, sum: SumEnv)
      returns (s: Sheet, err: Option<CoerceError>)
      requires AllConform(lists)
      ensures fresh(s) && s.name == sheetName && s.Valid()
      ensures var g := GroupedLayout(Start, lists, view, delimiter, env, sum);
        && (err.None? <==> g.Success?)
        && (err.Some? ==> g == Failure(err.value))
        && (err.None? ==> g.value.rows == s.rows && g.value.lastRow == s.lastRow && g.value.validations == s.validations)
    {
      var v, d := view, delimiter;
      s := new Sheet(sheetName);
      var line := 0;
      var i := 0;
      while i < |lists|
        invariant 0 <= i <= |lists| && s.Valid()
        invariant GroupedLayout(Start, lists[..i], v, d, env, sum) == Success(Layout(s.rows, s.lastRow, s.validations, line))
      {
        var list := lists[i];
        GroupedSnoc(lists, i, v, d, env, sum);
        if |list.records| == 0 {
          i := i + 1;
          continue;
        }
        var annotatedFields := GetAnnotatedFields(list.cls, false, v);
        ConformingRecordsCover(list.cls, false, v, list.records);
        var e;
        line, e := AddBlock(s, annotatedFields, list.records, line, d, env, sum);
        if e.Some? {
          GroupedFailureSticks(Start, lists, v, d, env, sum, i + 1);
          return s, e;
        }
        i := i + 1;
      }
      assert lists[..i] == lists;
      err := None;
    }
  }

  /** Sheet k is named sheetName + k and holds written[k]. */
  predicate Holds(sheets: seq<Sheet>, sheetName: string, written: seq<map<int, Row>>)
    reads sheets
  {
    |sheets| == |written| && forall k :: 0 <= k < |sheets| ==> sheets[k].name == sheetName + IntToString(k) && sheets[k].rows == written[k]
  }

  lemma HoldsSnoc(sheets: seq<Sheet>, sheetName: string, written: seq<map<int, Row>>, s: Sheet)
    requires Holds(sheets, sheetName, written) && s.name == sheetName + IntToString(|sheets|)
    ensures Holds(sheets + [s], sheetName, written + [s.rows])
  {
    var sheets', written' := sheets + [s], written + [s.rows];
    forall k | 0 <= k < |sheets'|
      ensures sheets'[k].name == sheetName + IntToString(k) && sheets'[k].rows == written'[k]
    {
      if k < |sheets| {
        assert sheets'[k] == sheets[k] && written'[k] == written[k];
      }
    }
  }

  /** The sheet loop of exportDataList: sheets 0 .. count - 1 of list l,
      stopping at the first exception. */
  method WritePages(sheetName: string, l: DataList, count: nat, annotatedFields: seq<SelectedField>,
                    superFlag: bool, view: Option<ViewTag>, dateFmt: Option<string>, env: Env, sum: SumEnv)
    returns (sheets: seq<Sheet>, err: Option<CoerceError>)
    requires Conforms(l.cls, l.records) && annotatedFields == FieldsOf(l.cls, superFlag, view)
    ensures var r := PagedRows(l, superFlag, view, dateFmt, env, sum, count);
      && (err.None? <==> r.Success?)
      && (err.Some? ==> r == Failure(err.value))
      && (err.None? ==> |sheets| == count && forall k :: 0 <= k < |sheets| ==>
            sheets[k].name == sheetName + IntToString(k) && sheets[k].rows == r.value[k])
  {
    sheets := [];
    ghost var written: seq<map<int, Row>> := [];
    var idx := 0;
    while idx < count
      invariant 0 <= idx <= count && |sheets| == idx
      invariant PagedRows(l, superFlag, view, dateFmt, env, sum, idx) == Success(written)
      invariant Holds(sheets, sheetName, written)
    {
      var e;
      sheets, written, e := AppendPagedSheet(sheetName, sheets, written, count, annotatedFields, l, superFlag, view, dateFmt, env, sum);
      if e.Some? {
        return sheets, e;
      }
      idx := idx + 1;
    }
    err := None;
  }

  /** One step of exportDataList: sheet |sheets| of list l, added to the
      sheets written so far. */
  method AppendPagedSheet(sheetName: string, sheets: seq<Sheet>, ghost written: seq<map<int, Row>>, count: nat,
                          annotatedFields: seq<SelectedField>, l: DataList, superFlag: bool, view: Option<ViewTag>,
                          dateFmt: Option<string>, env: Env, sum: SumEnv)
    returns (sheets': seq<Sheet>, ghost written': seq<map<int, Row>>, err: Option<CoerceError>)
    requires Conforms(l.cls, l.records) && annotatedFields == FieldsOf(l.cls, superFlag, view)
    requires |sheets| < count && PagedRows(l, superFlag, view, dateFmt, env, sum, |sheets|) == Success(written)
    requires Holds(sheets, sheetName, written)
    ensures err.Some? ==> PagedRows(l, superFlag, view, dateFmt, env, sum, count) == Failure(err.value)
    ensures err.Some? ==> sheets' == sheets
    ensures err.None? ==> PagedRows(l, superFlag, view, dateFmt, env, sum, |sheets| + 1) == Success(written')
    ensures err.None? ==> |sheets'| == |sheets| + 1 && Holds(sheets', sheetName, written')
  {
    var n := |sheets|;
    PageSheetsSnoc(l, superFlag, view, dateFmt, env, sum, n);
    CollectSnoc(PageSheets(l, superFlag, view, dateFmt, env, sum, n), ListSheetRows(l, superFlag, view, false, n, dateFmt, env, sum));
    var s, e := ExportListSheet(sheetName + IntToString(n), annotatedFields, l, superFlag, view, false, n, dateFmt, env, sum);
    if e.Some? {
      PagedFailureSticks(l, superFlag, view, dateFmt, env, sum, n + 1, count);
      return sheets, written, e;
    }
    sheets' := sheets + [s];
    written' := written + [s.rows];
    HoldsSnoc(sheets, sheetName, written, s);
    err := None;
  }

  /** One turn of the loop of exportMultipleDataList: an empty list is
      skipped; any other gets sheet number |sheets| (the source's sheetNo). */
  method NextList(sheetName: string, sheets: seq<Sheet>, ghost done: seq<DataList>, ghost written: seq<map<int, Row>>,
                  lists: seq<DataList>, i: nat, superFlag: bool, view: Option<ViewTag>, env: Env, sum: SumEnv)
    returns (sheets': seq<Sheet>, ghost done': seq<DataList>, ghost written': seq<map<int, Row>>, err: Option<CoerceError>)
    requires AllConform(lists) && i < |lists|
    requires done == NonEmpty(lists[..i]) && AllConform(done)
    requires |sheets| == |done| && MultiRows(done, superFlag, view, env, sum) == Success(written)
    requires Holds(sheets, sheetName, written)
    ensures err.Some? ==> AllConform(NonEmpty(lists)) && MultiRows(NonEmpty(lists), superFlag, view, env, sum) == Failure(err.value)
    ensures err.None? ==> done' == NonEmpty(lists[..i + 1]) && AllConform(done')
    ensures err.None? ==> |sheets'| == |done'| && MultiRows(done', superFlag, view, env, sum) == Success(written')
    ensures err.None? ==> Holds(sheets', sheetName, written')
  {
    var list := lists[i];
    NonEmptySnoc(lists, i);
    if |list.records| == 0 {
      return sheets, done, written, None;
    }
    NonEmptyConforms(lists[..i + 1]);
    sheets', written', err := AppendListSheet(sheetName, sheets, done, written, list, superFlag, view, env, sum);
    done' := done + [list];
    if err.Some? {
      MultiFailureOfPrefix(lists, i, done, superFlag, view, env, sum);
    }
  }

  /** The sheet of a non-empty list, appended after the sheets of the
      non-empty lists before it. */
  method AppendListSheet(sheetName: string, sheets: seq<Sheet>, ghost done: seq<DataList>, ghost written: seq<map<int, Row>>,
                         list: DataList, superFlag: bool, view: Option<ViewTag>, env: Env, sum: SumEnv)
    returns (sheets': seq<Sheet>, ghost written': seq<map<int, Row>>, err: Option<CoerceError>)
    requires AllConform(done) && AllConform(done + [list])
    requires |sheets| == |done| && MultiRows(done, superFlag, view, env, sum) == Success(written)
    requires Holds(sheets, sheetName, written)
    ensures err.Some? ==> MultiRows(done + [list], superFlag, view, env, sum) == Failure(err.value)
    ensures err.None? ==> MultiRows(done + [list], superFlag, view, env, sum) == Success(written')
    ensures err.None? ==> |sheets'| == |sheets| + 1 && Holds(sheets', sheetName, written')
  {
    MultiRowsSnoc(done, list, superFlag, view, env, sum);
    var n := |sheets|;
    var annotatedFields := GetAnnotatedFields(list.cls, superFlag, view);
    var s, e := ExportListSheet(sheetName + IntToString(n), annotatedFields, list, superFlag, view, true, n, None, env, sum);
    if e.Some? {
      return sheets, written, e;
    }
    sheets' := sheets + [s];
    written' := written + [s.rows];
    HoldsSnoc(sheets, sheetName, written, s);
    err := None;
  }

  /** A failure of the sheet of lists[i], the last non-empty list among
      the first i + 1, is the failure of the whole export. */
  lemma MultiFailureOfPrefix(lists: seq<DataList>, i: nat, done: seq<DataList>,
                             superFlag: bool, view: Option<ViewTag>, env: Env, sum: SumEnv)
    requires i < |lists| && |lists[i].records| > 0
    requires done == NonEmpty(lists[..i]) && AllConform(lists) && AllConform(done + [lists[i]])
    requires MultiRows(done + [lists[i]], superFlag, view, env, sum).Failure?
    ensures AllConform(NonEmpty(lists))
    ensures MultiRows(NonEmpty(lists), superFlag, view, env, sum) == MultiRows(done + [lists[i]], superFlag, view, env, sum)
  {
    NonEmptyConforms(lists);
    NonEmptySnoc(lists, i);
    NonEmptyPrefix(lists, i + 1);
    MultiFailureSticks(NonEmpty(lists), superFlag, view, env, sum, |done| + 1);
  }

  /** Exporting one more non-empty list adds its sheet, or fails with its
      exception, after the sheets before it. */
  lemma MultiRowsSnoc(ls: seq<DataList>, x: DataList, superFlag: bool, view: Option<ViewTag>, env: Env, sum: SumEnv)
    requires AllConform(ls + [x])
    ensures AllConform(ls) && Conforms(x.cls, x.records)
    ensures MultiRows(ls, superFlag, view, env, sum).Success? ==>
      MultiRows(ls + [x], superFlag, view, env, sum)
      == match ListSheetRows(x, superFlag, view, true, |ls|, None, env, sum)
         case Failure(e) => Failure(e)
         case Success(rows) => Success(MultiRows(ls, superFlag, view, env, sum).value + [rows])
  {
    assert (ls + [x])[|ls|] == x;
    assert forall k :: 0 <= k < |ls| ==> ls[k] == (ls + [x])[k];
    var rs := ListSheets(ls, superFlag, view, env, sum);
    var last := ListSheetRows(x, superFlag, view, true, |ls|, None, env, sum);
    assert ListSheets(ls + [x], superFlag, view, env, sum) == rs + [last];
    CollectSnoc(rs, last);
  }

  /** Sheet n follows the first n sheets of exportDataList. */
  lemma PageSheetsSnoc(l: DataList, superFlag: bool, view: Option<ViewTag>, dateFmt: Option<string>,
                       env: Env, sum: SumEnv, n: nat)
    requires Conforms(l.cls, l.records)
    ensures PageSheets(l, superFlag, view, dateFmt, env, sum, n + 1)
         == PageSheets(l, superFlag, view, dateFmt, env, sum, n) + [ListSheetRows(l, superFlag, view, false, n, dateFmt, env, sum)]
  {
  }

  lemma PagedFailureSticks(l: DataList, superFlag: bool, view: Option<ViewTag>, dateFmt: Option<string>,
                           env: Env, sum: SumEnv, m: nat, n: nat)
    requires Conforms(l.cls, l.records) && m <= n
    requires PagedRows(l, superFlag, view, dateFmt, env, sum, m).Failure?
    ensures PagedRows(l, superFlag, view, dateFmt, env, sum, n) == PagedRows(l, superFlag, view, dateFmt, env, sum, m)
  {
    var rs := PageSheets(l, superFlag, view, dateFmt, env, sum, n);
    assert rs[..m] == PageSheets(l, superFlag, view, dateFmt, env, sum, m);
    CollectFailureSticks(rs, m);
  }

  lemma MultiFailureSticks(ls: seq<DataList>, superFlag: bool, view: Option<ViewTag>, env: Env, sum: SumEnv, m: nat)
    requires AllConform(ls) && m <= |ls|
    requires AllConform(ls[..m]) && MultiRows(ls[..m], superFlag, view, env, sum).Failure?
    ensures MultiRows(ls, superFlag, view, env, sum) == MultiRows(ls[..m], superFlag, view, env, sum)
  {
    var rs := ListSheets(ls, superFlag, view, env, sum);
    assert rs[..m] == ListSheets(ls[..m], superFlag, view, env, sum) by {
      forall k | 0 <= k < m
        ensures rs[..m][k] == ListSheets(ls[..m], superFlag, view, env, sum)[k]
      {
        assert ls[..m][k] == ls[k];
      }
    }
    CollectFailureSticks(rs, m);
  }

  lemma {:induction false} NonEmptyConforms(lists: seq<DataList>)
    requires AllConform(lists)
    ensures AllConform(NonEmpty(lists))
  {
    forall k | 0 <= k < |NonEmpty(lists)|
      ensures Conforms(NonEmpty(lists)[k].cls, NonEmpty(lists)[k].records)
    {
      var j :| 0 <= j < |lists| && lists[j] == NonEmpty(lists)[k];
    }
  }

  lemma NonEmptySnoc(lists: seq<DataList>, i: nat)
    requires i < |lists|
    ensures NonEmpty(lists[..i + 1]) == NonEmpty(lists[..i]) + if |lists[i].records| > 0 then [lists[i]] else []
  {
    assert lists[..i + 1][..i] == lists[..i];
  }

  /** The non-empty lists of a prefix are a prefix of the non-empty lists. */
  lemma {:induction false} NonEmptyPrefix(lists: seq<DataList>, n: nat)
    requires n <= |lists|
    ensures |NonEmpty(lists[..n])| <= |NonEmpty(lists)|
    ensures NonEmpty(lists[..n]) == NonEmpty(lists)[..|NonEmpty(lists[..n])|]
    decreases |lists| - n
  {
    if n < |lists| {
      NonEmptyPrefix(lists, n + 1);
      assert lists[..n + 1][..n] == lists[..n];
    } else {
      assert lists[..n] == lists;
    }
  }

  lemma GroupedSnoc(lists: seq<DataList>, i: nat, view: Option<ViewTag>, delimiter: int, env: Env, sum: SumEnv)
    requires i < |lists| && AllConform(lists)
    ensures AllConform(lists[..i]) && AllConform(lists[..i + 1])
    ensures AllCover(FieldsOf(lists[i].cls, false, view), lists[i].records)
    ensures var mid := GroupedLayout(Start, lists[..i], view, delimiter, env, sum);
      var l := lists[i];
      mid.Success? ==>
        GroupedLayout(Start, lists[..i + 1], view, delimiter, env, sum)
        == if |l.records| == 0 then mid
           else Block(mid.value, FieldsOf(l.cls, false, view), l.records, delimiter, env, sum)
  {
    assert lists[..i + 1][..i] == lists[..i];
    assert lists[..i + 1][i] == lists[i];
    ConformingRecordsCover(lists[i].cls, false, view, lists[i].records);
  }

  /** A block that throws ends the grouped export with its exception. */
  lemma {:induction false} GroupedFailureSticks(st: Layout, lists: seq<DataList>, view: Option<ViewTag>, delimiter: int,
                                                env: Env, sum: SumEnv, m: nat)
    requires m <= |lists| && AllConform(lists)
    ensures AllConform(lists[..m])
    ensures GroupedLayout(st, lists[..m], view, delimiter, env, sum).Failure? ==>
      GroupedLayout(st, lists, view, delimiter, env, sum) == GroupedLayout(st, lists[..m], view, delimiter, env, sum)
    decreases |lists| - m
  {
    assert forall k :: 0 <= k < m ==> lists[..m][k] == lists[k];
    if m < |lists| {
      var pre := lists[..m + 1];
      assert pre[..m] == lists[..m];
      GroupedFailureSticks(st, lists, view, delimiter, env, sum, m + 1);
      if GroupedLayout(st, lists[..m], view, delimiter, env, sum).Failure? {
        assert GroupedLayout(st, pre, view, delimiter, env, sum) == GroupedLayout(st, lists[..m], view, delimiter, env, sum);
      }
    } else {
      assert lists[..m] == lists;
    }
  }

  /** With a non-negative delimiter every block leaves the sheet Ahead:
      all rows and the last row number are below the next line. */
  lemma {:induction false} GroupedStaysAhead(st: Layout, lists: seq<DataList>, view: Option<ViewTag>, delimiter: int,
                                             env: Env, sum: SumEnv)
    requires AllConform(lists) && Ahead(st) && delimiter >= 0
    requires GroupedLayout(st, lists, view, delimiter, env, sum).Success?
    ensures Ahead(GroupedLayout(st, lists, view, delimiter, env, sum).value)
  {
    if lists != [] {
      var n := |lists| - 1;
      var l := lists[n];
      assert AllConform(lists[..n]);
      GroupedStaysAhead(st, lists[..n], view, delimiter, env, sum);
      if |l.records| > 0 {
        var mid := GroupedLayout(st, lists[..n], view, delimiter, env, sum).value;
        ConformingRecordsCover(l.cls, false, view, l.records);
        BlockSummary(mid, FieldsOf(l.cls, false, view), l.records, delimiter, env, sum);
      }
    }
  }

  /** With a non-negative delimiter the lists after the first m never
      touch the rows above the line where they start. */
  lemma {:induction false} GroupedKeepsPrefix(st: Layout, lists: seq<DataList>, view: Option<ViewTag>, delimiter: int,
                                              env: Env, sum: SumEnv, m: nat)
    requires AllConform(lists) && m <= |lists| && delimiter >= 0
    requires GroupedLayout(st, lists, view, delimiter, env, sum).Success?
    ensures AllConform(lists[..m]) && GroupedLayout(st, lists[..m], view, delimiter, env, sum).Success?
    ensures var p := GroupedLayout(st, lists[..m], view, delimiter, env, sum).value;
      var g := GroupedLayout(st, lists, view, delimiter, env, sum).value;
      && p.line <= g.line
      && (forall r :: r < p.line ==> (r in g.rows <==> r in p.rows) && (r in p.rows ==> g.rows[r] == p.rows[r]))
    decreases |lists|
  {
    if m == |lists| {
      assert lists[..m] == lists;
    } else {
      var n := |lists| - 1;
      var l := lists[n];
      assert AllConform(lists[..n]);
      assert lists[..n][..m] == lists[..m];
      GroupedKeepsPrefix(st, lists[..n], view, delimiter, env, sum, m);
      if |l.records| > 0 {
        var mid := GroupedLayout(st, lists[..n], view, delimiter, env, sum).value;
        ConformingRecordsCover(l.cls, false, view, l.records);
        BlockKeepsAbove(mid, GroupedLayout(st, lists, view, delimiter, env, sum).value, FieldsOf(l.cls, false, view), l.records,
                        delimiter, env, sum);
      }
    }
  }

  /** The grouped export with a non-negative delimiter: list m's block
      survives whole in the final sheet, from the line where the lists
      before it left off. */
  lemma BlockSurvives(lists: seq<DataList>, view: Option<ViewTag>, delimiter: int, env: Env, sum: SumEnv, m: nat)
    requires AllConform(lists) && m < |lists| && |lists[m].records| > 0 && delimiter >= 0
    requires GroupedLayout(Start, lists, view, delimiter, env, sum).Success?
    ensures AllConform(lists[..m]) && GroupedLayout(Start, lists[..m], view, delimiter, env, sum).Success?
    ensures AllCover(FieldsOf(lists[m].cls, false, view), lists[m].records)
    ensures BlockAt(GroupedLayout(Start, lists, view, delimiter, env, sum).value.rows,
                    GroupedLayout(Start, lists[..m], view, delimiter, env, sum).value.line,
                    FieldsOf(lists[m].cls, false, view), lists[m].records, env, sum)
  {
    var l := lists[m];
    var fields := FieldsOf(l.cls, false, view);
    ConformingRecordsCover(l.cls, false, view, l.records);
    GroupedKeepsPrefix(Start, lists, view, delimiter, env, sum, m + 1);
    var r := GroupedLayout(Start, lists[..m + 1], view, delimiter, env, sum);
    assert r.Success?;
    GroupedSnoc(lists, m, view, delimiter, env, sum);
    GroupedKeepsPrefix(Start, lists, view, delimiter, env, sum, m);
    var p := GroupedLayout(Start, lists[..m], view, delimiter, env, sum).value;
    var q := r.value;
    GroupedStaysAhead(Start, lists[..m], view, delimiter, env, sum);
    BlockStaysWhole(p, q, GroupedLayout(Start, lists, view, delimiter, env, sum).value.rows, fields, l.records, delimiter, env, sum);
  }

  /** The summary row put at s: for each summed field i, column i holds
      the total of that column over rows [0, s) of the finished sheet. */
  lemma SummaryPlaced(fields: seq<SelectedField>, rows: map<int, Row>, s: int, sum: SumEnv)
    requires WithSummary(rows, fields, s, sum).Success?
    ensures var fin := WithSummary(rows, fields, s, sum).value;
      && s in fin
      && (forall c :: c in fin[s] <==> 0 <= c < |fields| && fields[c].attr.isSum)
      && (forall c :: c in fin[s] ==>
            ColumnTotal(fin, c, 0, s, sum).Success? && fin[s][c] == SumCell(ColumnTotal(fin, c, 0, s, sum).value))
  {
    var row := SummaryRowUpTo(fields, rows, s, |fields|, sum).value;
    SummaryRowCells(fields, rows, s, |fields|, sum);
    forall c | c in row
      ensures ColumnTotal(rows[s := row], c, 0, s, sum) == ColumnTotal(rows, c, 0, s, sum)
    {
      ColumnTotalIgnoresLaterRow(rows, s, row, c, 0, s, sum);
    }
  }

  /** The summary below rows [0, s) is written iff, in every summed
      column, every one of those rows converts. */
  lemma SummaryConverts(fields: seq<SelectedField>, rows: map<int, Row>, s: int, sum: SumEnv)
    ensures WithSummary(rows, fields, s, sum).Success?
        <==> forall c, r :: 0 <= c < |fields| && fields[c].attr.isSum && 0 <= r < s && r in rows ==> Converts(rows[r], c, sum)
  {
    SummaryRowSucceeds(fields, rows, s, |fields|, sum);
    forall c | 0 <= c < |fields|
      ensures ColumnTotal(rows, c, 0, s, sum).Success? <==> forall r :: 0 <= r < s && r in rows ==> Converts(rows[r], c, sum)
    {
      ColumnTotalSucceeds(rows, c, 0, s, sum);
    }
  }

  /** A sheet succeeds iff every record of its slice converts and, in
      every summed column, the header and every record's cell convert. */
  lemma SliceRowsSucceeds(fields: seq<SelectedField>, data: seq<Record>, start: nat, end: nat,
                          dateFmt: Option<string>, env: Env, sum: SumEnv)
    requires AllCover(fields, data) && end <= |data| && (start <= |data| ==> start <= end)
    ensures SliceRows(fields, data, start, end, dateFmt, env, sum).Success? <==>
      && (|data| >= start ==> forall i :: start <= i < end ==> ContentRow(fields, data[i], dateFmt, env).Success?)
      && (forall c :: 0 <= c < |fields| && fields[c].attr.isSum ==> Converts(HeaderRow(fields), c, sum))
      && (|data| >= start ==> forall i, c :: start <= i < end && 0 <= c < |fields| && fields[c].attr.isSum ==>
            Converts(ContentRow(fields, data[i], dateFmt, env).value, c, sum))
  {
    var header: map<int, Row> := map[0 := HeaderRow(fields)];
    if |data| < start {
      assert SliceRows(fields, data, start, end, dateFmt, env, sum) == WithSummary(header, fields, 1, sum);
      SummaryConverts(fields, header, 1, sum);
      if forall c :: 0 <= c < |fields| && fields[c].attr.isSum ==> Converts(HeaderRow(fields), c, sum) {
        forall c, r | 0 <= c < |fields| && fields[c].attr.isSum && 0 <= r < 1 && r in header
          ensures Converts(header[r], c, sum)
        {
        }
      }
      forall c | 0 <= c < |fields| && fields[c].attr.isSum && !Converts(HeaderRow(fields), c, sum)
        ensures !WithSummary(header, fields, 1, sum).Success?
      {
        assert 0 in header && !Converts(header[0], c, sum);
      }
    } else {
      WithContentSucceeds(header, fields, data, start, end, dateFmt, env);
      var w := WithContent(header, fields, data, start, end, dateFmt, env);
      if w.Success? {
        SummaryConverts(fields, w.value, end - start + 1, sum);
        SliceConverts(fields, data, start, end, dateFmt, env, sum);
      }
    }
  }

  /** The rows above the summary of a written slice convert iff its header
      and its records' rows do. */
  lemma SliceConverts(fields: seq<SelectedField>, data: seq<Record>, start: nat, end: nat,
                      dateFmt: Option<string>, env: Env, sum: SumEnv)
    requires AllCover(fields, data) && start <= end <= |data|
    requires WithContent(map[0 := HeaderRow(fields)], fields, data, start, end, dateFmt, env).Success?
    ensures forall i :: start <= i < end ==> ContentRow(fields, data[i], dateFmt, env).Success?
    ensures var rows := WithContent(map[0 := HeaderRow(fields)], fields, data, start, end, dateFmt, env).value;
      (forall c, r :: 0 <= c < |fields| && fields[c].attr.isSum && 0 <= r < end - start + 1 && r in rows ==> Converts(rows[r], c, sum))
      <==>
      && (forall c :: 0 <= c < |fields| && fields[c].attr.isSum ==> Converts(HeaderRow(fields), c, sum))
      && (forall i, c :: start <= i < end && 0 <= c < |fields| && fields[c].attr.isSum ==>
            Converts(ContentRow(fields, data[i], dateFmt, env).value, c, sum))
  {
    var header: map<int, Row> := map[0 := HeaderRow(fields)];
    WithContentLayout(header, fields, data, start, end, dateFmt, env);
    var rows := WithContent(header, fields, data, start, end, dateFmt, env).value;
    assert 0 in rows && rows[0] == HeaderRow(fields);
    if forall c, r :: 0 <= c < |fields| && fields[c].attr.isSum && 0 <= r < end - start + 1 && r in rows ==> Converts(rows[r], c, sum) {
      forall i, c | start <= i < end && 0 <= c < |fields| && fields[c].attr.isSum
        ensures Converts(ContentRow(fields, data[i], dateFmt, env).value, c, sum)
      {
        assert rows[i + 1 - start] == ContentRow(fields, data[i], dateFmt, env).value;
      }
    }
    if && (forall c :: 0 <= c < |fields| && fields[c].attr.isSum ==> Converts(HeaderRow(fields), c, sum))
       && (forall i, c :: start <= i < end && 0 <= c < |fields| && fields[c].attr.isSum ==>
             Converts(ContentRow(fields, data[i], dateFmt, env).value, c, sum))
    {
      forall c, r | 0 <= c < |fields| && fields[c].attr.isSum && 0 <= r < end - start + 1 && r in rows
        ensures Converts(rows[r], c, sum)
      {
        if r > 0 {
          var i := r - 1 + start;
          assert rows[i + 1 - start] == ContentRow(fields, data[i], dateFmt, env).value;
        }
      }
    }
  }

  /** The rows of a successful sheet: the header is row 0, record i of the
      slice is row i + 1 - start, and the summary row s comes right after
      them. */
  lemma SliceRowsLayout(fields: seq<SelectedField>, data: seq<Record>, start: nat, end: nat,
                        dateFmt: Option<string>, env: Env, sum: SumEnv)
    requires AllCover(fields, data) && end <= |data| && (start <= |data| ==> start <= end)
    requires SliceRows(fields, data, start, end, dateFmt, env, sum).Success?
    ensures |data| >= start ==> forall i :: start <= i < end ==> ContentRow(fields, data[i], dateFmt, env).Success?
    ensures var rows := SliceRows(fields, data, start, end, dateFmt, env, sum).value;
      var s := if |data| < start then 1 else end - start + 1;
      && (forall r :: r in rows <==> 0 <= r <= s)
      && rows[0] == HeaderRow(fields)
      && (|data| >= start ==> forall i :: start <= i < end ==> rows[i + 1 - start] == ContentRow(fields, data[i], dateFmt, env).value)
  {
    if |data| >= start {
      assert WithContent(map[0 := HeaderRow(fields)], fields, data, start, end, dateFmt, env).Success?;
      WithContentLayout(map[0 := HeaderRow(fields)], fields, data, start, end, dateFmt, env);
    }
  }

  /** The summary row of a successful sheet: column c is filled iff field
      c is summed, and then holds the total of column c over every row
      above, the header row included. */
  lemma SliceRowsSummary(fields: seq<SelectedField>, data: seq<Record>, start: nat, end: nat,
                         dateFmt: Option<string>, env: Env, sum: SumEnv)
    requires AllCover(fields, data) && end <= |data| && (start <= |data| ==> start <= end)
    requires SliceRows(fields, data, start, end, dateFmt, env, sum).Success?
    ensures var rows := SliceRows(fields, data, start, end, dateFmt, env, sum).value;
      var s := if |data| < start then 1 else end - start + 1;
      && s in rows
      && (forall c :: c in rows[s] <==> 0 <= c < |fields| && fields[c].attr.isSum)
      && (forall c :: c in rows[s] ==>
            ColumnTotal(rows, c, 0, s, sum).Success? && rows[s][c] == SumCell(ColumnTotal(rows, c, 0, s, sum).value))
  {
    var header: map<int, Row> := map[0 := HeaderRow(fields)];
    if |data| >= start {
      var w := WithContent(header, fields, data, start, end, dateFmt, env);
      assert w.Success?;
      SummaryPlaced(fields, w.value, end - start + 1, sum);
    } else {
      SummaryPlaced(fields, header, 1, sum);
    }
  }

  /** The per-sheet export succeeds iff every one of its sheets does, and
      then sheet k holds the rows of slice k. */
  lemma PagedRowsAt(l: DataList, superFlag: bool, view: Option<ViewTag>, dateFmt: Option<string>,
                    env: Env, sum: SumEnv, n: nat)
    requires Conforms(l.cls, l.records)
    ensures PagedRows(l, superFlag, view, dateFmt, env, sum, n).Success?
        <==> forall k :: 0 <= k < n ==> ListSheetRows(l, superFlag, view, false, k, dateFmt, env, sum).Success?
    ensures PagedRows(l, superFlag, view, dateFmt, env, sum, n).Success? ==> forall k :: 0 <= k < n ==>
      PagedRows(l, superFlag, view, dateFmt, env, sum, n).value[k] == ListSheetRows(l, superFlag, view, false, k, dateFmt, env, sum).value
  {
    var rs := PageSheets(l, superFlag, view, dateFmt, env, sum, n);
    assert forall k :: 0 <= k < n ==> rs[k] == ListSheetRows(l, superFlag, view, false, k, dateFmt, env, sum);
    CollectAt(rs);
  }

  /** The many-lists export succeeds iff the sheet of every non-empty list
      does, and then sheet k holds the rows of the k-th of them. */
  lemma MultiRowsAt(ls: seq<DataList>, superFlag: bool, view: Option<ViewTag>, env: Env, sum: SumEnv)
    requires AllConform(ls)
    ensures MultiRows(ls, superFlag, view, env, sum).Success?
        <==> forall k :: 0 <= k < |ls| ==> ListSheetRows(ls[k], superFlag, view, true, k, None, env, sum).Success?
    ensures MultiRows(ls, superFlag, view, env, sum).Success? ==> forall k :: 0 <= k < |ls| ==>
      MultiRows(ls, superFlag, view, env, sum).value[k] == ListSheetRows(ls[k], superFlag, view, true, k, None, env, sum).value
  {
    var rs := ListSheets(ls, superFlag, view, env, sum);
    CollectAt(rs);
    var r := MultiRows(ls, superFlag, view, env, sum);
    assert r == Collect(rs);
    forall k | 0 <= k < |ls|
      ensures rs[k] == ListSheetRows(ls[k], superFlag, view, true, k, None, env, sum)
    {
    }
  }

  /** A failed many-lists export fails with the exception of the first
      sheet that throws; the sheets before it convert. */
  lemma MultiFirstFailure(ls: seq<DataList>, superFlag: bool, view: Option<ViewTag>, env: Env, sum: SumEnv)
    requires AllConform(ls) && MultiRows(ls, superFlag, view, env, sum).Failure?
    ensures exists i :: (0 <= i < |ls| && ListSheetRows(ls[i], superFlag, view, true, i, None, env, sum) == Failure(MultiRows(ls, superFlag, view, env, sum).error)
      && forall j :: 0 <= j < i ==> ListSheetRows(ls[j], superFlag, view, true, j, None, env, sum).Success?)
  {
    var rs := ListSheets(ls, superFlag, view, env, sum);
    CollectFirstFailure(rs);
    var i :| 0 <= i < |rs| && rs[i] == Failure(Collect(rs).error) && forall j :: 0 <= j < i ==> rs[j].Success?;
    assert rs[i] == ListSheetRows(ls[i], superFlag, view, true, i, None, env, sum);
    assert forall j :: 0 <= j < i ==> rs[j] == ListSheetRows(ls[j], superFlag, view, true, j, None, env, sum);
  }

  /** exportDataList puts record k on sheet k / MAX_ROW, in row
      k % MAX_ROW + 1, as its fields' coerced cells. */
  lemma RecordPlacement(l: DataList, superFlag: bool, view: Option<ViewTag>, dateFmt: Option<string>,
                        env: Env, sum: SumEnv, k: nat)
    requires Conforms(l.cls, l.records) && k < |l.records|
    requires PagedRows(l, superFlag, view, dateFmt, env, sum, SheetCount(|l.records|)).Success?
    ensures AllCover(FieldsOf(l.cls, superFlag, view), l.records)
    ensures k / MAX_ROW < SheetCount(|l.records|)
    ensures var fields := FieldsOf(l.cls, superFlag, view);
      var sheet := PagedRows(l, superFlag, view, dateFmt, env, sum, SheetCount(|l.records|)).value[k / MAX_ROW];
      && ContentRow(fields, l.records[k], dateFmt, env).Success?
      && k % MAX_ROW + 1 in sheet
      && sheet[k % MAX_ROW + 1] == ContentRow(fields, l.records[k], dateFmt, env).value
  {
    var size, q := |l.records|, k / MAX_ROW;
    ConformingRecordsCover(l.cls, superFlag, view, l.records);
    EveryRecordOnOneSheet(size, k, q);
    PagedRowsAt(l, superFlag, view, dateFmt, env, sum, SheetCount(size));
    assert ListSheetRows(l, superFlag, view, false, q, dateFmt, env, sum).Success?;
    SliceRowsLayout(FieldsOf(l.cls, superFlag, view), l.records, StartNo(false, q), EndNo(false, q, size), dateFmt, env, sum);
    assert k + 1 - StartNo(false, q) == k % MAX_ROW + 1;
  }

  /** On the sheet of one list in multiple mode, record i is row i + 1. */
  lemma ListSheetPlacement(l: DataList, superFlag: bool, view: Option<ViewTag>, k: nat, env: Env, sum: SumEnv, i: nat)
    requires Conforms(l.cls, l.records) && i < |l.records|
    requires ListSheetRows(l, superFlag, view, true, k, None, env, sum).Success?
    ensures AllCover(FieldsOf(l.cls, superFlag, view), l.records)
    ensures var fields := FieldsOf(l.cls, superFlag, view);
      var sheet := ListSheetRows(l, superFlag, view, true, k, None, env, sum).value;
      && ContentRow(fields, l.records[i], None, env).Success?
      && i + 1 in sheet
      && sheet[i + 1] == ContentRow(fields, l.records[i], None, env).value
  {
    var fields := FieldsOf(l.cls, superFlag, view);
    ConformingRecordsCover(l.cls, superFlag, view, l.records);
    var sheet := SliceRows(fields, l.records, 0, |l.records|, None, env, sum);
    assert ListSheetRows(l, superFlag, view, true, k, None, env, sum) == sheet;
    SliceRowsLayout(fields, l.records, 0, |l.records|, None, env, sum);
    assert sheet.value[i + 1 - 0] == ContentRow(fields, l.records[i], None, env).value;
  }

  /** exportMultipleDataList puts record i of the k-th list it writes (the
      k-th non-empty one) on sheet k, in row i + 1. */
  lemma MultiRecordPlacement(ls: seq<DataList>, superFlag: bool, view: Option<ViewTag>, env: Env, sum: SumEnv, k: nat, i: nat)
    requires AllConform(ls) && k < |ls| && i < |ls[k].records|
    requires MultiRows(ls, superFlag, view, env, sum).Success?
    ensures AllCover(FieldsOf(ls[k].cls, superFlag, view), ls[k].records)
    ensures var fields := FieldsOf(ls[k].cls, superFlag, view);
      var sheet := MultiRows(ls, superFlag, view, env, sum).value[k];
      && ContentRow(fields, ls[k].records[i], None, env).Success?
      && i + 1 in sheet
      && sheet[i + 1] == ContentRow(fields, ls[k].records[i], None, env).value
  {
    MultiRowsAt(ls, superFlag, view, env, sum);
    assert MultiRows(ls, superFlag, view, env, sum).value[k] == ListSheetRows(ls[k], superFlag, view, true, k, None, env, sum).value;
    ListSheetPlacement(ls[k], superFlag, view, k, env, sum, i);
  }
}

=== FILE: Fields.dfy ===
/** Field selection (ExcelUtil.getAnnotatedFields): the declared fields of
    the record type, preceded by those of its direct superclass when asked
    for, keeping the annotated ones whose view groups admit the current
    view. Reflection is replaced by explicit declared-field lists. */
module FieldSelection {
  import opened Wrappers
  import opened ExcelAttribute

  /** A declared field: its name and, when present, its ExcelAttribute. */
  datatype DeclaredField = DeclaredField(name: string, attr: Option<FieldDescriptor>)

  /** A field that passed selection, with its annotation. */
  datatype SelectedField = SelectedField(name: string, attr: FieldDescriptor)

  /** A record type: its declared fields and those of its direct superclass
      (None for a type whose superclass is null). */
  datatype ClassInfo = ClassInfo(declared: seq<DeclaredField>, superclass: Option<seq<DeclaredField>>)

  /** With no view every annotated field matches; otherwise the view must
      be one of the field's groups. */
  predicate Matches(attr: FieldDescriptor, view: Option<ViewTag>)
  {
    view.None? || view.value in attr.groups
  }

  predicate Keeps(f: DeclaredField, view: Option<ViewTag>)
  {
    f.attr.Some? && Matches(f.attr.value, view)
  }

  /** The fields the stream walks: superclass fields first when superFlag
      is set and a superclass exists, then the type's own. */
  function Candidates(cls: ClassInfo, superFlag: bool): (fs: seq<DeclaredField>)
    ensures superFlag && cls.superclass.Some? ==> fs == cls.superclass.value + cls.declared
    ensures !(superFlag && cls.superclass.Some?) ==> fs == cls.declared
  {
    (if superFlag && cls.superclass.Some? then cls.superclass.value else []) + cls.declared
  }

  /** The order-preserving filter the stream performs. */
  function Select(fs: seq<DeclaredField>, view: Option<ViewTag>): seq<SelectedField>
  {
    if fs == [] then []
    else
      var rest := Select(fs[..|fs| - 1], view);
      var f := fs[|fs| - 1];
      if Keeps(f, view) then rest + [SelectedField(f.name, f.attr.value)] else rest
  }

  /** The loop over `attr.groups()` that looks for the view. */
  method InGroups(groups: seq<ViewTag>, view: ViewTag) returns (matched: bool)
    ensures matched <==> view in groups
  {
    matched := false;
    var g := 0;
    while g < |groups|
      invariant 0 <= g <= |groups|
      invariant !matched && view !in groups[..g]
    {
      if groups[g] == view {
        matched := true;
        return;
      }
      g := g + 1;
    }
    assert groups[..g] == groups;
  }

  method GetAnnotatedFields(cls: ClassInfo, superFlag: bool, view: Option<ViewTag>)
    returns (annotated: seq<SelectedField>)
    ensures annotated == Select(Candidates(cls, superFlag), view)
  {
    var fields: seq<DeclaredField> := [];
    if superFlag && cls.superclass.Some? {
      fields := fields + cls.superclass.value;
    }
    fields := fields + cls.declared;
    assert fields == Candidates(cls, superFlag);
    annotated := [];
    var i := 0;
    while i < |fields|
      invariant 0 <= i <= |fields|
      invariant annotated == Select(fields[..i], view)
    {
      var f := fields[i];
      assert fields[..i + 1][..i] == fields[..i];
      if f.attr.Some? {
        var matched := true;
        if view.Some? {
          matched := InGroups(f.attr.value.groups, view.value);
        }
        if matched {
          annotated := annotated + [SelectedField(f.name, f.attr.value)];
        }
      }
      i := i + 1;
    }
    assert fields[..i] == fields;
  }

  /** Selecting from a concatenation selects from each part in turn, so
      the superclass's selected fields come before the type's own. */
  lemma {:induction false} SelectAppend(a: seq<DeclaredField>, b: seq<DeclaredField>, view: Option<ViewTag>)
    ensures Select(a + b, view) == Select(a, view) + Select(b, view)
  {
    if b == [] {
      assert a + b == a;
    } else {
      SelectAppend(a, b[..|b| - 1], view);
      assert (a + b)[..|a + b| - 1] == a + b[..|b| - 1];
    }
  }

  lemma SuperFieldsFirst(cls: ClassInfo, view: Option<ViewTag>)
    requires cls.superclass.Some?
    ensures Select(Candidates(cls, true), view)
         == Select(cls.superclass.value, view) + Select(cls.declared, view)
  {
    SelectAppend(cls.superclass.value, cls.declared, view);
  }

  /** The positions of the kept fields, in increasing order. */
  function KeptIndices(fs: seq<DeclaredField>, view: Option<ViewTag>): seq<nat>
  {
    if fs == [] then []
    else
      var rest := KeptIndices(fs[..|fs| - 1], view);
      if Keeps(fs[|fs| - 1], view) then rest + [|fs| - 1] else rest
  }

  /** Select is exactly the subsequence of kept fields, in declaration
      order: the k-th selected field is the field at the k-th kept index,
      the indices increase, and an index is listed iff its field is kept. */
  lemma {:induction false} SelectIsOrderedSubsequence(fs: seq<DeclaredField>, view: Option<ViewTag>)
    ensures var sel, idx := Select(fs, view), KeptIndices(fs, view);
      && |sel| == |idx|
      && (forall k :: 0 <= k < |idx| ==> idx[k] < |fs|)
      && (forall k, l :: 0 <= k < l < |idx| ==> idx[k] < idx[l])
      && (forall k :: 0 <= k < |idx| ==>
            Keeps(fs[idx[k]], view) && sel[k] == SelectedField(fs[idx[k]].name, fs[idx[k]].attr.value))
      && (forall i :: 0 <= i < |fs| ==> (Keeps(fs[i], view) <==> i in idx))
  {
    if fs != [] {
      var p := fs[..|fs| - 1];
      SelectIsOrderedSubsequence(p, view);
      forall i | 0 <= i < |p| ensures p[i] == fs[i] { }
    }
  }

  /** With no view every annotated field is selected; under a view exactly
      those whose groups name it. */
  lemma SelectionCriterion(fs: seq<DeclaredField>, view: Option<ViewTag>, i: nat)
    requires i < |fs|
    ensures i in KeptIndices(fs, view) <==>
      fs[i].attr.Some? && (view.None? || view.value in fs[i].attr.value.groups)
  {
    SelectIsOrderedSubsequence(fs, view);
  }

  /** A field whose groups are left at their empty default is never
      selected under a view. */
  lemma DefaultGroupsNeverMatch(title: string, view: ViewTag)
    ensures !Matches(Annotated(title), Some(view))
  {
  }
}

=== FILE: Grouped.dfy ===
/** The grouped exportDataList: several record lists stacked on one sheet.
    Each non-empty list gets a block that starts at the current line: a
    header row, one row per record, and a summary row; the next block
    starts `delimiter` lines after that summary row. Columns come from the
    annotation's `column` when it is not blank, else from the field's
    position in the list of selected fields. */
module GroupedSheet {
  import opened Wrappers
  import opened ExcelAttribute
  import opened ExcelColumns
  import opened FieldSelection
  import opened Coercion
  import opened Decimals
  import opened Workbook
  import opened ExcelSheets

  /** The column of the field at position i. */
  function ColumnOf(fields: seq<SelectedField>, i: nat): int
    requires i < |fields|
  {
    ColumnFor(fields[i].attr, i)
  }

  /** A block's header row after its first n fields: the title of every
      selected field (exported or not) in its column; a later field in the
      same column replaces an earlier one. */
  function BlockHeaderUpTo(fields: seq<SelectedField>, n: nat): Row
    requires n <= |fields|
  {
    if n == 0 then map[]
    else
      var f := fields[n - 1].attr;
      BlockHeaderUpTo(fields, n - 1)[ColumnOf(fields, n - 1) := Cell(Str(f.title), HeaderStyleOf(f))]
  }

  function BlockHeader(fields: seq<SelectedField>): Row
  {
    BlockHeaderUpTo(fields, |fields|)
  }

  /** The prompt boxes (with an empty title) and choice lists the block
      header asks for, over rows 1..100 of each field's column, whatever
      line the block starts on. */
  function BlockValidationsUpTo(fields: seq<SelectedField>, n: nat): seq<Validation>
    requires n <= |fields|
  {
    if n == 0 then []
    else BlockValidationsUpTo(fields, n - 1) + FieldValidations(fields[n - 1].attr, ColumnOf(fields, n - 1), "")
  }

  function BlockValidations(fields: seq<SelectedField>): seq<Validation>
  {
    BlockValidationsUpTo(fields, |fields|)
  }

  /** A record's row in a block after the first n fields: each exported
      field's cell in its column (the date format is always the
      annotation's), or the exception of the first field that throws. */
  function BlockRowUpTo(fields: seq<SelectedField>, rec: Record, n: nat, env: Env): Result<Row, CoerceError>
    requires n <= |fields| && Covers(fields, rec)
  {
    if n == 0 then Success(map[])
    else
      match BlockRowUpTo(fields, rec, n - 1, env)
      case Failure(e) => Failure(e)
      case Success(row) =>
        if !fields[n - 1].attr.isExport then Success(row)
        else
          match ContentCell(fields[n - 1], rec, None, env)
          case Failure(e) => Failure(e)
          case Success(c) => Success(row[ColumnOf(fields, n - 1) := c])
  }

  function BlockRow(fields: seq<SelectedField>, rec: Record, env: Env): Result<Row, CoerceError>
    requires Covers(fields, rec)
  {
    BlockRowUpTo(fields, rec, |fields|, env)
  }

  /** The rows after the first n records of a block whose records start at
      line first: record k in row first + k, replacing any row there. */
  function BlockRecords(base: map<int, Row>, fields: seq<SelectedField>, data: seq<Record>, first: int, n: nat, env: Env)
    : Result<map<int, Row>, CoerceError>
    requires n <= |data| && AllCover(fields, data)
  {
    if n == 0 then Success(base)
    else
      match BlockRecords(base, fields, data, first, n - 1, env)
      case Failure(e) => Failure(e)
      case Success(rows) =>
        match BlockRow(fields, data[n - 1], env)
        case Failure(e) => Failure(e)
        case Success(row) => Success(rows[first + n - 1 := row])
  }

  /** The summary row s of a block after its first n fields: each summed
      field's column gets the total of that column over rows [first, hi),
      read from the sheet as it is at that moment (rows, with row s as far
      as it is written); or the exception of the first total that throws. */
  function BlockSummaryUpTo(fields: seq<SelectedField>, rows: map<int, Row>, s: int, first: int, hi: int, n: nat, sum: SumEnv)
    : Result<Row, CoerceError>
    requires n <= |fields|
  {
    if n == 0 then Success(map[])
    else
      var row := BlockSummaryUpTo(fields, rows, s, first, hi, n - 1, sum);
      if row.Failure? || !fields[n - 1].attr.isSum then row
      else
        var col := ColumnOf(fields, n - 1);
        match ColumnTotal(rows[s := row.value], col, first, hi, sum)
        case Failure(e) => Failure(e)
        case Success(total) => Success(row.value[col := SumCell(total)])
  }

  /** The same totals read from fixed rows: what the summary holds when
      the summary row itself lies outside [first, hi). */
  function SummaryOverUpTo(fields: seq<SelectedField>, rows: map<int, Row>, first: int, hi: int, n: nat, sum: SumEnv)
    : Result<Row, CoerceError>
    requires n <= |fields|
  {
    if n == 0 then Success(map[])
    else
      var row := SummaryOverUpTo(fields, rows, first, hi, n - 1, sum);
      if row.Failure? || !fields[n - 1].attr.isSum then row
      else
        match ColumnTotal(rows, ColumnOf(fields, n - 1), first, hi, sum)
        case Failure(e) => Failure(e)
        case Success(total) => Success(row.value[ColumnOf(fields, n - 1) := SumCell(total)])
  }

  /** The sheet of the grouped export as a value, with the line the next
      block starts on. */
  datatype Layout = Layout(rows: map<int, Row>, lastRow: int, validations: seq<Validation>, line: int)

  /** One block for a non-empty list, from layout st: header at st.line,
      records from st.line + 1, summary after them, each summed column
      totalled over [first record row, last row number); or the exception
      of the first record or total that throws. */
  function Block(st: Layout, fields: seq<SelectedField>, data: seq<Record>, delimiter: int, env: Env, sum: SumEnv)
    : Result<Layout, CoerceError>
    requires AllCover(fields, data)
  {
    match BlockRecords(st.rows[st.line := BlockHeader(fields)], fields, data, st.line + 1, |data|, env)
    case Failure(e) => Failure(e)
    case Success(rows) => BlockEnd(st, fields, rows, |data|, delimiter, sum)
  }

  /** The rest of a block whose header and n records left rows: its
      summary row, the last row number and the next line. */
  function BlockEnd(st: Layout, fields: seq<SelectedField>, rows: map<int, Row>, n: nat, delimiter: int, sum: SumEnv)
    : Result<Layout, CoerceError>
  {
    var first := st.line + 1;
    var s := first + n;
    var hi := Max(st.lastRow, s);
    var rows' := rows[s := map[]];
    match BlockSummaryUpTo(fields, rows', s, first, hi, |fields|, sum)
    case Failure(e) => Failure(e)
    case Success(row) => Success(Layout(rows'[s := row], hi, st.validations + BlockValidations(fields), s + 1 + delimiter))
  }

  // ---------------------------------------------------------------- lemmas

  /** A header row has a cell in column c iff some field is placed in c. */
  lemma {:induction false} BlockHeaderColumns(fields: seq<SelectedField>, n: nat, c: int)
    requires n <= |fields|
    ensures c in BlockHeaderUpTo(fields, n) <==> exists i :: 0 <= i < n && ColumnOf(fields, i) == c
  {
    if n > 0 {
      BlockHeaderColumns(fields, n - 1, c);
    }
  }

  /** The header cell of a column holds the title of the last field placed
      in that column. */
  lemma {:induction false} BlockHeaderCell(fields: seq<SelectedField>, n: nat, i: nat)
    requires i < n <= |fields|
    requires forall j :: i < j < n ==> ColumnOf(fields, j) != ColumnOf(fields, i)
    ensures ColumnOf(fields, i) in BlockHeaderUpTo(fields, n)
    ensures BlockHeaderUpTo(fields, n)[ColumnOf(fields, i)] == Cell(Str(fields[i].attr.title), HeaderStyleOf(fields[i].attr))
  {
    if i < n - 1 {
      BlockHeaderCell(fields, n - 1, i);
    }
  }

  /** With default columns every selected field's title sits at its own
      position, exported or not. */
  lemma {:induction false} DefaultHeaderAtPositions(fields: seq<SelectedField>, n: nat)
    requires n <= |fields|
    requires forall i :: 0 <= i < |fields| ==> !IsNotBlank(fields[i].attr.column)
    ensures forall c :: c in BlockHeaderUpTo(fields, n) <==> 0 <= c < n
    ensures forall i :: 0 <= i < n ==>
      BlockHeaderUpTo(fields, n)[i] == Cell(Str(fields[i].attr.title), HeaderStyleOf(fields[i].attr))
  {
    if n > 0 {
      DefaultHeaderAtPositions(fields, n - 1);
    }
  }

  lemma {:induction false} BlockRowFailureSticks(fields: seq<SelectedField>, rec: Record, m: nat, n: nat, env: Env)
    requires m <= n <= |fields| && Covers(fields, rec)
    requires BlockRowUpTo(fields, rec, m, env).Failure?
    ensures BlockRowUpTo(fields, rec, n, env) == BlockRowUpTo(fields, rec, m, env)
    decreases n
  {
    if n > m {
      BlockRowFailureSticks(fields, rec, m, n - 1, env);
    }
  }

  /** A record's row in a block exists iff every exported field converts;
      fields that are not exported are never converted. */
  lemma {:induction false} BlockRowSucceeds(fields: seq<SelectedField>, rec: Record, n: nat, env: Env)
    requires n <= |fields| && Covers(fields, rec)
    ensures BlockRowUpTo(fields, rec, n, env).Success? <==>
      forall i :: 0 <= i < n && fields[i].attr.isExport ==> ContentCell(fields[i], rec, None, env).Success?
  {
    if n > 0 {
      BlockRowSucceeds(fields, rec, n - 1, env);
    }
  }

  /** Unlike the header, a record's row has a cell in column c iff some
      exported field is placed in c. */
  lemma {:induction false} BlockRowColumns(fields: seq<SelectedField>, rec: Record, n: nat, env: Env, c: int)
    requires n <= |fields| && Covers(fields, rec)
    requires BlockRowUpTo(fields, rec, n, env).Success?
    ensures c in BlockRowUpTo(fields, rec, n, env).value <==>
      exists i :: 0 <= i < n && fields[i].attr.isExport && ColumnOf(fields, i) == c
  {
    if n > 0 {
      BlockRowColumns(fields, rec, n - 1, env, c);
    }
  }

  /** The cell of a column holds the converted value, with the annotation's
      date format, of the last exported field placed there; a later field
      that is not exported does not replace it. */
  lemma {:induction false} BlockRowCell(fields: seq<SelectedField>, rec: Record, n: nat, env: Env, i: nat)
    requires i < n <= |fields| && Covers(fields, rec)
    requires BlockRowUpTo(fields, rec, n, env).Success?
    requires fields[i].attr.isExport
    requires forall j :: i < j < n && fields[j].attr.isExport ==> ColumnOf(fields, j) != ColumnOf(fields, i)
    ensures ContentCell(fields[i], rec, None, env).Success?
    ensures ColumnOf(fields, i) in BlockRowUpTo(fields, rec, n, env).value
    ensures BlockRowUpTo(fields, rec, n, env).value[ColumnOf(fields, i)] == ContentCell(fields[i], rec, None, env).value
  {
    if i < n - 1 {
      BlockRowCell(fields, rec, n - 1, env, i);
    }
  }

  /** A failing row reports the exception of its first exported field
      that fails. */
  lemma {:induction false} BlockRowFirstFailure(fields: seq<SelectedField>, rec: Record, n: nat, env: Env)
    requires n <= |fields| && Covers(fields, rec)
    requires BlockRowUpTo(fields, rec, n, env).Failure?
    ensures exists i :: (0 <= i < n && fields[i].attr.isExport
        && ContentCell(fields[i], rec, None, env) == Failure(BlockRowUpTo(fields, rec, n, env).error)
        && forall k :: 0 <= k < i && fields[k].attr.isExport ==> ContentCell(fields[k], rec, None, env).Success?)
  {
    if BlockRowUpTo(fields, rec, n - 1, env).Failure? {
      BlockRowFirstFailure(fields, rec, n - 1, env);
    } else {
      BlockRowSucceeds(fields, rec, n - 1, env);
    }
  }

  lemma {:induction false} BlockRecordsFailureSticks(base: map<int, Row>, fields: seq<SelectedField>, data: seq<Record>,
                                                     first: int, m: nat, n: nat, env: Env)
    requires m <= n <= |data| && AllCover(fields, data)
    requires BlockRecords(base, fields, data, first, m, env).Failure?
    ensures BlockRecords(base, fields, data, first, n, env) == BlockRecords(base, fields, data, first, m, env)
    decreases n
  {
    if n > m {
      BlockRecordsFailureSticks(base, fields, data, first, m, n - 1, env);
    }
  }

  /** The records of a block succeed iff every record's row does. */
  lemma {:induction false} BlockRecordsSucceed(base: map<int, Row>, fields: seq<SelectedField>, data: seq<Record>,
                                               first: int, n: nat, env: Env)
    requires n <= |data| && AllCover(fields, data)
    ensures BlockRecords(base, fields, data, first, n, env).Success?
        <==> forall k :: 0 <= k < n ==> BlockRow(fields, data[k], env).Success?
  {
    if n > 0 {
      BlockRecordsSucceed(base, fields, data, first, n - 1, env);
    }
  }

  /** The records of a block write rows [first, first + n) and no others. */
  lemma {:induction false} BlockRecordsKeys(base: map<int, Row>, fields: seq<SelectedField>, data: seq<Record>,
                                            first: int, n: nat, env: Env)
    requires n <= |data| && AllCover(fields, data)
    requires BlockRecords(base, fields, data, first, n, env).Success?
    ensures var rows := BlockRecords(base, fields, data, first, n, env).value;
      && (forall r :: r in rows <==> r in base || first <= r < first + n)
      && (forall r :: r in base && !(first <= r < first + n) ==> rows[r] == base[r])
  {
    if n > 0 {
      var prev := BlockRecords(base, fields, data, first, n - 1, env);
      assert prev.Success?;
      BlockRecordsKeys(base, fields, data, first, n - 1, env);
      var last := BlockRow(fields, data[n - 1], env);
      assert BlockRecords(base, fields, data, first, n, env).value == prev.value[first + n - 1 := last.value];
    }
  }

  /** Record k of a block is in row first + k of rows. */
  predicate BlockRowAt(rows: map<int, Row>, fields: seq<SelectedField>, data: seq<Record>, first: int, k: int, env: Env)
    requires 0 <= k < |data| && AllCover(fields, data)
  {
    var b := BlockRow(fields, data[k], env);
    b.Success? && first + k in rows && rows[first + k] == b.value
  }

  lemma {:induction false} BlockRecordsPlaced(base: map<int, Row>, fields: seq<SelectedField>, data: seq<Record>,
                                              first: int, n: nat, env: Env)
    requires n <= |data| && AllCover(fields, data)
    requires BlockRecords(base, fields, data, first, n, env).Success?
    ensures forall k :: 0 <= k < n ==> BlockRowAt(BlockRecords(base, fields, data, first, n, env).value, fields, data, first, k, env)
  {
    if n > 0 {
      var prev := BlockRecords(base, fields, data, first, n - 1, env);
      assert prev.Success?;
      BlockRecordsPlaced(base, fields, data, first, n - 1, env);
      var last := BlockRow(fields, data[n - 1], env);
      var rows := prev.value[first + n - 1 := last.value];
      assert BlockRecords(base, fields, data, first, n, env).value == rows;
      forall k | 0 <= k < n
        ensures BlockRowAt(rows, fields, data, first, k, env)
      {
        if k < n - 1 {
          assert BlockRowAt(prev.value, fields, data, first, k, env);
        }
      }
    }
  }

  /** The records of a block succeed iff every record's row does; record k
      is then in row first + k and no other row changes. */
  lemma BlockRecordsLayout(base: map<int, Row>, fields: seq<SelectedField>, data: seq<Record>,
                           first: int, n: nat, env: Env)
    requires n <= |data| && AllCover(fields, data)
    ensures BlockRecords(base, fields, data, first, n, env).Success?
        <==> forall k :: 0 <= k < n ==> BlockRow(fields, data[k], env).Success?
    ensures BlockRecords(base, fields, data, first, n, env).Success? ==>
      var rows := BlockRecords(base, fields, data, first, n, env).value;
      && (forall r :: r in rows <==> r in base || first <= r < first + n)
      && (forall k :: 0 <= k < n ==> rows[first + k] == BlockRow(fields, data[k], env).value)
      && (forall r :: r in base && !(first <= r < first + n) ==> rows[r] == base[r])
  {
    BlockRecordsSucceed(base, fields, data, first, n, env);
    if BlockRecords(base, fields, data, first, n, env).Success? {
      BlockRecordsKeys(base, fields, data, first, n, env);
      BlockRecordsPlaced(base, fields, data, first, n, env);
      var rows := BlockRecords(base, fields, data, first, n, env).value;
      forall k | 0 <= k < n
        ensures rows[first + k] == BlockRow(fields, data[k], env).value
      {
        assert BlockRowAt(rows, fields, data, first, k, env);
      }
    }
  }

  /** When the summary row is not inside the totalled range, writing it
      cell by cell does not change the totals. */
  lemma {:induction false} SummaryIgnoresItself(fields: seq<SelectedField>, rows: map<int, Row>, s: int, first: int, hi: int,
                                                n: nat, sum: SumEnv)
    requires n <= |fields| && hi <= s
    ensures BlockSummaryUpTo(fields, rows, s, first, hi, n, sum) == SummaryOverUpTo(fields, rows, first, hi, n, sum)
  {
    if n > 0 {
      SummaryIgnoresItself(fields, rows, s, first, hi, n - 1, sum);
      var row := BlockSummaryUpTo(fields, rows, s, first, hi, n - 1, sum);
      if row.Success? {
        ColumnTotalIgnoresLaterRow(rows, s, row.value, ColumnOf(fields, n - 1), first, hi, sum);
      }
    }
  }

  /** The summary cell of column c is the total of c over [first, hi). */
  lemma {:induction false} SummaryOverCells(fields: seq<SelectedField>, rows: map<int, Row>, first: int, hi: int,
                                            n: nat, sum: SumEnv, c: int)
    requires n <= |fields|
    ensures var row := SummaryOverUpTo(fields, rows, first, hi, n, sum);
      row.Success? ==>
        && (c in row.value <==> exists i :: 0 <= i < n && fields[i].attr.isSum && ColumnOf(fields, i) == c)
        && (c in row.value ==> ColumnTotal(rows, c, first, hi, sum).Success?
                               && row.value[c] == SumCell(ColumnTotal(rows, c, first, hi, sum).value))
  {
    if n > 0 {
      SummaryOverCells(fields, rows, first, hi, n - 1, sum, c);
    }
  }

  /** The summary is written iff the total of every summed field's column
      is. */
  lemma {:induction false} SummaryOverSucceeds(fields: seq<SelectedField>, rows: map<int, Row>, first: int, hi: int,
                                               n: nat, sum: SumEnv)
    requires n <= |fields|
    ensures SummaryOverUpTo(fields, rows, first, hi, n, sum).Success?
        <==> forall i :: 0 <= i < n && fields[i].attr.isSum ==> ColumnTotal(rows, ColumnOf(fields, i), first, hi, sum).Success?
  {
    if n > 0 {
      SummaryOverSucceeds(fields, rows, first, hi, n - 1, sum);
    }
  }

  /** Once a total of the block summary has thrown, the summary fails with
      that exception whatever the later fields are. */
  lemma {:induction false} BlockSummaryFailureSticks(fields: seq<SelectedField>, rows: map<int, Row>, s: int, first: int, hi: int,
                                                     m: nat, n: nat, sum: SumEnv)
    requires m <= n <= |fields| && BlockSummaryUpTo(fields, rows, s, first, hi, m, sum).Failure?
    ensures BlockSummaryUpTo(fields, rows, s, first, hi, n, sum) == BlockSummaryUpTo(fields, rows, s, first, hi, m, sum)
    decreases n - m
  {
    if m < n {
      BlockSummaryFailureSticks(fields, rows, s, first, hi, m, n - 1, sum);
    }
  }

  /** Rows are below the next line and the last row number is below it:
      true of a new sheet, and kept by every block when delimiter >= 0. */
  predicate Ahead(st: Layout)
  {
    && st.lastRow < st.line + 1
    && forall r :: r in st.rows ==> r < st.line
  }

  /** Block written out step by step: the records, then the summary. */
  lemma BlockValue(st: Layout, fields: seq<SelectedField>, data: seq<Record>, delimiter: int, env: Env, sum: SumEnv)
    requires AllCover(fields, data)
    ensures var first, s := st.line + 1, st.line + 1 + |data|;
      var written := BlockRecords(st.rows[st.line := BlockHeader(fields)], fields, data, first, |data|, env);
      var b := Block(st, fields, data, delimiter, env, sum);
      && (written.Failure? ==> b == Failure(written.error))
      && (written.Success? ==>
            var rows' := written.value[s := map[]];
            var row := BlockSummaryUpTo(fields, rows', s, first, Max(st.lastRow, s), |fields|, sum);
            && (row.Failure? ==> b == Failure(row.error))
            && (row.Success? ==>
                  b == Success(Layout(rows'[s := row.value], Max(st.lastRow, s), st.validations + BlockValidations(fields),
                                      s + 1 + delimiter))))
  {
  }

  /** What one block does to the sheet: it fails when a record's row
      does; when it succeeds it writes rows st.line to its summary row and
      moves the line past the summary row and the delimiter. */
  lemma BlockLayout(st: Layout, fields: seq<SelectedField>, data: seq<Record>, delimiter: int, env: Env, sum: SumEnv)
    requires AllCover(fields, data)
    ensures (exists k :: 0 <= k < |data| && BlockRow(fields, data[k], env).Failure?) ==>
      Block(st, fields, data, delimiter, env, sum).Failure?
    ensures Block(st, fields, data, delimiter, env, sum).Success? ==>
      var st' := Block(st, fields, data, delimiter, env, sum).value;
      var s := st.line + 1 + |data|;
      && st'.line == s + 1 + delimiter
      && st'.validations == st.validations + BlockValidations(fields)
      && (forall r :: r in st'.rows <==> r in st.rows || st.line <= r <= s)
  {
    BlockValue(st, fields, data, delimiter, env, sum);
    BlockRecordsSucceed(st.rows[st.line := BlockHeader(fields)], fields, data, st.line + 1, |data|, env);
    BlockRecordsLayout(st.rows[st.line := BlockHeader(fields)], fields, data, st.line + 1, |data|, env);
  }

  /** From a layout that is Ahead, a block succeeds iff every record's row
      does and, in every summed column, every record's cell converts. */
  lemma BlockSucceeds(st: Layout, fields: seq<SelectedField>, data: seq<Record>, delimiter: int, env: Env, sum: SumEnv)
    requires AllCover(fields, data) && Ahead(st)
    ensures Block(st, fields, data, delimiter, env, sum).Success? <==>
      && (forall k :: 0 <= k < |data| ==> BlockRow(fields, data[k], env).Success?)
      && (forall k, i :: 0 <= k < |data| && 0 <= i < |fields| && fields[i].attr.isSum ==>
            Converts(BlockRow(fields, data[k], env).value, ColumnOf(fields, i), sum))
  {
    var first, s := st.line + 1, st.line + 1 + |data|;
    var base := st.rows[st.line := BlockHeader(fields)];
    var written := BlockRecords(base, fields, data, first, |data|, env);
    BlockValue(st, fields, data, delimiter, env, sum);
    BlockRecordsSucceed(base, fields, data, first, |data|, env);
    if written.Success? {
      var rows' := written.value[s := map[]];
      SummaryIgnoresItself(fields, rows', s, first, s, |fields|, sum);
      SummaryOverSucceeds(fields, rows', first, s, |fields|, sum);
      BlockRecordsPlaced(base, fields, data, first, |data|, env);
      forall i | 0 <= i < |fields| && fields[i].attr.isSum
        ensures ColumnTotal(rows', ColumnOf(fields, i), first, s, sum).Success?
            <==> forall k :: 0 <= k < |data| ==> Converts(BlockRow(fields, data[k], env).value, ColumnOf(fields, i), sum)
      {
        var col := ColumnOf(fields, i);
        ColumnTotalSucceeds(rows', col, first, s, sum);
        forall k | 0 <= k < |data|
          ensures first + k in rows' && rows'[first + k] == BlockRow(fields, data[k], env).value
        {
          assert BlockRowAt(written.value, fields, data, first, k, env);
        }
        forall r | first <= r < s && r in rows'
          ensures rows'[r] == BlockRow(fields, data[r - first], env).value
        {
        }
      }
    }
  }

  /** With a non-negative delimiter a block moves the line forward and
      keeps every row above the line it starts on. */
  lemma BlockKeepsAbove(st: Layout, st': Layout, fields: seq<SelectedField>, data: seq<Record>, delimiter: int,
                        env: Env, sum: SumEnv)
    requires AllCover(fields, data) && delimiter >= 0 && Block(st, fields, data, delimiter, env, sum) == Success(st')
    ensures st.line <= st'.line
    ensures forall r :: r < st.line ==> (r in st'.rows <==> r in st.rows) && (r in st.rows ==> st'.rows[r] == st.rows[r])
  {
    BlockLayout(st, fields, data, delimiter, env, sum);
    BlockRows(st, st', fields, data, delimiter, env, sum);
  }

  /** The rows a block writes: its header at st.line, record k at
      st.line + 1 + k; rows outside the block keep their content. */
  lemma BlockRows(st: Layout, st': Layout, fields: seq<SelectedField>, data: seq<Record>, delimiter: int, env: Env, sum: SumEnv)
    requires AllCover(fields, data) && Block(st, fields, data, delimiter, env, sum) == Success(st')
    ensures st.line in st'.rows && st'.rows[st.line] == BlockHeader(fields)
    ensures forall k :: 0 <= k < |data| ==>
      && BlockRow(fields, data[k], env).Success? && st.line + 1 + k in st'.rows
      && st'.rows[st.line + 1 + k] == BlockRow(fields, data[k], env).value
    ensures forall r :: r in st.rows && !(st.line <= r <= st.line + 1 + |data|) ==> r in st'.rows && st'.rows[r] == st.rows[r]
  {
    var base := st.rows[st.line := BlockHeader(fields)];
    var first := st.line + 1;
    BlockKeepsRecordRows(st, st', fields, data, delimiter, env, sum);
    var rows := BlockRecords(base, fields, data, first, |data|, env).value;
    BlockRecordsKeys(base, fields, data, first, |data|, env);
    BlockRecordsPlaced(base, fields, data, first, |data|, env);
    forall k | 0 <= k < |data|
      ensures && BlockRow(fields, data[k], env).Success? && st.line + 1 + k in st'.rows
              && st'.rows[st.line + 1 + k] == BlockRow(fields, data[k], env).value
    {
      assert BlockRowAt(rows, fields, data, first, k, env);
    }
    assert rows[st.line] == base[st.line];
  }

  /** Apart from its summary row, a block's rows are those its records
      leave. */
  lemma BlockKeepsRecordRows(st: Layout, st': Layout, fields: seq<SelectedField>, data: seq<Record>, delimiter: int,
                             env: Env, sum: SumEnv)
    requires AllCover(fields, data) && Block(st, fields, data, delimiter, env, sum) == Success(st')
    ensures var written := BlockRecords(st.rows[st.line := BlockHeader(fields)], fields, data, st.line + 1, |data|, env);
      && written.Success?
      && forall r :: r != st.line + 1 + |data| ==>
           (r in st'.rows <==> r in written.value) && (r in written.value ==> st'.rows[r] == written.value[r])
  {
    BlockValue(st, fields, data, delimiter, env, sum);
  }

  /** From a layout that is Ahead, the block's summary row holds, for
      every summed column, the total over exactly the block's own record
      rows; with delimiter >= 0 the result is Ahead again. */
  lemma BlockSummary(st: Layout, fields: seq<SelectedField>, data: seq<Record>, delimiter: int, env: Env, sum: SumEnv)
    requires AllCover(fields, data) && Ahead(st)
    requires Block(st, fields, data, delimiter, env, sum).Success?
    ensures var st' := Block(st, fields, data, delimiter, env, sum).value;
      var s := st.line + 1 + |data|;
      && st'.lastRow == s
      && s in st'.rows
      && SummaryOverUpTo(fields, st'.rows, st.line + 1, s, |fields|, sum) == Success(st'.rows[s])
      && (delimiter >= 0 ==> Ahead(st'))
  {
    var first := st.line + 1;
    var s := first + |data|;
    var base := st.rows[st.line := BlockHeader(fields)];
    BlockValue(st, fields, data, delimiter, env, sum);
    var rows := BlockRecords(base, fields, data, first, |data|, env).value;
    var rows' := rows[s := map[]];
    var row := BlockSummaryUpTo(fields, rows', s, first, s, |fields|, sum).value;
    SummaryIgnoresItself(fields, rows', s, first, s, |fields|, sum);
    SummaryOverFrame(fields, rows', s, row, first, s, |fields|, sum);
    BlockLayout(st, fields, data, delimiter, env, sum);
  }

  /** Replacing a row at or after hi leaves the totals over [first, hi)
      as they were. */
  lemma {:induction false} SummaryOverFrame(fields: seq<SelectedField>, rows: map<int, Row>, k: int, row: Row,
                                            first: int, hi: int, n: nat, sum: SumEnv)
    requires n <= |fields| && hi <= k
    ensures SummaryOverUpTo(fields, rows[k := row], first, hi, n, sum) == SummaryOverUpTo(fields, rows, first, hi, n, sum)
  {
    if n > 0 {
      SummaryOverFrame(fields, rows, k, row, first, hi, n - 1, sum);
      ColumnTotalIgnoresLaterRow(rows, k, row, ColumnOf(fields, n - 1), first, hi, sum);
    }
  }

  /** Totals over [lo, hi) only read the rows in [lo, hi). */
  lemma {:induction false} ColumnTotalReadsRange(rows1: map<int, Row>, rows2: map<int, Row>, col: int, lo: int, hi: int, sum: SumEnv)
    requires forall r :: lo <= r < hi ==> (r in rows1 <==> r in rows2) && (r in rows1 ==> rows1[r] == rows2[r])
    ensures ColumnTotal(rows1, col, lo, hi, sum) == ColumnTotal(rows2, col, lo, hi, sum)
    decreases hi - lo
  {
    if lo < hi {
      ColumnTotalReadsRange(rows1, rows2, col, lo, hi - 1, sum);
    }
  }

  lemma {:induction false} SummaryOverReadsRange(fields: seq<SelectedField>, rows1: map<int, Row>, rows2: map<int, Row>,
                                                 first: int, hi: int, n: nat, sum: SumEnv)
    requires n <= |fields|
    requires forall r :: first <= r < hi ==> (r in rows1 <==> r in rows2) && (r in rows1 ==> rows1[r] == rows2[r])
    ensures SummaryOverUpTo(fields, rows1, first, hi, n, sum) == SummaryOverUpTo(fields, rows2, first, hi, n, sum)
  {
    if n > 0 {
      SummaryOverReadsRange(fields, rows1, rows2, first, hi, n - 1, sum);
      ColumnTotalReadsRange(rows1, rows2, ColumnOf(fields, n - 1), first, hi, sum);
    }
  }

  /** A whole block in rows from line: its header, its records' rows, and
      its summary row totalling each summed column over the record rows. */
  predicate BlockAt(rows: map<int, Row>, line: int, fields: seq<SelectedField>, data: seq<Record>, env: Env, sum: SumEnv)
    requires AllCover(fields, data)
  {
    var s := line + 1 + |data|;
    && line in rows && rows[line] == BlockHeader(fields)
    && (forall k :: 0 <= k < |data| ==>
          && BlockRow(fields, data[k], env).Success? && line + 1 + k in rows
          && rows[line + 1 + k] == BlockRow(fields, data[k], env).value)
    && s in rows && SummaryOverUpTo(fields, rows, line + 1, s, |fields|, sum) == Success(rows[s])
  }

  /** A block written from an Ahead layout stays whole in any later sheet
      that keeps the rows above the block's successor line. */
  lemma BlockStaysWhole(p: Layout, q: Layout, rows: map<int, Row>, fields: seq<SelectedField>, data: seq<Record>,
                        delimiter: int, env: Env, sum: SumEnv)
    requires AllCover(fields, data) && Ahead(p) && delimiter >= 0
    requires Block(p, fields, data, delimiter, env, sum) == Success(q)
    requires forall r :: r < q.line ==> (r in rows <==> r in q.rows) && (r in q.rows ==> rows[r] == q.rows[r])
    ensures BlockAt(rows, p.line, fields, data, env, sum)
  {
    BlockBodyStays(p, q, rows, fields, data, delimiter, env, sum);
    BlockSummaryStays(p, q, rows, fields, data, delimiter, env, sum);
  }

  /** The header and record rows of such a block. */
  lemma BlockBodyStays(p: Layout, q: Layout, rows: map<int, Row>, fields: seq<SelectedField>, data: seq<Record>,
                       delimiter: int, env: Env, sum: SumEnv)
    requires AllCover(fields, data) && delimiter >= 0
    requires Block(p, fields, data, delimiter, env, sum) == Success(q)
    requires forall r :: r < q.line ==> (r in rows <==> r in q.rows) && (r in q.rows ==> rows[r] == q.rows[r])
    ensures p.line in rows && rows[p.line] == BlockHeader(fields)
    ensures forall k :: 0 <= k < |data| ==>
      && BlockRow(fields, data[k], env).Success? && p.line + 1 + k in rows
      && rows[p.line + 1 + k] == BlockRow(fields, data[k], env).value
  {
    BlockLayout(p, fields, data, delimiter, env, sum);
    assert q.line == p.line + 2 + |data| + delimiter;
    BlockRows(p, q, fields, data, delimiter, env, sum);
    forall k | 0 <= k < |data|
      ensures && BlockRow(fields, data[k], env).Success? && p.line + 1 + k in rows
              && rows[p.line + 1 + k] == BlockRow(fields, data[k], env).value
    {
      assert p.line + 1 + k < q.line;
    }
  }

  /** The summary row of such a block. */
  lemma BlockSummaryStays(p: Layout, q: Layout, rows: map<int, Row>, fields: seq<SelectedField>, data: seq<Record>,
                          delimiter: int, env: Env, sum: SumEnv)
    requires AllCover(fields, data) && Ahead(p) && delimiter >= 0
    requires Block(p, fields, data, delimiter, env, sum) == Success(q)
    requires forall r :: r < q.line ==> (r in rows <==> r in q.rows) && (r in q.rows ==> rows[r] == q.rows[r])
    ensures var s := p.line + 1 + |data|;
      s in rows && SummaryOverUpTo(fields, rows, p.line + 1, s, |fields|, sum) == Success(rows[s])
  {
    var s := p.line + 1 + |data|;
    BlockLayout(p, fields, data, delimiter, env, sum);
    assert q.line == s + 1 + delimiter;
    BlockSummary(p, fields, data, delimiter, env, sum);
    SummaryOverReadsRange(fields, q.rows, rows, p.line + 1, s, |fields|, sum);
    assert rows[s] == q.rows[s];
  }

  // ---------------------------------------------------------------- methods

  /** The header cell of the field at position i, with its prompt box and
      choice list. */
  method AddBlockHeaderCell(s: Sheet, line: int, f: SelectedField, i: int)
    requires s.Valid() && line in s.rows
    modifies s
    ensures s.Valid() && line in s.rows && s.lastRow == old(s.lastRow)
    ensures s.rows == old(s.rows)[line := old(s.rows)[line][ColumnFor(f.attr, i) := Cell(Str(f.attr.title), HeaderStyleOf(f.attr))]]
    ensures s.validations == old(s.validations) + FieldValidations(f.attr, ColumnFor(f.attr, i), "")
  {
    var attr := f.attr;
    var col := i;
    if IsNotBlank(attr.column) {
      col := GetExcelCol(attr.column);
    }
    s.SetCell(line, col, Cell(Str(attr.title), HeaderStyleOf(attr)));
    if IsNotBlank(attr.prompt) {
      s.AddValidation(PromptBox("", attr.prompt, 1, 100, col, col));
    }
    if |attr.combo| > 0 {
      s.AddValidation(ChoiceList(attr.combo, 1, 100, col, col));
    }
  }

  /** The header row of a block at line. */
  method AddBlockHeader(s: Sheet, fields: seq<SelectedField>, line: int)
    requires s.Valid()
    modifies s
    ensures s.Valid()
    ensures s.rows == old(s.rows)[line := BlockHeader(fields)]
    ensures s.lastRow == Max(old(s.lastRow), line)
    ensures s.validations == old(s.validations) + BlockValidations(fields)
  {
    s.CreateRow(line);
    var i := 0;
    while i < |fields|
      invariant 0 <= i <= |fields|
      invariant s.Valid() && line in s.rows && s.lastRow == Max(old(s.lastRow), line)
      invariant s.rows == old(s.rows)[line := BlockHeaderUpTo(fields, i)]
      invariant s.validations == old(s.validations) + BlockValidationsUpTo(fields, i)
    {
      AddBlockHeaderField(s, fields, line, i, old(s.rows), old(s.validations));
      i := i + 1;
    }
  }

  /** One more field of a block header: the header row and the validations
      move from the first i fields to the first i + 1. */
  method AddBlockHeaderField(s: Sheet, fields: seq<SelectedField>, line: int, i: nat,
                             ghost rows0: map<int, Row>, ghost validations0: seq<Validation>)
    requires i < |fields| && s.Valid() && line in s.rows
    requires s.rows == rows0[line := BlockHeaderUpTo(fields, i)]
    requires s.validations == validations0 + BlockValidationsUpTo(fields, i)
    modifies s
    ensures s.Valid() && line in s.rows && s.lastRow == old(s.lastRow)
    ensures s.rows == rows0[line := BlockHeaderUpTo(fields, i + 1)]
    ensures s.validations == validations0 + BlockValidationsUpTo(fields, i + 1)
  {
    AddBlockHeaderCell(s, line, fields[i], i);
    UpdateTwice(rows0, line, BlockHeaderUpTo(fields, i), BlockHeaderUpTo(fields, i + 1));
    AppendAssoc(validations0, BlockValidationsUpTo(fields, i), FieldValidations(fields[i].attr, ColumnOf(fields, i), ""));
  }

  /** One content cell of a block: created blank with the field's style,
      then given the coerced value, unless the coercion throws. */
  method AddBlockCell(s: Sheet, f: SelectedField, rec: Record, r: int, i: int, env: Env)
    returns (c: Result<Cell, CoerceError>)
    requires s.Valid() && r in s.rows && f.name in rec
    modifies s
    ensures s.Valid() && s.validations == old(s.validations) && s.lastRow == old(s.lastRow)
    ensures c == ContentCell(f, rec, None, env)
    ensures c.Success? ==> s.rows == old(s.rows)[r := old(s.rows)[r][ColumnFor(f.attr, i) := c.value]]
  {
    var col := i;
    if IsNotBlank(f.attr.column) {
      col := GetExcelCol(f.attr.column);
    }
    var style := ContentStyleOf(f.attr);
    ghost var row0 := s.rows[r];
    s.SetCell(r, col, Cell(Blank, style));
    var v := CoerceCell(rec[f.name], f.attr, None, env);
    if v.Failure? {
      return Failure(v.error);
    }
    s.SetCell(r, col, Cell(v.value, style));
    UpdateTwice(row0, col, Cell(Blank, style), Cell(v.value, style));
    UpdateTwice(old(s.rows), r, row0[col := Cell(Blank, style)], row0[col := Cell(v.value, style)]);
    c := Success(Cell(v.value, style));
  }

  /** The row of one record at line r. */
  method AddBlockRow(s: Sheet, fields: seq<SelectedField>, rec: Record, r: int, env: Env)
    returns (err: Option<CoerceError>)
    requires s.Valid() && Covers(fields, rec)
    modifies s
    ensures s.Valid() && s.validations == old(s.validations)
    ensures err.None? <==> BlockRow(fields, rec, env).Success?
    ensures err.Some? ==> BlockRow(fields, rec, env) == Failure(err.value)
    ensures err.None? ==> s.rows == old(s.rows)[r := BlockRow(fields, rec, env).value]
    ensures s.lastRow == Max(old(s.lastRow), r)
  {
    s.CreateRow(r);
    var j := 0;
    while j < |fields|
      invariant 0 <= j <= |fields|
      invariant s.Valid() && s.validations == old(s.validations)
      invariant BlockRowUpTo(fields, rec, j, env).Success?
      invariant s.rows == old(s.rows)[r := BlockRowUpTo(fields, rec, j, env).value]
      invariant s.lastRow == Max(old(s.lastRow), r)
    {
      if fields[j].attr.isExport {
        ghost var before := BlockRowUpTo(fields, rec, j, env).value;
        var c := AddBlockCell(s, fields[j], rec, r, j, env);
        if c.Failure? {
          BlockRowFailureSticks(fields, rec, j + 1, |fields|, env);
          return Some(c.error);
        }
        UpdateTwice(old(s.rows), r, before, before[ColumnOf(fields, j) := c.value]);
      }
      j := j + 1;
    }
    err := None;
  }

  /** The records of a block, record k at line first + k. */
  method AddBlockRecords(s: Sheet, fields: seq<SelectedField>, data: seq<Record>, first: int, env: Env)
    returns (err: Option<CoerceError>)
    requires s.Valid() && AllCover(fields, data) && |data| > 0
    modifies s
    ensures s.Valid() && s.validations == old(s.validations)
    ensures var written := BlockRecords(old(s.rows), fields, data, first, |data|, env);
      && (err.None? <==> written.Success?)
      && (err.Some? ==> written == Failure(err.value))
      && (err.None? ==> s.rows == written.value)
    ensures err.None? ==> s.lastRow == Max(old(s.lastRow), first + |data| - 1)
  {
    var i := 0;
    while i < |data|
      invariant 0 <= i <= |data|
      invariant s.Valid() && s.validations == old(s.validations)
      invariant BlockRecords(old(s.rows), fields, data, first, i, env).Success?
      invariant s.rows == BlockRecords(old(s.rows), fields, data, first, i, env).value
      invariant s.lastRow == if i == 0 then old(s.lastRow) else Max(old(s.lastRow), first + i - 1)
    {
      var e := AddBlockRow(s, fields, data[i], first + i, env);
      if e.Some? {
        BlockRecordsFailureSticks(old(s.rows), fields, data, first, i + 1, |data|, env);
        return e;
      }
      i := i + 1;
    }
    err := None;
  }

  /** The summary cell of the field at position i: the total of its
      column over [first, last row number) as the sheet is now. When the
      total throws, the cell is not written. */
  method AddBlockSumCell(s: Sheet, sumLine: int, first: int, f: SelectedField, i: int, sum: SumEnv)
    returns (err: Option<CoerceError>)
    requires s.Valid() && sumLine in s.rows
    modifies s
    ensures s.Valid() && sumLine in s.rows
    ensures s.validations == old(s.validations) && s.lastRow == old(s.lastRow)
    ensures var col := ColumnFor(f.attr, i);
      var total := ColumnTotal(old(s.rows), col, first, s.lastRow, sum);
      && (err.None? <==> total.Success?)
      && (err.Some? ==> total == Failure(err.value) && s.rows == old(s.rows))
      && (err.None? ==> s.rows == old(s.rows)[sumLine := old(s.rows)[sumLine][col := SumCell(total.value)]])
  {
    var col := i;
    if IsNotBlank(f.attr.column) {
      col := GetExcelCol(f.attr.column);
    }
    var lastRowNum := s.LastRowNum();
    var total := SumColumn(s.rows, col, first, lastRowNum, sum);
    if total.Failure? {
      return Some(total.error);
    }
    s.SetCell(sumLine, col, SumCell(total.value));
    err := None;
  }

  /** The summary row of a block at sumLine; the first total that throws
      ends it (err), and the cells written before it are not described. */
  method AddBlockSummary(s: Sheet, fields: seq<SelectedField>, sumLine: int, first: int, sum: SumEnv)
    returns (err: Option<CoerceError>)
    requires s.Valid()
    modifies s
    ensures s.Valid() && s.validations == old(s.validations)
    ensures s.lastRow == Max(old(s.lastRow), sumLine)
    ensures var rows' := old(s.rows)[sumLine := map[]];
      var row := BlockSummaryUpTo(fields, rows', sumLine, first, s.lastRow, |fields|, sum);
      && (err.None? <==> row.Success?)
      && (err.Some? ==> row == Failure(err.value))
      && (err.None? ==> s.rows == rows'[sumLine := row.value])
  {
    s.CreateRow(sumLine);
    ghost var rows0, hi := s.rows, s.lastRow;
    var i := 0;
    while i < |fields|
      invariant 0 <= i <= |fields|
      invariant s.Valid() && s.validations == old(s.validations) && sumLine in s.rows && s.lastRow == hi
      invariant BlockSummaryUpTo(fields, rows0, sumLine, first, hi, i, sum).Success?
      invariant s.rows == rows0[sumLine := BlockSummaryUpTo(fields, rows0, sumLine, first, hi, i, sum).value]
    {
      var e := AddBlockSummaryField(s, fields, sumLine, first, i, rows0, sum);
      if e.Some? {
        BlockSummaryFailureSticks(fields, rows0, sumLine, first, hi, i + 1, |fields|, sum);
        return e;
      }
      i := i + 1;
    }
    err := None;
  }

  /** One turn of the summary loop: field i, when summed, gets its total
      in the summary row, or its exception. */
  method AddBlockSummaryField(s: Sheet, fields: seq<SelectedField>, sumLine: int, first: int, i: nat,
                              ghost rows0: map<int, Row>, sum: SumEnv)
    returns (err: Option<CoerceError>)
    requires i < |fields| && s.Valid() && sumLine in s.rows
    requires BlockSummaryUpTo(fields, rows0, sumLine, first, s.lastRow, i, sum).Success?
    requires s.rows == rows0[sumLine := BlockSummaryUpTo(fields, rows0, sumLine, first, s.lastRow, i, sum).value]
    modifies s
    ensures s.Valid() && s.validations == old(s.validations) && s.lastRow == old(s.lastRow) && sumLine in s.rows
    ensures var row := BlockSummaryUpTo(fields, rows0, sumLine, first, s.lastRow, i + 1, sum);
      && (err.None? <==> row.Success?)
      && (err.Some? ==> row == Failure(err.value))
      && (err.None? ==> s.rows == rows0[sumLine := row.value])
  {
    if fields[i].attr.isSum {
      ghost var before := BlockSummaryUpTo(fields, rows0, sumLine, first, s.lastRow, i, sum).value;
      err := AddBlockSumCell(s, sumLine, first, fields[i], i, sum);
      if err.None? {
        UpdateTwice(rows0, sumLine, before, BlockSummaryUpTo(fields, rows0, sumLine, first, s.lastRow, i + 1, sum).value);
      }
    } else {
      err := None;
    }
  }

  /** One block of a non-empty list, from line; returns the line of the
      next block. */
  method AddBlock(s: Sheet, fields: seq<SelectedField>, data: seq<Record>, line: int, delimiter: int, env: Env, sum: SumEnv)
    returns (next: int, err: Option<CoerceError>)
    requires s.Valid() && AllCover(fields, data) && |data| > 0
    modifies s
    ensures s.Valid()
    ensures var b := Block(Layout(old(s.rows), old(s.lastRow), old(s.validations), line), fields, data, delimiter, env, sum);
      && (err.None? <==> b.Success?)
      && (err.Some? ==> b == Failure(err.value))
      && (err.None? ==> b.value == Layout(s.rows, s.lastRow, s.validations, next))
  {
    ghost var st := Layout(s.rows, s.lastRow, s.validations, line);
    AddBlockHeader(s, fields, line);
    var first := line + 1;
    assert s.rows == st.rows[line := BlockHeader(fields)];
    err := AddBlockRecords(s, fields, data, first, env);
    if err.Some? {
      BlockValue(st, fields, data, delimiter, env, sum);
      return line, err;
    }
    next, err := FinishBlock(s, fields, data, line, st, delimiter, sum);
  }

  /** The summary row of a block whose header and records are written,
      and the line of the next block. */
  method FinishBlock(s: Sheet, fields: seq<SelectedField>, data: seq<Record>, line: int, ghost st: Layout, delimiter: int,
                     sum: SumEnv)
    returns (next: int, err: Option<CoerceError>)
    requires s.Valid() && |data| > 0 && st.line == line
    requires s.lastRow == Max(Max(st.lastRow, st.line), st.line + |data|)
    requires s.validations == st.validations + BlockValidations(fields)
    modifies s
    ensures s.Valid()
    ensures var b := BlockEnd(st, fields, old(s.rows), |data|, delimiter, sum);
      && (err.None? <==> b.Success?)
      && (err.Some? ==> b == Failure(err.value))
      && (err.None? ==> b == Success(Layout(s.rows, s.lastRow, s.validations, next)))
  {
    var sumLine := line + 1 + |data|;
    err := AddBlockSummary(s, fields, sumLine, line + 1, sum);
    next := sumLine + 1 + delimiter;
  }
}

=== FILE: Ints.dfy ===
/** Integer helpers shared by the column decoder and the decimal renderer:
    exact powers (the source uses Math.pow) and Java's decimal rendering of
    integers (Integer.toString / String.valueOf). */
module Ints {

  function Pow(b: nat, k: nat): (r: nat)
    ensures b > 0 ==> r > 0
  {
    if k == 0 then 1 else b * Pow(b, k - 1)
  }

  lemma {:induction false} PowAdd(b: nat, m: nat, n: nat)
    ensures Pow(b, m + n) == Pow(b, m) * Pow(b, n)
  {
    if m > 0 {
      PowAdd(b, m - 1, n);
      var x, y := Pow(b, m - 1), Pow(b, n);
      assert Pow(b, m + n) == b * (x * y);
      MulAssoc(b, x, y);
    }
  }

  lemma MulAssoc(a: int, b: int, c: int)
    ensures a * (b * c) == (a * b) * c
  {
  }

  function DigitChar(d: nat): (c: char)
    requires d < 10
    ensures '0' <= c <= '9'
  {
    ('0' as int + d) as char
  }

  predicate IsDigit(c: char) { '0' <= c <= '9' }

  /** The decimal digits of n without leading zeros ("0" for zero). */
  function NatToString(n: nat): (s: string)
    ensures |s| >= 1
    ensures forall i :: 0 <= i < |s| ==> IsDigit(s[i])
    ensures |s| > 1 ==> s[0] != '0'
  {
    if n < 10 then [DigitChar(n)] else NatToString(n / 10) + [DigitChar(n % 10)]
  }

  /** Reads a string of decimal digits back as a number. */
  function DigitsValue(s: string): nat
    requires forall i :: 0 <= i < |s| ==> IsDigit(s[i])
  {
    if s == [] then 0
    else
      assert IsDigit(s[|s| - 1]);
      10 * DigitsValue(s[..|s| - 1]) + (s[|s| - 1] as int - '0' as int)
  }

  lemma {:induction false} NatToStringRoundTrip(n: nat)
    ensures DigitsValue(NatToString(n)) == n
  {
    var s := NatToString(n);
    if n >= 10 {
      NatToStringRoundTrip(n / 10);
      assert s[..|s| - 1] == NatToString(n / 10);
    }
  }

  /** Java's Integer.toString: an optional minus sign, then the magnitude. */
  function IntToString(n: int): (s: string)
    ensures |s| >= 1
    ensures n < 0 <==> s[0] == '-'
    ensures n >= 0 ==> (forall i :: 0 <= i < |s| ==> IsDigit(s[i])) && DigitsValue(s) == n
  {
    NatToStringRoundTrip(if n < 0 then -n else n);
    if n < 0 then "-" + NatToString(-n) else NatToString(n)
  }
}

=== FILE: Pagination.dfy ===
/** Splitting a record list over sheets: how many sheets exportDataList
    creates, and which records addContent writes on each. */
module Pagination {

  /** ExcelSheet.MAX_ROW: the most records one sheet receives. */
  const MAX_ROW: nat := 1048576

  /** The sheet count of exportDataList: 1 for an empty list, else the
      size divided by MAX_ROW, rounded up. */
  function SheetCount(size: nat): nat
  {
    if size == 0 then 1
    else if size % MAX_ROW == 0 then size / MAX_ROW
    else size / MAX_ROW + 1
  }

  lemma SheetCountIsCeiling(size: nat)
    ensures SheetCount(size) >= 1
    ensures size > 0 ==> (SheetCount(size) - 1) * MAX_ROW < size <= SheetCount(size) * MAX_ROW
  {
  }

  /** The first record of a sheet: 0 in multiple mode (each list is its
      own sheet), else sheetNo * MAX_ROW. */
  function StartNo(multiple: bool, sheetNo: nat): nat
  {
    if multiple then 0 else sheetNo * MAX_ROW
  }

  /** One past the last record of a sheet, computed without overflow. */
  function EndNo(multiple: bool, sheetNo: nat, size: nat): nat
  {
    if multiple then size
    else if StartNo(multiple, sheetNo) + MAX_ROW < size then StartNo(multiple, sheetNo) + MAX_ROW
    else size
  }

  /** The records sheet sheetNo writes: none when size < startNo, else
      [startNo, endNo). */
  predicate InSlice(multiple: bool, sheetNo: nat, size: nat, k: nat)
  {
    size >= StartNo(multiple, sheetNo) && StartNo(multiple, sheetNo) <= k < EndNo(multiple, sheetNo, size)
  }

  /** Every record lands on exactly one of the SheetCount sheets: the one
      numbered k / MAX_ROW. */
  lemma EveryRecordOnOneSheet(size: nat, k: nat, i: nat)
    requires k < size
    ensures k / MAX_ROW < SheetCount(size)
    ensures InSlice(false, i, size, k) <==> i == k / MAX_ROW
  {
    var q := k / MAX_ROW;
    assert q * MAX_ROW <= k < q * MAX_ROW + MAX_ROW;
    if InSlice(false, i, size, k) {
      assert i * MAX_ROW <= k < i * MAX_ROW + MAX_ROW;
    }
  }

  /** A sheet never gets more than MAX_ROW records, and in multiple mode
      it gets the whole list. */
  lemma SliceBounds(multiple: bool, sheetNo: nat, size: nat)
    requires size >= StartNo(multiple, sheetNo)
    ensures StartNo(multiple, sheetNo) <= EndNo(multiple, sheetNo, size) <= size
    ensures !multiple ==> EndNo(multiple, sheetNo, size) - StartNo(multiple, sheetNo) <= MAX_ROW
    ensures multiple ==> forall k :: 0 <= k < size ==> InSlice(multiple, sheetNo, size, k)
  {
  }

  lemma PaginationExamples()
    ensures SheetCount(0) == 1 && EndNo(false, 0, 0) == 0
    ensures SheetCount(MAX_ROW) == 1
    ensures SheetCount(MAX_ROW + 1) == 2
    ensures StartNo(false, 1) == MAX_ROW && EndNo(false, 1, MAX_ROW + 1) == MAX_ROW + 1
  {
  }

  /** Java int arithmetic: the value reduced to [-2^31, 2^31). */
  function Wrap32(x: int): int
  {
    (x + 0x8000_0000) % 0x1_0000_0000 - 0x8000_0000
  }

  /** endNo exactly as ExcelSheet.addContent computes it in int:
      Math.min(startNo + MAX_ROW, size). */
  function EndNo32(sheetNo: nat, size: nat): int
  {
    var e := Wrap32(StartNo(false, sheetNo) + MAX_ROW);
    if e < size then e else size
  }

  /** With the largest list a Java List can report (2^31 - 1 records) the
      last sheet is 2047; startNo + MAX_ROW is 2^31 and wraps to -2^31, so
      that sheet writes nothing although 1048575 records belong to it. */
  lemma EndNoOverflowDropsRecords()
    ensures var size, last := 0x7FFF_FFFF, 2047;
      && SheetCount(size) == last + 1
      && StartNo(false, last) < size
      && EndNo32(last, size) < StartNo(false, last)
      && EndNo(false, last, size) - StartNo(false, last) == 1048575
  {
  }

  /** Below that size the int computation agrees with the exact one. */
  lemma EndNo32Agrees(sheetNo: nat, size: nat)
    requires size < 0x8000_0000 && sheetNo < SheetCount(size)
    requires StartNo(false, sheetNo) + MAX_ROW < 0x8000_0000
    ensures EndNo32(sheetNo, size) == EndNo(false, sheetNo, size)
  {
  }
}

=== FILE: Workbook.dfy ===
/** The spreadsheet sink: a sheet as a map from row number to that row's
    cells (column number to cell), with POI's last-row bookkeeping and the
    validation widgets requested on it. Styles are reduced to hints. */
module Workbook {
  import opened Coercion

  datatype Style = HeaderStyle | MarkHeaderStyle | ContentStyle | MarkContentStyle | NoStyle

  datatype Cell = Cell(value: CellValue, style: Style)

  /** A data-validation request over a block of cells: a prompt box
      (setHSSFPrompt) or an explicit choice list (setHSSFValidation). */
  datatype Validation =
    | PromptBox(title: string, content: string, firstRow: int, endRow: int, firstCol: int, endCol: int)
    | ChoiceList(items: seq<string>, firstRow: int, endRow: int, firstCol: int, endCol: int)

  type Row = map<int, Cell>

  class Sheet {
    const name: string
    var rows: map<int, Row>
    var lastRow: int
    var validations: seq<Validation>

    /** getLastRowNum: 0 for a sheet without rows, else the largest row
        number created (and never below 0). */
    ghost predicate Valid()
      reads this
    {
      && lastRow >= 0
      && (forall r :: r in rows ==> r <= lastRow)
      && (lastRow == 0 || lastRow in rows)
    }

    constructor (name: string)
      ensures Valid() && this.name == name
      ensures rows == map[] && validations == []
    {
      this.name := name;
      rows := map[];
      lastRow := 0;
      validations := [];
    }

    function LastRowNum(): (n: int)
      reads this
      requires Valid()
      ensures n >= 0 && forall r :: r in rows ==> r <= n
    {
      lastRow
    }

    /** createRow: a new, empty row r, replacing any row r had. */
    method CreateRow(r: int)
      requires Valid()
      modifies this
      ensures Valid()
      ensures rows == old(rows)[r := map[]]
      ensures lastRow == if r > old(lastRow) then r else old(lastRow)
      ensures validations == old(validations)
    {
      rows := rows[r := map[]];
      if r > lastRow {
        lastRow := r;
      }
    }

    /** createCell (with its style and value) on an existing row; a second
        cell in the same column replaces the first. */
    method SetCell(r: int, c: int, cell: Cell)
      requires Valid() && r in rows
      modifies this
      ensures Valid()
      ensures rows == old(rows)[r := old(rows)[r][c := cell]]
      ensures lastRow == old(lastRow) && validations == old(validations)
    {
      rows := rows[r := rows[r][c := cell]];
    }

    method AddValidation(v: Validation)
      modifies this
      ensures rows == old(rows) && lastRow == old(lastRow)
      ensures validations == old(validations) + [v]
    {
      validations := validations + [v];
    }
  }
}

=== FILE: Wrappers.dfy ===
/** Option and Result, for absent values and for the exceptions the export
    lets escape; and Collect, for a run of steps that stops at the first
    exception. */
module Wrappers {
  datatype Option<+T> = None | Some(value: T)

  datatype Result<+T, +E> = Success(value: T) | Failure(error: E)

  /** The values of rs in order, or the failure of the first step that
      fails: what a loop that throws out of its first failing turn
      produces. */
  function Collect<T, E>(rs: seq<Result<T, E>>): (r: Result<seq<T>, E>)
    ensures r.Success? ==> |r.value| == |rs|
  {
    if rs == [] then Success([])
    else
      match Collect(rs[..|rs| - 1])
      case Failure(e) => Failure(e)
      case Success(vs) =>
        match rs[|rs| - 1]
        case Failure(e) => Failure(e)
        case Success(v) => Success(vs + [v])
  }

  /** One more step: its value is appended, or its failure is the result. */
  lemma CollectSnoc<T, E>(rs: seq<Result<T, E>>, x: Result<T, E>)
    ensures Collect(rs + [x])
         == match Collect(rs)
            case Failure(e) => Failure(e)
            case Success(vs) =>
              (match x
               case Failure(e) => Failure(e)
               case Success(v) => Success(vs + [v]))
  {
    assert (rs + [x])[..|rs|] == rs;
  }

  /** The run succeeds iff every step does, and then value k is step k's. */
  lemma {:induction false} CollectAt<T, E>(rs: seq<Result<T, E>>)
    ensures Collect(rs).Success? <==> forall k :: 0 <= k < |rs| ==> rs[k].Success?
    ensures Collect(rs).Success? ==> forall k :: 0 <= k < |rs| ==> Collect(rs).value[k] == rs[k].value
  {
    if rs != [] {
      var n := |rs| - 1;
      CollectAt(rs[..n]);
      assert forall k :: 0 <= k < n ==> rs[..n][k] == rs[k];
    }
  }

  /** A failed run fails with the failure of its first failing step. */
  lemma {:induction false} CollectFirstFailure<T, E>(rs: seq<Result<T, E>>)
    requires Collect(rs).Failure?
    ensures exists i :: (0 <= i < |rs| && rs[i] == Failure(Collect(rs).error)
      && forall j :: 0 <= j < i ==> rs[j].Success?)
  {
    var n := |rs| - 1;
    assert forall k :: 0 <= k < n ==> rs[..n][k] == rs[k];
    if Collect(rs[..n]).Failure? {
      CollectFirstFailure(rs[..n]);
      var i :| 0 <= i < n && rs[..n][i] == Failure(Collect(rs[..n]).error)
        && forall j :: 0 <= j < i ==> rs[..n][j].Success?;
      assert rs[i] == Failure(Collect(rs).error);
    } else {
      CollectAt(rs[..n]);
      assert rs[n] == Failure(Collect(rs).error);
    }
  }

  /** Once a prefix of the run has failed, the later steps change
      nothing. */
  lemma {:induction false} CollectFailureSticks<T, E>(rs: seq<Result<T, E>>, m: nat)
    requires m <= |rs| && Collect(rs[..m]).Failure?
    ensures Collect(rs) == Collect(rs[..m])
    decreases |rs| - m
  {
    if m < |rs| {
      assert rs[..m + 1][..m] == rs[..m];
      CollectFailureSticks(rs, m + 1);
    } else {
      assert rs[..m] == rs;
    }
  }
}
